=== FILE: README.md ===
# bailianWEBUI in Dafny

A model of the image-generation client and its front-ends from the
bailianWEBUI repository, with proofs of what they promise. The repository
wraps one cloud image API: a Python client class, a Gradio web UI and three
older English variants, a Flask server, an error-diagnosis helper, and a
linter that flags oversized files.

The model keeps the logic and leaves out the effects. Every network reply,
download outcome, file on disk, clock reading and environment variable is
an input value. Examples are a sequence of task-status observations, a set
of existing paths, and `Call = Returned(result) | Raised(reason)`. The
model then states what each operation does with those inputs.

Modules, one per concern:

- `Wrappers`, `Text`, `Seqs`, `Json`: Python semantics the code relies on.
  These are `Option`/`Result`, `str.strip`, ASCII `str.lower`, `in` on
  strings, `split`, `join`, `int()` on text, `str()` of numbers, JSON
  values with truthiness, and the "keep the positions that pass a test"
  shape of the source's filter loops.
- `Generator`: the `BailianImageGenerator` constructor and the request
  bodies of `generate_image` and `edit_image`. This covers the MIME table,
  the data URL, the optional seed and the edit strength.
- `Polling`: the two polling loops `_wait_for_result` and
  `_wait_for_edit_result` over a sequence of observations. Also
  `_save_images`, `_download_images`, and the two client methods end to
  end.
- `Cli`: the model and size menus of `interactive_mode`.
- `UiCommon`: the two ways the front-ends read a seed, and the
  existing-files filter.
- `GradioUi`: `bailian_webui.py`, namely `init_generator`,
  `generate_image`, `edit_image` and `generate_video`.
- `LegacyUi`: `bailian_webui_simple.py`, `bailian_webui_uvicorn.py` and
  `bailian_webui_fixed.py`. Their handlers are the same code, so they are
  modelled once.
- `FlaskServer`: `bailian_webui_flask.py`. This covers the API-call
  statistics, the request counters, the handlers, the generate and edit
  routes, and the key and configuration endpoints.
- `Diagnose`: `diagnose_api_error` of `api_diagnose.py`. Each advice line
  is a value (`Header`, `Numbered`, `Detail`) rendered to its exact text.
- `FileSizeCheck`: `check_file_size.py` over a directory tree given as a
  value.

## Model

| member | source | states |
|---|---|---|
| Generator.NewGenerator | bailian_image_gen.py:98-107 | A client is built exactly when the given key or the environment key is non-empty. The given key wins. Otherwise construction fails with the "请提供API Key…" message. |
| Generator.GenPayload | bailian_image_gen.py:145-157 | The text-to-image body has exactly `model`, `input` and `parameters`. `input` holds only `prompt`. `parameters` holds `size` and `n`, plus `seed` exactly when one is given. |
| Generator.GenPayloadRoundTrip | bailian_image_gen.py:145-157 | Reading the body back gives the request unchanged, including the absence of a seed. |
| Generator.MimeForExtension | bailian_image_gen.py:208-214 | The table, in both directions: image/jpeg exactly for "jpg" and "jpeg", image/gif exactly for "gif", image/webp exactly for "webp", and image/png exactly for every other extension. |
| Generator.MimeType | bailian_image_gen.py:206-214 | The type of any path is one of the four image types. |
| Generator.MimeTypeOfExtension | bailian_image_gen.py:207-214 | The type depends only on the lower-cased text after the last dot, whatever comes before it. |
| Generator.MimeTypeWithoutDot | bailian_image_gen.py:207 | A path without a dot is sent as image/png. |
| Generator.DataUrlRoundTrip | bailian_image_gen.py:225 | `data:<mime>;base64,<data>` parses back into the same MIME type and data. |
| Generator.EditParameters | bailian_image_gen.py:227-238 | The edit parameters are `n`, `seed` exactly when given, and `strength` = 0.5 exactly for `description_edit` and `stylization_all`. |
| Generator.EditPayload | bailian_image_gen.py:220-238 | The edit body has `model`, `input` with `function`/`prompt`/`base_image_url`, and `parameters`. Seed and strength are present under the conditions above. |
| Generator.EditPayloadRoundTrip | bailian_image_gen.py:220-238 | Every edit request the client builds is read back whole, with the image intact inside its data URL. |
| Polling.SaveEntries | bailian_image_gen.py:448-470 | There is one `results` entry per item with a URL, in item order. Each holds a file exactly when its download worked and an error otherwise. Items without a URL are skipped. |
| Polling.SomeFileSaved | bailian_image_gen.py:448-473 | Some entry is a saved file exactly when some item with a URL was downloaded. |
| Polling.FilesOf | bailian_image_gen.py:464-474 | The saved file list has no more files than there are entries. It is empty exactly when no entry is a saved file. |
| Polling.SaveImages | bailian_image_gen.py:429-476 | `success` holds exactly when some URL item was downloaded. The entries are those above. Without `results` the result is empty and not a success. |
| Polling.DownloadImages | bailian_image_gen.py:348-382 | Files follow URL order and are named after the URL's position. Failed downloads are skipped, so there are never more files than URLs. There are none exactly when every download failed, and all of them exactly when none failed. |
| Polling.DownloadsOf | bailian_image_gen.py:323-327 | The URLs collected are exactly those of the items that have one, in order. |
| Polling.EditSucceeded | bailian_image_gen.py:320-332 | On SUCCEEDED the edit fails with "未获取到编辑后的图片" exactly when no item has a URL. Otherwise it succeeds, even with no file downloaded. |
| Polling.NothingFetchedNoFiles | bailian_image_gen.py:329-331 | When every download fails, the successful edit result lists no files. |
| Polling.GenStep | bailian_image_gen.py:408-421 | One check of the generation loop yields a result exactly for a SUCCEEDED or FAILED reply. |
| Polling.EditStep | bailian_image_gen.py:317-340 | One check of the edit loop yields a result exactly for a SUCCEEDED or FAILED reply. |
| Polling.Poll | bailian_image_gen.py:402-427 | At most `max_retries` checks are made. The loop stops at the first check that yields a result and returns it. If no check does, it returns the timeout after exactly `max_retries` checks. The result agrees with `Polling.PollResult`, the loop written as a recursion over the checks. |
| Polling.PollFromFirst | bailian_image_gen.py:402-427 | The recursive reference returns the result of the first check that has one, and the timeout when no check within the budget has one. |
| Polling.FailedTaskIsNotTimeout | bailian_image_gen.py:414-427 | A failed-task error never equals either timeout error. |
| Polling.WaitForResult | bailian_image_gen.py:384-427 | The first terminal status decides the result. SUCCEEDED gives the saved images. FAILED gives "任务失败: " and the server message or "未知错误". No terminal status within the budget gives the timeout error. A success comes from a SUCCEEDED check. The result is the recursive reference over the generation step. |
| Polling.WaitForEditResult | bailian_image_gen.py:293-346 | The same for edits: SUCCEEDED gives the edit-success branch, FAILED "任务失败: " with the server message, and no terminal status within the budget "等待任务完成超时". The result is the recursive reference over the edit step. |
| Polling.GenerateImage | bailian_image_gen.py:125-180 | The body sent reads back as the request. An accepted task gives exactly what polling 60 times gives. A reply without a task id gives "提交任务失败: " and the reply, a request error "请求异常: " and the reason, and any other exception "异常: " and the reason. Success needs an accepted task and a SUCCEEDED check within 60. |
| Polling.EditImage | bailian_image_gen.py:182-291 | An unreadable image fails with "读取图片失败: " before any body is built. Otherwise the body reads back as the request, with the MIME type of the path. An accepted task gives exactly what polling 60 times gives. An API error, an unrecognised reply, an HTTP error, a request error and any other exception each give their own message. Success needs an accepted task and a SUCCEEDED check. |
| Polling.EditOutcome | bailian_image_gen.py:254-291 | For a body that was built: each way submitting can end maps to its result, and an accepted task to the result of polling. |
| Cli.Menu | bailian_image_gen.py:30-96 | The numbered model tables map the key `str(k)` to entry k. |
| Cli.MenuLookup | bailian_image_gen.py:524 | Looking up an answer finds nothing exactly when no menu number prints as that answer. Otherwise it finds that number's model. |
| Cli.MenuAnswer | bailian_image_gen.py:523 | The answer is the stripped line, or the default for a blank line. |
| Cli.MenuSelect | bailian_image_gen.py:524 | The selection is always on the menu. It is the numbered entry for a menu number, and the fallback entry for any other answer. |
| Cli.SelectModel | bailian_image_gen.py:523-524 | The text-to-image model is the one numbered by the answer. An unknown answer or an empty line gives `MODELS["1"]`, "wanx-v1". |
| Cli.SelectEditModel | bailian_image_gen.py:566-567 | The edit model is the one numbered by the answer. An unknown answer or an empty line gives `EDIT_MODELS["2"]`, "qwen-image-edit-plus". |
| Cli.PyIndex | bailian_image_gen.py:533 | Python indexing: defined exactly for -len..len-1, with negative positions counting from the end, and what it finds is always an element of the list. |
| Cli.PyIndexAliases | bailian_image_gen.py:533 | Every element is reached twice: position i and position i - len pick the same element. |
| Cli.IndexedSize | bailian_image_gen.py:528-535 | The size menu as written: 1-5 pick their size, a non-number or an index out of range gives "1024*1024", and the result is always a listed size. |
| Cli.SizeZeroPicksLast | bailian_image_gen.py:531-535 | The answer "0" selects "1920*1080", not the default. |
| Cli.MenuSize | bailian_image_gen.py:528-535 | The corrected menu: 1-5 pick their size, and every other answer gives the default. |
| Cli.SizeMenusDisagree | bailian_image_gen.py:531-535 | The written and the corrected menus differ exactly on the answers 0, -1, -3 and -4. |
| UiCommon.TruthySeed | bailian_webui_flask.py:188 | `None`, 0, "" and blank text mean no seed. A non-zero number is used as is. Other text is parsed, and text `int` rejects raises a ValueError. |
| UiCommon.LenientSeed | bailian_webui.py:219-224 | `None` and "" mean no seed, 0 stays seed 0, and text `int` rejects is dropped silently. |
| UiCommon.SeedReadingsAgree | bailian_webui.py:219-224 | The two seed readings agree except on 0, which only the Gradio UI keeps, and on text `int` rejects, which only the Gradio UI forgives. |
| UiCommon.ExistingFiles | bailian_webui.py:236-239 | The files kept are the reported files filtered by existence: the same order and the same repetitions, every reported existing file kept, and nothing else. None are kept exactly when none exists. |
| GradioUi.InitGenerator | bailian_webui.py:152-170 | A non-blank key is stripped, used, exported and saved, with "✅ API Key 设置成功并已保存到本地！". A blank key falls back to the environment key, leaves the saved key alone and reports "✅ 已从环境变量读取 API Key". Success hides the key row and shows the interface. Failure does the reverse and changes nothing. |
| GradioUi.FileList | bailian_webui.py:242 | Every reported file appears in the success message's file list. |
| GradioUi.FileListLines | bailian_webui.py:242 | Read back at its line breaks, the file list is exactly one "📁 <path>" line per reported file, in the reported order, when no path holds a line break. |
| GradioUi.ImageResultView | bailian_webui.py:234-247 | A gallery is shown exactly on success with some existing file, and it holds those files. Its message is the success text, a blank line, "保存位置:" and the file list of every reported file. Success without files gives the warning. Failure gives the prefix and the result's error or "未知错误". |
| GradioUi.GenerateImage | bailian_webui.py:206-250 | The missing generator is checked before the blank prompt. The call uses the table's model or "wanx-v1", the stripped prompt and the lenient seed. A raising call shows "❌ 错误: " and the reason. |
| GradioUi.EditImage | bailian_webui.py:253-302 | The guards run in the order generator, prompt, image. The call uses the edit table's model or "qwen-image-edit". The results map as for generation, with the edit texts. |
| GradioUi.GenerateVideo | bailian_webui.py:172-203 | The stripped prompt, the size and the duration are passed through, and a blank audio URL is sent as `None`. The model defaults to "wan2.6-t2v". On success the video is shown exactly when the first reported file exists, with "✅ 视频生成成功！" and its path; otherwise the "⚠️ 视频已生成但未能读取文件" warning. An empty file list on success raises the IndexError, and a raising call, both shown as "❌ 错误: " with the reason. |
| GradioUi.VideoLikeFirstImage | bailian_webui.py:172-203 | The video is shown exactly when the image view of its first file alone would show a gallery, and the gallery is that video. |
| GradioUi.EditWithoutDownloadsWarns | bailian_webui.py:286-297 | An edit whose downloads all failed still counts as a success, so the UI shows the "edited but unreadable" warning. |
| GradioUi.GenerationWithoutFilesFails | bailian_webui.py:234-247 | A generation that saved nothing is a failure without an error text, so the UI shows "❌ 生成失败: 未知错误". |
| LegacyUi.SelectModel | bailian_webui_simple.py:53-82 | `MODEL_CHOICES` is the identity on its five ids, and any other name gives "wanx-v1". |
| LegacyUi.InitGenerator | bailian_webui_uvicorn.py:54-64 | A non-blank key is stripped and used, and a blank one falls back to the environment. Success and failure give opposite visibility pairs. Failure keeps the old generator and shows "Error: " with the message. |
| LegacyUi.GenerateImage | bailian_webui_simple.py:75-101 | The generator is checked before the prompt. A falsy seed means none. A seed `int` rejects escapes as an exception. On success the gallery holds the existing files and is absent exactly when none exists, with "Warning: Images generated but files not found"; a shown gallery comes with "Success!", "Saved to:" and every reported file on its own line. Failure and exceptions show "Error: " with the error or "Unknown error". |
| LegacyUi.ListedFiles | bailian_webui_fixed.py:82 | Every reported file appears in the newline-joined success message. |
| LegacyUi.SameGalleryAsGradio | bailian_webui_fixed.py:62-88 | For the same client outcome the English variants show exactly the gallery the main Gradio UI shows. |
| FlaskServer.UpdateApiStats | bailian_webui_flask.py:135-144 | A call adds one to the total and one to exactly one of success and failure, and adds its time. The average times the total is the total time. Consistent statistics stay consistent. |
| FlaskServer.RecordCounts | bailian_webui_flask.py:135-144 | After any run of calls the statistics count the calls, the successes, the failures and the time taken, and they stay consistent. |
| FlaskServer.InitGenerator | bailian_webui_flask.py:166-175 | It succeeds exactly when the key is non-blank or the environment has one. A non-blank key is stripped and used. Failure keeps the old generator and reports "错误: " with the constructor's message. |
| FlaskServer.Basename | bailian_webui_flask.py:201 | The base name holds no '/' and ends the path. |
| FlaskServer.BasenameOfJoined | bailian_webui_flask.py:201 | A file inside a directory is shown by its own name. |
| FlaskServer.ShownImages | bailian_webui_flask.py:201 | The images shown are the base names of the existing files, in order. There are none exactly when no reported file exists. |
| FlaskServer.GenerateImage | bailian_webui_flask.py:177-213 | The missing generator is checked before the blank prompt, and neither touches the statistics. A bad seed or a raising call is recorded as a failed call taking no time. A returned result is recorded with its success and time. Success shows the base names and "成功生成 n 张图片！". |
| FlaskServer.DescribeEditError | bailian_webui_flask.py:255-267 | The message starts with "错误: " and ends with the original error. It gets an explanation exactly when the error carries one of the HTTP status markers. |
| FlaskServer.BadRequestFirst | bailian_webui_flask.py:256-259 | An error with "400 Client Error" is explained as a 400 whatever other markers it carries. It is the endpoint case exactly when its lower-cased text contains "url error". |
| FlaskServer.BadRequestTexts | bailian_webui_flask.py:256-259 | A 400 error reads "错误: ", the endpoint-unavailable cause when its lower-cased text mentions "url error" and the bad-parameter cause otherwise, then "详细错误: " and the error. |
| FlaskServer.EditErrorChain | bailian_webui_flask.py:260-267 | Without a 400 marker, "401 Unauthorized" is tried first, then "403 Forbidden", then "500 Server Error". Each gets its own cause (invalid key, no permission or quota, server error) before "详细错误: " and the error, and an error with none of them is only prefixed with "错误: ". |
| FlaskServer.EditImage | bailian_webui_flask.py:215-271 | The guards run in the order generator, prompt, image file. A seed `int` rejects is answered with "错误: " and its ValueError and recorded as a failed call. The call carries the stripped prompt, the image path, the model, the size and the seed. Failures get the classified message. The statistics are kept as for generation. |
| FlaskServer.Tally | bailian_webui_flask.py:849-887 | A request adds one to the request count and one to errors or successes. The request count stays the sum of the two. |
| FlaskServer.ResponseFor | bailian_webui_flask.py:876-887 | A reply is a success exactly when the handler gave a non-empty image list. Only then does it carry the images. |
| FlaskServer.GenerateFields | bailian_webui_flask.py:856-887 | Once the fields are read, every request is tallied once, as an error or as a success, and the counter sum is preserved. `generate_count` rises exactly when a generator is set and the stripped prompt is non-empty. Absent fields take "wanx-v1" and "1024*1024". An accepted request is answered from `generate_image`'s result, and takes its statistics and its client call. |
| FlaskServer.GenerateRoute | bailian_webui_flask.py:845-887 | The route as written: the request is counted first, and with a key set a body that is not an object or has a non-text prompt raises with no reply and changes nothing else. Any body answered agrees with the field-level route, and only answered requests keep the counter sum. |
| FlaskServer.MalformedBodyUncounted | bailian_webui_flask.py:849-857 | With a key set, a body that is not a JSON object leaves the request counted but neither failed nor successful, so the total exceeds the sum by one. |
| FlaskServer.GenerateRouteCounted | bailian_webui_flask.py:845-887 | The corrected route answers an unreadable body as a failure and counts it as an error, so the total stays the sum of successes and errors for every body; every other body is answered as written. |
| FlaskServer.NoImagesIsFailure | bailian_webui_flask.py:873-887 | A generation that succeeded but left no file on disk is answered as a failure carrying "成功生成 0 张图片！". It counts as an error, yet as a successful API call. |
| FlaskServer.EditRoute | bailian_webui_flask.py:889-963 | The guards run in the order generator, image part, empty file name, prompt. Each request is tallied once and the counter sum is preserved. `edit_count` rises only past the guards. Past them the handler edits the saved upload `uploads/<uuid>_<name>`, and the reply, the statistics and the client call are those of `edit_image`. |
| FlaskServer.SetKey | bailian_webui_flask.py:820-834 | It succeeds exactly as `init_generator` does. The configuration is written exactly on success with a truthy `save` (default true). The written configuration holds the stripped key, and every other key is unchanged. |
| FlaskServer.BlankKeyClearsSavedKey | bailian_webui_flask.py:824-832 | A blank key with the environment set succeeds, uses the environment key, and saves `api_key` as "". |
| FlaskServer.ClearConfig | bailian_webui_flask.py:836-843 | Only `api_key` is removed, and the file is written only when the key was present. The reply is always a success. |
| FlaskServer.ClearThenSet | bailian_webui_flask.py:814-843 | After clearing, the endpoint reports no key. A key set and saved afterwards is reported again. |
| Diagnose.DiagnoseApiError | api_diagnose.py:19-58 | The text is empty exactly when the message mentions none of 400, 401 and 429. Otherwise it opens with the first triggered section's header and never ends in a line break. |
| Diagnose.PromptIgnored | api_diagnose.py:19-58 | The prompt argument never changes the diagnosis. |
| Diagnose.AdviceEnds | api_diagnose.py:23-56 | The first triggered section's header opens the advice, and a hint line closes it. |
| Diagnose.GeneralAdviceLast | api_diagnose.py:42-46 | The 400 section ends with the same general-solution item and its four hints whatever the model. |
| Diagnose.SectionsInOrder | api_diagnose.py:23-56 | The sections present are 400, 401 and 429 for the codes the message mentions, in that order and independently. |
| Diagnose.ItemsInOrder | api_diagnose.py:23-46 | The numbered items are those of the model's family in the order 1, 2, 3, then the general item, and only for a 400. |
| Diagnose.ModelAdviceIff | api_diagnose.py:27-40 | The size item appears exactly for a 400 and a `wan2.`/`wanx2.` model. The newer-model item appears exactly for a 400 and a 2.6/2.5/2.2 model. The Qwen item appears exactly for a 400 and a `qwen-image` model. |
| Diagnose.HintSingleLine | api_diagnose.py:29-56 | Every fixed hint is one non-empty line. |
| Diagnose.LinesOfDiagnosis | api_diagnose.py:58 | Splitting the text at line breaks gives back exactly the advice lines, when model and size hold no line break. |
| FileSizeCheck.Extension | check_file_size.py:36 | `os.path.splitext(name)[1]` is empty or a dot-led suffix of the name with no further dot. A name without a dot has none, and a non-empty extension always has some non-dot character before it. |
| FileSizeCheck.ExtensionOf | check_file_size.py:36 | A name whose stem is not all dots has the text from its last dot as extension. |
| FileSizeCheck.DotStemNoExtension | check_file_size.py:36 | A name whose stem is only dots, such as ".py" or "..md", has no extension, so it is never checked. |
| FileSizeCheck.FlagRule | check_file_size.py:36-43 | A `.py`, `.md` or `.txt` file, in any letter case, is flagged exactly when it has more than 500 lines. |
| FileSizeCheck.UnreadableNotFlagged | check_file_size.py:16-23 | An unreadable file counts as 0 lines and is never flagged. |
| FileSizeCheck.FilesHere | check_file_size.py:34-40 | The files of a directory are visited as `<root>/<name>`, every file once. |
| FileSizeCheck.ExcludedNotDescended | check_file_size.py:30-32 | The contents of an excluded directory never affect what is visited. |
| FileSizeCheck.IssuesOf | check_file_size.py:34-50 | There is one issue per flagged file, in walk order. Each records max 500 and more lines than that. There are none exactly when no file is flagged. |
| FileSizeCheck.Pick | check_file_size.py:43-48 | Each issue records its file's path and line count with max 500, and is over the limit. |
| FileSizeCheck.IssuesComplete | check_file_size.py:26-50 | Every flagged file has its issue. The issues are exactly those of the flagged files, in walk order, which agrees with a plain filter over the walk. |
| FileSizeCheck.Insert | check_file_size.py:62 | Inserting into a list in descending order of lines keeps it descending and adds exactly that issue. |
| FileSizeCheck.SortByLines | check_file_size.py:62 | The sorted issues are the same issues, in descending order of lines. |
| FileSizeCheck.SortedOverLimit | check_file_size.py:62-65 | Sorting keeps every issue over its limit, so each printed excess is positive. |
| FileSizeCheck.IssueBlocks | check_file_size.py:62-66 | Each issue gets its four-line block, in list order. |
| FileSizeCheck.PrintIssues | check_file_size.py:53-71 | No issue prints only the all-clear line. Otherwise the output is the count line, a rule of 80 dashes, the blocks of the issues sorted longest first, and the four advice lines "建议：" and the three numbered suggestions. |
| FileSizeCheck.CheckRun | check_file_size.py:74-83 | The exit status is 1 exactly when some visited file is flagged, and 0 otherwise. |
| Text.Strip | bailian_webui.py:156 | `str.strip()` is empty exactly for blank text, and leaves text with no outer whitespace unchanged. |
| Text.StripIdempotent | bailian_webui_flask.py:857 | Stripping the already stripped prompt again changes nothing. |
| Text.SplitLast | bailian_image_gen.py:207 | The last piece of `split('.')` is the text after the last dot. |
| Text.ParseInt | bailian_image_gen.py:533 | `int()` of blank text raises. |
| Text.IntToStringRoundTrip | bailian_webui_flask.py:188 | `int(str(i)) == i` for every integer. |

## Left out

- HTTP traffic, JSON parsing of replies, `raise_for_status`, sleeping between checks and progress printing. Each status check is an `Observation` and each download a `Fetch` outcome.
- Filesystem effects: reading, writing and deleting files, `os.makedirs`, the upload save and clean-up, and `os.walk` errors and symbolic links. Existence is a set of paths, a file read is its line count or `Unreadable`, and the tree is an `Entry` value.
- Base64 encoding (an opaque string input), timestamps in file names (carried by each `Fetch`), and the `uuid` of uploads (an input).
- Gradio and Flask wiring, the HTML template, `index`, `serve_image`, `print_stats` and `get_stats`, port probing, browser threads, the httpx patch, Windows console re-encoding and logging.
- fetch_api_doc.py and test_encoding.py are not part of this model.
- `generate_video` calls `generate_video` on the client, which `BailianImageGenerator` does not define. The model keeps what the call returns as an input, so the behaviour for a client that had the method is stated.
- GradioUi.InitGenerator: the "❌ 初始化失败" branch for exceptions other than ValueError is not modelled, because with a non-blank key the constructor cannot raise.
- Text.Lower: only ASCII letters are lower-cased. That is exact for the `.py`/`.md`/`.txt` comparison and for "url error", but not for Unicode case folding.
- Text.ParseInt: non-ASCII digits that Python's `int()` accepts are rejected.
- UiCommon.TruthySeed: a JSON float seed, a JSON `null` seed or a non-string `api_key` in a request body is not modelled, because only the seed shapes the front-ends pass are modelled.
- FlaskServer.GenerateRoute: non-text `model` and `size` values and a seed other than text or an integer are not modelled; the body carries them as text and `SeedInput`. A non-text prompt is modelled, as a body that raises.
- FlaskServer.Basename: every path is split and joined as on POSIX, with '/' only. On Windows `os.path.basename` also splits at a backslash and `os.path.join` writes one. The same holds for the names built by Polling.ImageFileName, Polling.EditedFileName, FlaskServer.UploadPath and the walk of FileSizeCheck.FilesHere.
- UiCommon.IntValueError: the rejected text is quoted with single quotes as it stands, while Python uses `repr`, which switches to double quotes or escapes for text holding quotes or control characters.
- Polling.WaitForResult: a JSON `null` task message is shown by Python as "None"; the model has no such value and shows "未知错误" as for a missing message. The same holds for the edit loop and for the message of an API error reply.
- Polling.SaveEntries: an item whose `url` is JSON `null` is treated as having no URL, while Python's `"url" in item` counts it as present. Python then records a download error for it when saving, and an edit whose only URLs are `null` succeeds with no files instead of failing with "未获取到编辑后的图片". The same holds for Polling.DownloadsOf and Polling.EditSucceeded.
- FileSizeCheck.SortByLines: the order among issues with equal line counts (Python's sort is stable) is not stated, only descending order and the same issues.
- FlaskServer.UpdateApiStats: times are reals, so floating-point rounding of `avg_time` is not modelled.
- FlaskServer.SetKey: a failing `save_config` is not modelled. The written configuration is what the server tries to write.
- The `{"success": ..., "error": ...}` dictionaries are the `ApiResult` datatype, and `repr` of an unrecognised reply is the input text `body`.
- Polling.Poll: the checks past the end of the observation sequence count as non-terminal, so a short sequence ends in the timeout.

## Findings

| source | as written | input that shows it | evidently intended | confidence | as-written member | corrected member |
|---|---|---|---|---|---|---|
| bailian_image_gen.py:531-535 | `sizes[int(size_choice) - 1]` uses Python indexing, so 0 and the negative answers -1, -3 and -4 select sizes from the end of the list instead of the default (the same code is at 574-578) | the answer "0" selects "1920*1080" | only 1-5 select a size; every other answer gets "1024*1024" | not executed | Cli.SizeZeroPicksLast | Cli.MenuSize |
| bailian_webui_flask.py:845-887 | `request_count` rises at line 849 before `request.json` is read at 856-857, so a body that is not an object, or a prompt that is not text, raises after the request was counted but before an error or a success is counted | with a key set, a JSON body `null` | every request counted once as a success or an error, as the statistics endpoint (981-992) and the shutdown summary (109-115) report total, successful and failed requests side by side | not executed | FlaskServer.MalformedBodyUncounted | FlaskServer.GenerateRouteCounted |

=== FILE: cli.dfy ===
/** The menu answers of `interactive_mode` in bailian_image_gen.py: which
    model and which size a typed line selects. */
module Cli {
  import opened Wrappers
  import opened Text
  import opened Seqs

  /** The model ids of `BailianImageGenerator.MODELS`, in menu order: the
      dictionary's keys are "1" to "37", the id under key `str(k)` sits at
      position `k - 1`. */
  const Models: seq<string> := [
    "wanx-v1", "wanx2.1-t2i-turbo", "wanx2.1-t2i-plus", "wan2.6-t2i", "wan2.5-t2i-preview",
    "wan2.2-t2i-plus", "wan2.2-t2i-flash", "wan2.0-t2i-turbo", "wanx2.0-t2i-turbo",
    "qwen-image", "qwen-image-plus", "qwen-image-max", "qwen-image-turbo",
    "qwen-image-plus-2026-01-09", "qwen-image-max-2025-12-30", "flux-schnell", "flux-dev",
    "flux-merged", "wanx-sketch-to-image-lite", "wanx-x-painting", "wanx-style-repaint-v1",
    "wanx-background-generation-v2", "wanx-poster-generation-v1", "wanx-virtualmodel",
    "image-out-painting", "wanx2.1-imageedit", "wanx2.1-vace-plus", "wan2.5-i2i-preview",
    "wordart-semantic", "wordart-texture", "aitryon", "aitryon-plus", "aitryon-refiner",
    "aitryon-parsing-v1", "emoji-v1", "emoji-detect-v1", "qwen-mt-image"]

  /** The model ids of `BailianImageGenerator.EDIT_MODELS`, keyed "1" to
      "6" the same way. */
  const EditModels: seq<string> := [
    "qwen-image-edit", "qwen-image-edit-plus", "qwen-image-edit-max",
    "qwen-image-edit-plus-2025-12-15", "qwen-image-edit-plus-2025-10-30",
    "qwen-image-edit-max-2026-01-16"]

  const Sizes: seq<string> := ["512*512", "768*768", "1024*1024", "1280*720", "1920*1080"]
  const DefaultSize: string := "1024*1024"

  /** A numbered menu as the dictionary it is: entry `k` is keyed `str(k)`. */
  function Menu(ids: seq<string>): (table: seq<(string, string)>)
    ensures |table| == |ids|
    ensures forall i :: 0 <= i < |ids| ==> table[i] == (NatToString(i + 1), ids[i])
  {
    seq(|ids|, i requires 0 <= i < |ids| => (NatToString(i + 1), ids[i]))
  }

  /** `menu.get(answer)`: the id numbered by the answer's exact text, and
      nothing for a text that numbers no entry ("01", "+1" and " 1" number
      none). */
  lemma MenuLookup(ids: seq<string>, answer: string)
    ensures Find(Menu(ids), answer).None? <==> forall k :: 1 <= k <= |ids| ==> NatToString(k) != answer
    ensures forall k :: 1 <= k <= |ids| && NatToString(k) == answer ==> Find(Menu(ids), answer) == Some(ids[k - 1])
  {
    var table := Menu(ids);
    var r := Find(table, answer);
    if r.Some? {
      var i :| 0 <= i < |table| && table[i].0 == answer && table[i].1 == r.value;
      assert NatToString(i + 1) == answer;
      forall k | 1 <= k <= |ids| && NatToString(k) == answer
        ensures r == Some(ids[k - 1])
      {
        NatToStringInjective(i + 1, k);
      }
    } else {
      forall k | 1 <= k <= |ids|
        ensures NatToString(k) != answer
      {
        assert table[k - 1].0 != answer;
      }
    }
  }

  /** `input(...).strip() or default`. */
  function MenuAnswer(line: string, default: string): (a: string)
    ensures IsBlank(line) ==> a == default
    ensures !IsBlank(line) ==> a == Strip(line)
  {
    var t := Strip(line);
    if t == "" then default else t
  }

  /** `menu.get(answer, menu[fallback])` on a numbered menu. */
  function MenuSelect(ids: seq<string>, answer: string, fallback: nat): (m: string)
    requires 1 <= fallback <= |ids|
    ensures m in ids
    ensures forall k :: 1 <= k <= |ids| && NatToString(k) == answer ==> m == ids[k - 1]
    ensures (forall k :: 1 <= k <= |ids| ==> NatToString(k) != answer) ==> m == ids[fallback - 1]
  {
    MenuLookup(ids, answer);
    Find(Menu(ids), answer).GetOr(ids[fallback - 1])
  }

  /** The text-to-image model a menu line selects: the model numbered by
      the answer, or model 1 for an answer that numbers none and for an
      empty line. */
  function SelectModel(line: string): (m: string)
    ensures m in Models
    ensures forall k :: 1 <= k <= |Models| && NatToString(k) == MenuAnswer(line, "1") ==> m == Models[k - 1]
    ensures (forall k :: 1 <= k <= |Models| ==> NatToString(k) != MenuAnswer(line, "1")) ==> m == "wanx-v1"
    ensures IsBlank(line) ==> m == "wanx-v1"
  {
    assert NatToString(1) == "1";
    MenuSelect(Models, MenuAnswer(line, "1"), 1)
  }

  /** The edit model a menu line selects: the model numbered by the
      answer, or model 2 for an answer that numbers none and for an empty
      line. */
  function SelectEditModel(line: string): (m: string)
    ensures m in EditModels
    ensures forall k :: 1 <= k <= |EditModels| && NatToString(k) == MenuAnswer(line, "2") ==> m == EditModels[k - 1]
    ensures (forall k :: 1 <= k <= |EditModels| ==> NatToString(k) != MenuAnswer(line, "2")) ==> m == "qwen-image-edit-plus"
    ensures IsBlank(line) ==> m == "qwen-image-edit-plus"
  {
    assert NatToString(2) == "2";
    MenuSelect(EditModels, MenuAnswer(line, "2"), 2)
  }

  /** Python's `xs[i]`: negative positions count from the end; `None`
      stands for the IndexError. */
  function PyIndex<T>(xs: seq<T>, i: int): (r: Option<T>)
    ensures r.Some? <==> -|xs| <= i < |xs|
    ensures 0 <= i < |xs| ==> r == Some(xs[i])
    ensures -|xs| <= i < 0 ==> r == Some(xs[|xs| + i])
    ensures r.Some? ==> r.value in xs
  {
    if 0 <= i < |xs| then Some(xs[i])
    else if -|xs| <= i < 0 then Some(xs[|xs| + i])
    else None
  }

  /** Every element can be reached twice: a negative index `i - |xs|`
      names the same element as `i`. This is why out-of-menu answers can
      still select a size. */
  lemma PyIndexAliases<T>(xs: seq<T>, i: int)
    requires 0 <= i < |xs|
    ensures PyIndex(xs, i - |xs|) == PyIndex(xs, i)
    ensures PyIndex(xs, i - |xs|).Some?
  {
  }

  /** The number a size answer is read as (`int(...)`), "3" for an empty
      line; `None` stands for the ValueError. */
  function SizeChoice(line: string): Option<int> {
    ParseInt(MenuAnswer(line, "3"))
  }

  /** The size menu as written, on the parsed answer: `sizes[choice - 1]`,
      with "1024*1024" when `int` or the indexing raises. */
  function IndexedSize(choice: Option<int>): (size: string)
    ensures size in Sizes
    ensures choice.None? ==> size == DefaultSize
    ensures choice.Some? && 1 <= choice.value <= 5 ==> size == Sizes[choice.value - 1]
    ensures choice.Some? && (choice.value > 5 || choice.value < -4) ==> size == DefaultSize
  {
    if choice.None? then DefaultSize else PyIndex(Sizes, choice.value - 1).GetOr(DefaultSize)
  }

  function SelectSize(line: string): string {
    IndexedSize(SizeChoice(line))
  }

  lemma ParseDigit(d: nat)
    requires d < 10
    ensures ParseInt([DigitChar(d)]) == Some(d)
  {
    IntToStringRoundTrip(d);
  }

  /** The answer "0", which is not on the menu, selects the last size
      instead of the default. */
  lemma SizeZeroPicksLast()
    ensures SelectSize("0") == "1920*1080"
    ensures SelectSize("0") != DefaultSize
  {
    ParseDigit(0);
    assert "0" == [DigitChar(0)];
    assert !IsBlank("0");
    assert SizeChoice("0") == Some(0);
  }

  /** The size menu as evidently intended: a listed number picks its size,
      every other answer gets the default. */
  function MenuSize(choice: Option<int>): (size: string)
    ensures size in Sizes
    ensures choice.Some? && 1 <= choice.value <= 5 ==> size == Sizes[choice.value - 1]
    ensures !(choice.Some? && 1 <= choice.value <= 5) ==> size == DefaultSize
  {
    if choice.Some? && 1 <= choice.value <= 5 then Sizes[choice.value - 1] else DefaultSize
  }

  function SelectMenuSize(line: string): string {
    MenuSize(SizeChoice(line))
  }

  /** The two menus disagree exactly on the answers 0, -1, -3 and -4
      (-2 happens to land on the default size). */
  lemma SizeMenusDisagree(choice: Option<int>)
    ensures IndexedSize(choice) != MenuSize(choice) <==> choice.Some? && choice.value in {0, -1, -3, -4}
  {
  }
}

=== FILE: diagnose.dfy ===
/** `diagnose_api_error` of api_diagnose.py: advice lines for an API
    error message, by the status codes it mentions and the model's family.
    Each advice line is described by a `Line` value and rendered to the
    text the function prints. */
module Diagnose {
  import opened Text

  /** The status codes the diagnosis knows. */
  datatype Code = Code400 | Code401 | Code429

  /** The numbered items of the 400 section. */
  datatype Item = SizeItem(model: string, size: string) | NewerItem(model: string) | QwenItem(model: string) | GeneralItem

  /** The fixed hint lines under the headers and items. */
  datatype Hint =
    | TrySizes | PromptFormat | SomeSizes | ServiceNeeded
    | ServiceEnabled | Quota
    | KeyValid | StandardSize | SimplePrompt | ModelListed
    | CheckKey | RegenerateKey
    | RetryLater | SmallerBatches

  /** A line of advice: a section header, a numbered item, or a hint. */
  datatype Line = Header(code: Code) | Numbered(item: Item) | Detail(hint: Hint)

  function HintText(h: Hint): string {
    match h
    case TrySizes => "     建议尝试: 1024*1024, 512*512, 768*768"
    case PromptFormat => "     - 需要特定格式的prompt"
    case SomeSizes => "     - 不支持某些尺寸"
    case ServiceNeeded => "     - 需要开通服务"
    case ServiceEnabled => "     - 确保已开通阿里云百炼的图像生成服务"
    case Quota => "     - 检查账户额度是否充足"
    case KeyValid => "     - 确认 API Key 有效且有权限"
    case StandardSize => "     - 使用标准尺寸: 1024*1024"
    case SimplePrompt => "     - 使用简单prompt测试"
    case ModelListed => "     - 检查模型是否在支持列表中"
    case CheckKey => "  - 请检查 API Key 是否正确"
    case RegenerateKey => "  - 在阿里云百炼控制台重新生成 API Key"
    case RetryLater => "  - 请稍后再试"
    case SmallerBatches => "  - 降低批量生成的数量"
  }

  function Render(line: Line): string {
    match line
    case Header(Code400) => "【错误代码 400】请求参数错误，可能原因："
    case Header(Code401) => "【错误代码 401】API Key 无效或已过期"
    case Header(Code429) => "【错误代码 429】请求过于频繁"
    case Numbered(SizeItem(m, s)) => "  1. 模型 '" + m + "' 可能不支持尺寸 '" + s + "'"
    case Numbered(NewerItem(m)) => "  2. 模型 '" + m + "' 是较新的模型，可能："
    case Numbered(QwenItem(m)) => "  3. Qwen图像模型 '" + m + "' 可能需要："
    case Numbered(GeneralItem) => "  4. 通用解决方案："
    case Detail(h) => HintText(h)
  }

  const NewerHints: seq<Hint> := [PromptFormat, SomeSizes, ServiceNeeded]
  const QwenHints: seq<Hint> := [ServiceEnabled, Quota]
  const GeneralHints: seq<Hint> := [KeyValid, StandardSize, SimplePrompt, ModelListed]
  const Hints401: seq<Hint> := [CheckKey, RegenerateKey]
  const Hints429: seq<Hint> := [RetryLater, SmallerBatches]

  function Details(hints: seq<Hint>): (lines: seq<Line>)
    ensures |lines| == |hints|
    ensures forall k :: 0 <= k < |lines| ==> lines[k] == Detail(hints[k])
  {
    seq(|hints|, k requires 0 <= k < |hints| => Detail(hints[k]))
  }

  predicate IsWanx2(model: string) {
    StartsWith(model, "wan2.") || StartsWith(model, "wanx2.")
  }

  predicate IsNewerModel(model: string) {
    Contains(model, "wan2.6") || Contains(model, "wan2.5") || Contains(model, "wan2.2")
  }

  predicate IsQwenImage(model: string) {
    Contains(model, "qwen-image")
  }

  /** Which of the status codes 400, 401 and 429 an error message
      mentions. */
  datatype Mentions = Mentions(bad: bool, auth: bool, rate: bool)

  function MentionsOf(error: string): Mentions {
    Mentions(Contains(error, "400"), Contains(error, "401"), Contains(error, "429"))
  }

  /** Which model-specific items of the 400 section apply to a model. */
  datatype Family = Family(wanx2: bool, newer: bool, qwen: bool)

  function FamilyOf(model: string): Family {
    Family(IsWanx2(model), IsNewerModel(model), IsQwenImage(model))
  }

  /** The general advice that closes the 400 section. */
  function GeneralBlock(): seq<Line> {
    [Numbered(GeneralItem)] + Details(GeneralHints)
  }

  /** Item 1 and its hint, for `wan2.` and `wanx2.` models. */
  function SizeBlock(f: Family, model: string, size: string): seq<Line> {
    if f.wanx2 then [Numbered(SizeItem(model, size)), Detail(TrySizes)] else []
  }

  /** Item 2 and its hints, for the 2.6, 2.5 and 2.2 models. */
  function NewerBlock(f: Family, model: string): seq<Line> {
    if f.newer then [Numbered(NewerItem(model))] + Details(NewerHints) else []
  }

  /** Item 3 and its hints, for `qwen-image` models. */
  function QwenBlock(f: Family, model: string): seq<Line> {
    if f.qwen then [Numbered(QwenItem(model))] + Details(QwenHints) else []
  }

  /** The lines for a 400 error. */
  function Block400(f: Family, model: string, size: string): seq<Line> {
    [Header(Code400)] + SizeBlock(f, model, size) + NewerBlock(f, model) + QwenBlock(f, model) + GeneralBlock()
  }

  function Block401(): seq<Line> {
    [Header(Code401)] + Details(Hints401)
  }

  function Block429(): seq<Line> {
    [Header(Code429)] + Details(Hints429)
  }

  /** The advice for the codes mentioned and the model's family. */
  function Advice(ms: Mentions, f: Family, model: string, size: string): seq<Line> {
    (if ms.bad then Block400(f, model, size) else [])
    + (if ms.auth then Block401() else [])
    + (if ms.rate then Block429() else [])
  }

  /** The `suggestions` list. */
  function Suggestions(error: string, model: string, size: string): seq<Line> {
    Advice(MentionsOf(error), FamilyOf(model), model, size)
  }

  function RenderAll(lines: seq<Line>): (texts: seq<string>)
    ensures |texts| == |lines|
    ensures forall k :: 0 <= k < |lines| ==> texts[k] == Render(lines[k])
  {
    seq(|lines|, k requires 0 <= k < |lines| => Render(lines[k]))
  }

  /** The first triggered section's header opens the advice, and a fixed
      hint line closes it. */
  lemma AdviceEnds(ms: Mentions, f: Family, model: string, size: string)
    ensures var lines := Advice(ms, f, model, size);
      && (|lines| == 0 <==> !ms.bad && !ms.auth && !ms.rate)
      && (ms.bad ==> lines[0] == Header(Code400))
      && (!ms.bad && ms.auth ==> lines[0] == Header(Code401))
      && (!ms.bad && !ms.auth && ms.rate ==> lines[0] == Header(Code429))
      && (|lines| > 0 ==> Last(lines).Detail?)
  {
    var a := if ms.bad then Block400(f, model, size) else [];
    var b := if ms.auth then Block401() else [];
    var c := if ms.rate then Block429() else [];
    assert Advice(ms, f, model, size) == a + b + c;
  }

  /** `diagnose_api_error(error_message, model, size, prompt)`: nothing
      when the message mentions none of 400, 401 and 429, and otherwise
      text that opens with the first triggered section's header and never
      ends in a line break. */
  function DiagnoseApiError(error: string, model: string, size: string, prompt: string): (r: string)
    ensures r == "" <==> !Contains(error, "400") && !Contains(error, "401") && !Contains(error, "429")
    ensures Contains(error, "400") ==> StartsWith(r, Render(Header(Code400)))
    ensures !Contains(error, "400") && Contains(error, "401") ==> StartsWith(r, Render(Header(Code401)))
    ensures !Contains(error, "400") && !Contains(error, "401") && Contains(error, "429") ==>
      StartsWith(r, Render(Header(Code429)))
    ensures r != "" ==> r[|r| - 1] != '\n'
  {
    TextShape(error, model, size);
    Join(RenderAll(Suggestions(error, model, size)), "\n")
  }

  /** The prompt plays no part in the diagnosis. */
  lemma PromptIgnored(error: string, model: string, size: string, prompt1: string, prompt2: string)
    ensures DiagnoseApiError(error, model, size, prompt1) == DiagnoseApiError(error, model, size, prompt2)
  {
  }

  lemma TextShape(error: string, model: string, size: string)
    ensures var r := Join(RenderAll(Suggestions(error, model, size)), "\n");
      && (r == "" <==> !Contains(error, "400") && !Contains(error, "401") && !Contains(error, "429"))
      && (r != "" ==> r[|r| - 1] != '\n')
      && (Contains(error, "400") ==> StartsWith(r, Render(Header(Code400))))
      && (!Contains(error, "400") && Contains(error, "401") ==> StartsWith(r, Render(Header(Code401))))
      && (!Contains(error, "400") && !Contains(error, "401") && Contains(error, "429") ==>
        StartsWith(r, Render(Header(Code429))))
  {
    var ms := MentionsOf(error);
    var lines := Advice(ms, FamilyOf(model), model, size);
    var texts := RenderAll(lines);
    var r := Join(texts, "\n");
    AdviceEnds(ms, FamilyOf(model), model, size);
    if |texts| > 0 {
      JoinStarts(texts, "\n");
      JoinEnds(texts, "\n");
      var t := Last(texts);
      assert t == Render(Last(lines));
      HintSingleLine(Last(lines).hint);
      assert t[|t| - 1] != '\n';
      assert r[|r| - 1] == t[|t| - 1];
    }
  }

  /** The 400 section always ends with the general advice, so a message
      mentioning only 400 ends with it, whatever the model. */
  lemma GeneralAdviceLast(error: string, model: string, size: string)
    requires Contains(error, "400") && !Contains(error, "401") && !Contains(error, "429")
    ensures var lines := Suggestions(error, model, size);
      |lines| > 5 && lines[|lines| - 5..] == GeneralBlock() && lines[0] == Header(Code400)
  {
    var lines := Suggestions(error, model, size);
    assert lines == Block400(FamilyOf(model), model, size);
  }

  /** The codes of the section headers among `lines`, in order. */
  function Sections(lines: seq<Line>): (codes: seq<Code>)
    ensures forall k :: 0 <= k < |codes| ==> Header(codes[k]) in lines
  {
    if |lines| == 0 then []
    else (if lines[0].Header? then [lines[0].code] else []) + Sections(lines[1..])
  }

  lemma {:induction false} SectionsConcat(a: seq<Line>, b: seq<Line>)
    ensures Sections(a + b) == Sections(a) + Sections(b)
    decreases |a|
  {
    if |a| > 0 {
      assert (a + b)[1..] == a[1..] + b;
      SectionsConcat(a[1..], b);
    } else {
      assert a + b == b;
    }
  }

  /** Lines with no header among them open no section. */
  lemma {:induction false} NoSections(lines: seq<Line>)
    requires forall k :: 0 <= k < |lines| ==> !lines[k].Header?
    ensures Sections(lines) == []
    decreases |lines|
  {
    if |lines| > 0 {
      NoSections(lines[1..]);
    }
  }

  lemma SectionOfBlock(header: Code, rest: seq<Line>)
    requires forall k :: 0 <= k < |rest| ==> !rest[k].Header?
    ensures Sections([Header(header)] + rest) == [header]
  {
    SectionsConcat([Header(header)], rest);
    NoSections(rest);
  }

  lemma SectionsOfHintedItem(it: Item, hints: seq<Hint>)
    ensures Sections([Numbered(it)] + Details(hints)) == []
  {
    NoSections(Details(hints));
    SectionsConcat([Numbered(it)], Details(hints));
  }

  lemma SectionsOfBlock400(f: Family, model: string, size: string)
    ensures Sections(Block400(f, model, size)) == [Code400]
  {
    var h: seq<Line> := [Header(Code400)];
    var p1, p2, p3 := SizeBlock(f, model, size), NewerBlock(f, model), QwenBlock(f, model);
    assert Block400(f, model, size) == h + p1 + p2 + p3 + GeneralBlock();
    assert Sections(h) == [Code400];
    assert Sections(p1) == [] by {
      if f.wanx2 {
        NoSections(p1);
      }
    }
    SectionsOfHintedItem(NewerItem(model), NewerHints);
    SectionsOfHintedItem(QwenItem(model), QwenHints);
    SectionsOfHintedItem(GeneralItem, GeneralHints);
    assert Sections(p2) == [] && Sections(p3) == [];
    SectionsConcat(h, p1);
    assert Sections(h + p1) == [Code400];
    SectionsConcat(h + p1, p2);
    assert Sections(h + p1 + p2) == [Code400];
    SectionsConcat(h + p1 + p2, p3);
    assert Sections(h + p1 + p2 + p3) == [Code400];
    SectionsConcat(h + p1 + p2 + p3, GeneralBlock());
  }

  lemma SectionsOfAdvice(ms: Mentions, f: Family, model: string, size: string)
    ensures Sections(Advice(ms, f, model, size)) ==
      (if ms.bad then [Code400] else []) + (if ms.auth then [Code401] else []) + (if ms.rate then [Code429] else [])
  {
    var a := if ms.bad then Block400(f, model, size) else [];
    var b := if ms.auth then Block401() else [];
    var c := if ms.rate then Block429() else [];
    assert Advice(ms, f, model, size) == a + b + c;
    SectionsOfBlock400(f, model, size);
    SectionOfBlock(Code401, Details(Hints401));
    SectionOfBlock(Code429, Details(Hints429));
    assert Sections(a) == if ms.bad then [Code400] else [];
    assert Sections(b) == if ms.auth then [Code401] else [];
    assert Sections(c) == if ms.rate then [Code429] else [];
    SectionsConcat(a, b);
    SectionsConcat(a + b, c);
  }

  /** The sections are independent and keep their order: the sections of
      the advice are those of 400, 401 and 429 whose code is in the
      message, in that order. */
  lemma SectionsInOrder(error: string, model: string, size: string)
    ensures Sections(Suggestions(error, model, size)) ==
      (if Contains(error, "400") then [Code400] else [])
      + (if Contains(error, "401") then [Code401] else [])
      + (if Contains(error, "429") then [Code429] else [])
  {
    SectionsOfAdvice(MentionsOf(error), FamilyOf(model), model, size);
  }

  /** The numbered items among `lines`, in order. */
  function Items(lines: seq<Line>): seq<Item> {
    if |lines| == 0 then []
    else (if lines[0].Numbered? then [lines[0].item] else []) + Items(lines[1..])
  }

  lemma {:induction false} ItemsConcat(a: seq<Line>, b: seq<Line>)
    ensures Items(a + b) == Items(a) + Items(b)
    decreases |a|
  {
    if |a| > 0 {
      assert (a + b)[1..] == a[1..] + b;
      ItemsConcat(a[1..], b);
    } else {
      assert a + b == b;
    }
  }

  /** A line is numbered exactly when its item is among the items. */
  lemma {:induction false} NumberedInItems(lines: seq<Line>, it: Item)
    ensures Numbered(it) in lines <==> it in Items(lines)
    decreases |lines|
  {
    if |lines| > 0 {
      NumberedInItems(lines[1..], it);
      assert lines == [lines[0]] + lines[1..];
    }
  }

  lemma {:induction false} DetailsHaveNoItems(hints: seq<Hint>)
    ensures Items(Details(hints)) == []
    decreases |hints|
  {
    if |hints| > 0 {
      assert Details(hints)[1..] == Details(hints[1..]);
      DetailsHaveNoItems(hints[1..]);
    }
  }

  lemma ItemsOfSizeBlock(f: Family, model: string, size: string)
    ensures Items(SizeBlock(f, model, size)) == if f.wanx2 then [SizeItem(model, size)] else []
  {
    if f.wanx2 {
      ItemsConcat([Numbered(SizeItem(model, size))], [Detail(TrySizes)]);
      assert SizeBlock(f, model, size) == [Numbered(SizeItem(model, size))] + [Detail(TrySizes)];
    }
  }

  lemma ItemsOfHintedItem(it: Item, hints: seq<Hint>)
    ensures Items([Numbered(it)] + Details(hints)) == [it]
  {
    DetailsHaveNoItems(hints);
    ItemsConcat([Numbered(it)], Details(hints));
  }

  /** The items of the 400 section: those of the model's family in the
      order 1, 2, 3, then the general advice. */
  lemma ItemsOfBlock400(f: Family, model: string, size: string)
    ensures Items(Block400(f, model, size)) ==
      (if f.wanx2 then [SizeItem(model, size)] else [])
      + (if f.newer then [NewerItem(model)] else [])
      + (if f.qwen then [QwenItem(model)] else [])
      + [GeneralItem]
  {
    var h: seq<Line> := [Header(Code400)];
    var p1, p2, p3 := SizeBlock(f, model, size), NewerBlock(f, model), QwenBlock(f, model);
    var i1: seq<Item> := if f.wanx2 then [SizeItem(model, size)] else [];
    var i2: seq<Item> := if f.newer then [NewerItem(model)] else [];
    var i3: seq<Item> := if f.qwen then [QwenItem(model)] else [];
    assert Block400(f, model, size) == h + p1 + p2 + p3 + GeneralBlock();
    assert Items(h) == [];
    ItemsOfSizeBlock(f, model, size);
    ItemsOfHintedItem(NewerItem(model), NewerHints);
    ItemsOfHintedItem(QwenItem(model), QwenHints);
    ItemsOfHintedItem(GeneralItem, GeneralHints);
    assert Items(p2) == i2 && Items(p3) == i3;
    ItemsConcat(h, p1);
    assert Items(h + p1) == i1;
    ItemsConcat(h + p1, p2);
    assert Items(h + p1 + p2) == i1 + i2;
    ItemsConcat(h + p1 + p2, p3);
    assert Items(h + p1 + p2 + p3) == i1 + i2 + i3;
    ItemsConcat(h + p1 + p2 + p3, GeneralBlock());
  }

  /** Only the 400 section holds numbered items. */
  lemma ItemsOfAdvice(ms: Mentions, f: Family, model: string, size: string)
    ensures Items(Advice(ms, f, model, size)) == if ms.bad then Items(Block400(f, model, size)) else []
  {
    var a := if ms.bad then Block400(f, model, size) else [];
    var b := if ms.auth then Block401() else [];
    var c := if ms.rate then Block429() else [];
    assert Advice(ms, f, model, size) == a + b + c;
    DetailsHaveNoItems(Hints401);
    DetailsHaveNoItems(Hints429);
    ItemsConcat([Header(Code401)], Details(Hints401));
    ItemsConcat([Header(Code429)], Details(Hints429));
    ItemsConcat(a, b);
    ItemsConcat(a + b, c);
  }

  /** The numbered items of the advice: for a message mentioning 400, the
      family's items in the order 1, 2, 3 and then the general advice;
      none otherwise. */
  lemma ItemsInOrder(error: string, model: string, size: string)
    ensures Items(Suggestions(error, model, size)) ==
      if Contains(error, "400") then
        (if IsWanx2(model) then [SizeItem(model, size)] else [])
        + (if IsNewerModel(model) then [NewerItem(model)] else [])
        + (if IsQwenImage(model) then [QwenItem(model)] else [])
        + [GeneralItem]
      else []
  {
    ItemsOfAdvice(MentionsOf(error), FamilyOf(model), model, size);
    ItemsOfBlock400(FamilyOf(model), model, size);
  }

  /** The size advice appears exactly when the message mentions 400 and
      the model is a `wan2.` or `wanx2.` model; the newer-model advice
      exactly when it mentions 400 and the model names version 2.6, 2.5 or
      2.2; the Qwen advice exactly when it mentions 400 and the model is a
      `qwen-image` model. */
  lemma ModelAdviceIff(error: string, model: string, size: string)
    ensures Numbered(SizeItem(model, size)) in Suggestions(error, model, size)
      <==> Contains(error, "400") && IsWanx2(model)
    ensures Numbered(NewerItem(model)) in Suggestions(error, model, size)
      <==> Contains(error, "400") && IsNewerModel(model)
    ensures Numbered(QwenItem(model)) in Suggestions(error, model, size)
      <==> Contains(error, "400") && IsQwenImage(model)
  {
    var lines := Suggestions(error, model, size);
    var items := Items(lines);
    ItemsInOrder(error, model, size);
    NumberedInItems(lines, SizeItem(model, size));
    NumberedInItems(lines, NewerItem(model));
    NumberedInItems(lines, QwenItem(model));
    if Contains(error, "400") {
      var i1: seq<Item> := if IsWanx2(model) then [SizeItem(model, size)] else [];
      var i2: seq<Item> := if IsNewerModel(model) then [NewerItem(model)] else [];
      var i3: seq<Item> := if IsQwenImage(model) then [QwenItem(model)] else [];
      assert items == i1 + i2 + i3 + [GeneralItem];
      InFour(i1, i2, i3, GeneralItem, SizeItem(model, size));
      InFour(i1, i2, i3, GeneralItem, NewerItem(model));
      InFour(i1, i2, i3, GeneralItem, QwenItem(model));
    }
  }

  /** Membership in four concatenated parts. */
  lemma InFour(a: seq<Item>, b: seq<Item>, c: seq<Item>, d: Item, x: Item)
    ensures x in a + b + c + [d] <==> x in a || x in b || x in c || x == d
  {
  }

  /** A line whose rendering holds no line break. */
  predicate SingleLine(line: Line) {
    match line
    case Numbered(SizeItem(m, s)) => '\n' !in m && '\n' !in s
    case Numbered(NewerItem(m)) => '\n' !in m
    case Numbered(QwenItem(m)) => '\n' !in m
    case _ => true
  }

  /** One non-empty line. */
  predicate OneLine(t: string) {
    |t| > 0 && '\n' !in t
  }

  /** Every hint is one non-empty line. */
  lemma HintSingleLine(h: Hint)
    ensures OneLine(HintText(h))
  {
    match h
    case TrySizes | PromptFormat => HintsSizeSingleLine();
    case SomeSizes | ServiceNeeded => HintsNewerSingleLine();
    case ServiceEnabled | Quota => HintsQwenSingleLine();
    case KeyValid | StandardSize => HintsKeyValidSingleLine();
    case SimplePrompt | ModelListed => HintsTestSingleLine();
    case CheckKey | RegenerateKey => Hints401SingleLine();
    case RetryLater | SmallerBatches => Hints429SingleLine();
  }

  lemma HintsSizeSingleLine()
    ensures OneLine(HintText(TrySizes)) && OneLine(HintText(PromptFormat))
  {
  }

  lemma HintsNewerSingleLine()
    ensures OneLine(HintText(SomeSizes)) && OneLine(HintText(ServiceNeeded))
  {
  }

  lemma HintsQwenSingleLine()
    ensures OneLine(HintText(ServiceEnabled)) && OneLine(HintText(Quota))
  {
  }

  lemma HintsKeyValidSingleLine()
    ensures OneLine(HintText(KeyValid)) && OneLine(HintText(StandardSize))
  {
  }

  lemma HintsTestSingleLine()
    ensures OneLine(HintText(SimplePrompt)) && OneLine(HintText(ModelListed))
  {
  }

  lemma Hints401SingleLine()
    ensures OneLine(HintText(CheckKey)) && OneLine(HintText(RegenerateKey))
  {
  }

  lemma Hints429SingleLine()
    ensures OneLine(HintText(RetryLater)) && OneLine(HintText(SmallerBatches))
  {
  }

  lemma RenderSingleLine(line: Line)
    requires SingleLine(line)
    ensures '\n' !in Render(line)
  {
    match line
    case Header(c) => HeadersSingleLine();
    case Numbered(SizeItem(m, s)) => SizeItemSingleLine(m, s);
    case Numbered(NewerItem(m)) => NewerItemSingleLine(m);
    case Numbered(QwenItem(m)) => QwenItemSingleLine(m);
    case Numbered(GeneralItem) => HeadersSingleLine();
    case Detail(h) => HintSingleLine(h);
  }

  lemma HeadersSingleLine()
    ensures OneLine(Render(Header(Code400))) && OneLine(Render(Header(Code401)))
    ensures OneLine(Render(Header(Code429))) && OneLine(Render(Numbered(GeneralItem)))
  {
  }

  lemma SizeItemSingleLine(m: string, s: string)
    requires '\n' !in m && '\n' !in s
    ensures '\n' !in Render(Numbered(SizeItem(m, s)))
  {
    assert '\n' !in "  1. 模型 '" && '\n' !in "' 可能不支持尺寸 '" && '\n' !in "'";
  }

  lemma NewerItemSingleLine(m: string)
    requires '\n' !in m
    ensures '\n' !in Render(Numbered(NewerItem(m)))
  {
    assert '\n' !in "  2. 模型 '" && '\n' !in "' 是较新的模型，可能：";
  }

  lemma QwenItemSingleLine(m: string)
    requires '\n' !in m
    ensures '\n' !in Render(Numbered(QwenItem(m)))
  {
    assert '\n' !in "  3. Qwen图像模型 '" && '\n' !in "' 可能需要：";
  }

  predicate AllSingleLines(lines: seq<Line>) {
    forall k :: 0 <= k < |lines| ==> SingleLine(lines[k])
  }

  lemma AllSingleLinesConcat(a: seq<Line>, b: seq<Line>)
    requires AllSingleLines(a) && AllSingleLines(b)
    ensures AllSingleLines(a + b)
  {
    forall k | 0 <= k < |a + b| ensures SingleLine((a + b)[k]) {
      if k < |a| {
        assert (a + b)[k] == a[k];
      } else {
        assert (a + b)[k] == b[k - |a|];
      }
    }
  }

  lemma Block400SingleLines(f: Family, model: string, size: string)
    requires '\n' !in model && '\n' !in size
    ensures AllSingleLines(Block400(f, model, size))
  {
    var p1 := SizeBlock(f, model, size);
    var p2 := NewerBlock(f, model);
    var p3 := QwenBlock(f, model);
    AllSingleLinesConcat([Numbered(NewerItem(model))], Details(NewerHints));
    AllSingleLinesConcat([Numbered(QwenItem(model))], Details(QwenHints));
    AllSingleLinesConcat([Numbered(GeneralItem)], Details(GeneralHints));
    AllSingleLinesConcat([Header(Code400)], p1);
    AllSingleLinesConcat([Header(Code400)] + p1, p2);
    AllSingleLinesConcat([Header(Code400)] + p1 + p2, p3);
    AllSingleLinesConcat([Header(Code400)] + p1 + p2 + p3, GeneralBlock());
  }

  /** Every line of the advice is a single line when the model and size
      are. */
  lemma AdviceSingleLine(ms: Mentions, f: Family, model: string, size: string)
    requires '\n' !in model && '\n' !in size
    ensures AllSingleLines(Advice(ms, f, model, size))
  {
    var a := if ms.bad then Block400(f, model, size) else [];
    var b := if ms.auth then Block401() else [];
    var c := if ms.rate then Block429() else [];
    assert Advice(ms, f, model, size) == a + b + c;
    Block400SingleLines(f, model, size);
    AllSingleLinesConcat([Header(Code401)], Details(Hints401));
    AllSingleLinesConcat([Header(Code429)], Details(Hints429));
    AllSingleLinesConcat(a, b);
    AllSingleLinesConcat(a + b, c);
  }

  /** The advice lines, with the model and size free of line breaks, are
      read back from the text by splitting it at line breaks; the prompt
      plays no part. */
  lemma LinesOfDiagnosis(error: string, model: string, size: string, prompt: string)
    requires '\n' !in model && '\n' !in size
    requires DiagnoseApiError(error, model, size, prompt) != ""
    ensures Split(DiagnoseApiError(error, model, size, prompt), '\n') == RenderAll(Suggestions(error, model, size))
  {
    var lines := Suggestions(error, model, size);
    var texts := RenderAll(lines);
    AdviceSingleLine(MentionsOf(error), FamilyOf(model), model, size);
    forall k | 0 <= k < |texts| ensures '\n' !in texts[k] {
      RenderSingleLine(lines[k]);
    }
    SplitJoin(texts, '\n');
  }
}

=== FILE: file_size.dfy ===
/** check_file_size.py: walk a directory tree, skipping excluded
    directories, flag the checked text files longer than the limit, and
    report them longest first, exiting with status 1 when any is flagged.
    The tree is given as a value; reading a file gives its line count or
    fails. */
module FileSizeCheck {
  import opened Text
  import opened Seqs

  const MaxFileSize: nat := 500
  const CheckExtensions: seq<string> := [".py", ".md", ".txt"]
  const ExcludeDirs: seq<string> := ["__pycache__", ".git", "generated_images"]

  /** What reading a file gives: its number of lines, or an error. */
  datatype Content = Readable(lineCount: nat) | Unreadable

  /** A directory entry, listed in the order the directory gives. */
  datatype Entry = File(name: string, content: Content) | Dir(name: string, children: seq<Entry>)

  /** `get_file_lines`: a file that cannot be read counts as empty. */
  function FileLines(c: Content): nat {
    match c
    case Readable(n) => n
    case Unreadable => 0
  }

  // ---------------------------------------------------------------------
  // `os.path.splitext(name)[1].lower()`
  // ---------------------------------------------------------------------

  /** `os.path.splitext(name)[1]` for a bare file name: from the last dot
      on, unless only dots precede that dot, in which case there is no
      extension. */
  function Extension(name: string): (ext: string)
    ensures ext == [] || (ext[0] == '.' && '.' !in ext[1..] && |ext| <= |name| && name[|name| - |ext|..] == ext)
    ensures '.' !in name ==> ext == []
    ensures ext != [] ==> exists i :: 0 <= i < |name| - |ext| && name[i] != '.'
  {
    if '.' !in name then ""
    else
      var d := LastIndex(name, '.');
      if exists i :: 0 <= i < d && name[i] != '.' then name[d..] else ""
  }

  /** A name with a stem that is not all dots has the part after its last
      dot as extension. */
  lemma ExtensionOf(stem: string, tail: string)
    requires '.' !in tail
    requires exists i :: 0 <= i < |stem| && stem[i] != '.'
    ensures Extension(stem + "." + tail) == "." + tail
  {
    var name := stem + "." + tail;
    assert name[|stem|] == '.';
    assert name[|stem| + 1..] == tail;
    var d := LastIndex(name, '.');
    assert d == |stem|;
    var i :| 0 <= i < |stem| && stem[i] != '.';
    assert name[i] != '.';
  }

  /** A name whose stem is only dots, such as ".py" or "..md", has no
      extension. */
  lemma DotStemNoExtension(stem: string, tail: string)
    requires '.' !in tail
    requires forall i :: 0 <= i < |stem| ==> stem[i] == '.'
    ensures Extension(stem + "." + tail) == ""
  {
    var name := stem + "." + tail;
    assert name[|stem|] == '.';
    assert name[|stem| + 1..] == tail;
    var d := LastIndex(name, '.');
    assert d == |stem|;
    forall i | 0 <= i < d ensures name[i] == '.' {
      assert name[i] == stem[i];
    }
  }

  /** The extension `check_files` compares, lower-cased. For the three
      checked extensions ASCII lower-casing decides as Python's does. */
  function CheckedExtension(name: string): string {
    Lower(Extension(name))
  }

  // ---------------------------------------------------------------------
  // `check_files`
  // ---------------------------------------------------------------------

  /** A file `check_files` looks at: its path and what reading it gives. */
  datatype Visited = Visited(path: string, name: string, content: Content)

  /** `{'path': ..., 'lines': ..., 'max': ...}`. */
  datatype Issue = Issue(path: string, lines: nat, max: nat)

  function Size(e: Entry): (n: nat)
    ensures n >= 1
  {
    match e
    case File(_, _) => 1
    case Dir(_, children) => 1 + SizeAll(children)
  }

  function SizeAll(es: seq<Entry>): nat {
    if |es| == 0 then 0 else Size(es[0]) + SizeAll(es[1..])
  }

  /** The files `os.walk(root)` reaches with excluded directories pruned:
      the files directly in `root` first, in listing order, then those
      under each kept subdirectory in turn. */
  function Walk(root: string, entries: seq<Entry>): seq<Visited>
    decreases SizeAll(entries), 1
  {
    FilesHere(root, entries) + Subdirs(root, entries)
  }

  function FilesHere(root: string, entries: seq<Entry>): (vs: seq<Visited>)
    ensures forall k :: 0 <= k < |vs| ==>
      vs[k].path == root + "/" + vs[k].name && File(vs[k].name, vs[k].content) in entries
    ensures forall k :: 0 <= k < |entries| && entries[k].File? ==>
      Visited(root + "/" + entries[k].name, entries[k].name, entries[k].content) in vs
  {
    if |entries| == 0 then []
    else
      (if entries[0].File? then [Visited(root + "/" + entries[0].name, entries[0].name, entries[0].content)] else [])
      + FilesHere(root, entries[1..])
  }

  function Subdirs(root: string, entries: seq<Entry>): seq<Visited>
    decreases SizeAll(entries), 0
  {
    if |entries| == 0 then []
    else
      assert SizeAll(entries) == Size(entries[0]) + SizeAll(entries[1..]);
      (if entries[0].Dir? && entries[0].name !in ExcludeDirs
       then Walk(root + "/" + entries[0].name, entries[0].children) else [])
      + Subdirs(root, entries[1..])
  }

  /** The rule of `check_files`: a checked extension and strictly more
      lines than the limit. */
  predicate Flagged(v: Visited) {
    CheckedExtension(v.name) in CheckExtensions && FileLines(v.content) > MaxFileSize
  }

  function IssueOf(v: Visited): Issue {
    Issue(v.path, FileLines(v.content), MaxFileSize)
  }

  /** The issues for the visited files: one per flagged file, in walk
      order, each over the limit it records. */
  function IssuesOf(visited: seq<Visited>): (issues: seq<Issue>)
    ensures var ks := Positions(visited, Flagged);
      |issues| == |ks| && forall j :: 0 <= j < |ks| ==> issues[j] == IssueOf(visited[ks[j]])
    ensures forall j :: 0 <= j < |issues| ==> issues[j].max == MaxFileSize && issues[j].lines > issues[j].max
    ensures issues == [] <==> forall k :: 0 <= k < |visited| ==> !Flagged(visited[k])
  {
    var ks := Positions(visited, Flagged);
    PositionsEmpty(visited, Flagged);
    Pick(visited, ks)
  }

  /** The issues of the files at positions `ks`, which are flagged. */
  function Pick(visited: seq<Visited>, ks: seq<nat>): (issues: seq<Issue>)
    requires forall j :: 0 <= j < |ks| ==> ks[j] < |visited| && Flagged(visited[ks[j]])
    ensures |issues| == |ks|
    ensures forall j :: 0 <= j < |ks| ==> issues[j] == IssueOf(visited[ks[j]])
    ensures forall j :: 0 <= j < |issues| ==> issues[j].max == MaxFileSize && issues[j].lines > issues[j].max
  {
    FlaggedOverLimit(visited, ks);
    seq(|ks|, j requires 0 <= j < |ks| => IssueOf(visited[ks[j]]))
  }

  lemma FlaggedOverLimit(visited: seq<Visited>, ks: seq<nat>)
    requires forall j :: 0 <= j < |ks| ==> ks[j] < |visited| && Flagged(visited[ks[j]])
    ensures forall j :: 0 <= j < |ks| ==> FileLines(visited[ks[j]].content) > MaxFileSize
  {
    forall j | 0 <= j < |ks| ensures FileLines(visited[ks[j]].content) > MaxFileSize {
      assert Flagged(visited[ks[j]]);
    }
  }

  /** Every flagged file has its issue, and the issues are exactly those
      of the flagged files, in walk order. */
  lemma IssuesComplete(visited: seq<Visited>)
    ensures forall k :: 0 <= k < |visited| && Flagged(visited[k]) ==> IssueOf(visited[k]) in IssuesOf(visited)
    ensures var flagged := Filter(visited, Flagged);
      |IssuesOf(visited)| == |flagged| && forall j :: 0 <= j < |flagged| ==> IssuesOf(visited)[j] == IssueOf(flagged[j])
  {
    var ks := Positions(visited, Flagged);
    forall k | 0 <= k < |visited| && Flagged(visited[k]) ensures IssueOf(visited[k]) in IssuesOf(visited) {
      var j :| 0 <= j < |ks| && ks[j] == k;
      assert IssuesOf(visited)[j] == IssueOf(visited[k]);
    }
    PositionsFilter(visited, Flagged);
  }

  /** `check_files()`, walking from `.`. */
  function CheckFiles(tree: seq<Entry>): seq<Issue> {
    IssuesOf(Walk(".", tree))
  }

  /** An unreadable file is never flagged. */
  lemma UnreadableNotFlagged(path: string, name: string)
    ensures !Flagged(Visited(path, name, Unreadable))
  {
  }

  /** A `.py`, `.md` or `.txt` file, in any letter case, is flagged exactly
      when it has more than 500 lines. */
  lemma FlagRule(stem: string, tail: string, content: Content, path: string)
    requires '.' !in tail
    requires exists i :: 0 <= i < |stem| && stem[i] != '.'
    requires Lower(tail) in ["py", "md", "txt"]
    ensures Flagged(Visited(path, stem + "." + tail, content)) <==> FileLines(content) > 500
  {
    ExtensionOf(stem, tail);
    DottedLower(tail);
  }

  lemma DottedLower(tail: string)
    requires Lower(tail) in ["py", "md", "txt"]
    ensures Lower("." + tail) in CheckExtensions
  {
    var low := Lower("." + tail);
    assert low == "." + Lower(tail);
    var t := Lower(tail);
    if t == "py" {
      assert low == ".py";
    } else if t == "md" {
      assert low == ".md";
    } else {
      assert low == ".txt";
    }
  }

  /** What lies inside an excluded directory never matters: replacing its
      contents changes nothing that is visited. */
  lemma {:induction false} ExcludedNotDescended(root: string, entries: seq<Entry>, k: nat, other: seq<Entry>)
    requires k < |entries| && entries[k].Dir? && entries[k].name in ExcludeDirs
    ensures Walk(root, entries[k := Dir(entries[k].name, other)]) == Walk(root, entries)
    decreases |entries|
  {
    var changed := entries[k := Dir(entries[k].name, other)];
    FilesHereSame(root, entries, changed);
    SubdirsPruned(root, entries, k, other);
  }

  lemma {:induction false} FilesHereSame(root: string, a: seq<Entry>, b: seq<Entry>)
    requires |a| == |b|
    requires forall k :: 0 <= k < |a| ==> a[k].File? == b[k].File? && (a[k].File? ==> a[k] == b[k])
    ensures FilesHere(root, a) == FilesHere(root, b)
    decreases |a|
  {
    if |a| > 0 {
      FilesHereSame(root, a[1..], b[1..]);
    }
  }

  lemma {:induction false} SubdirsPruned(root: string, entries: seq<Entry>, k: nat, other: seq<Entry>)
    requires k < |entries| && entries[k].Dir? && entries[k].name in ExcludeDirs
    ensures Subdirs(root, entries[k := Dir(entries[k].name, other)]) == Subdirs(root, entries)
    decreases |entries|
  {
    var changed := entries[k := Dir(entries[k].name, other)];
    if k > 0 {
      assert changed[1..] == entries[1..][k - 1 := Dir(entries[k].name, other)];
      SubdirsPruned(root, entries[1..], k - 1, other);
    } else {
      assert changed[1..] == entries[1..];
    }
  }

  // ---------------------------------------------------------------------
  // `print_issues` and `main`
  // ---------------------------------------------------------------------

  predicate Descending(issues: seq<Issue>) {
    forall i, j :: 0 <= i < j < |issues| ==> issues[i].lines >= issues[j].lines
  }

  lemma DescendingCons(head: Issue, rest: seq<Issue>)
    requires Descending(rest)
    requires |rest| == 0 || rest[0].lines <= head.lines
    ensures Descending([head] + rest)
  {
    var r := [head] + rest;
    forall i, j | 0 <= i < j < |r| ensures r[i].lines >= r[j].lines {
      if i == 0 {
        assert r[j] == rest[j - 1];
        assert rest[0].lines >= rest[j - 1].lines;
      } else {
        assert r[i] == rest[i - 1] && r[j] == rest[j - 1];
      }
    }
  }

  /** Puts `x` before the first issue with no more lines than it. */
  function Insert(x: Issue, sorted: seq<Issue>): (r: seq<Issue>)
    requires Descending(sorted)
    ensures |r| == |sorted| + 1
    ensures r[0] == x || (|sorted| > 0 && r[0] == sorted[0])
    ensures Descending(r)
    ensures multiset(r) == multiset(sorted) + multiset{x}
  {
    if |sorted| == 0 || sorted[0].lines <= x.lines then
      DescendingCons(x, sorted);
      [x] + sorted
    else
      var rest := Insert(x, sorted[1..]);
      assert sorted == [sorted[0]] + sorted[1..];
      assert rest[0].lines <= sorted[0].lines;
      DescendingCons(sorted[0], rest);
      [sorted[0]] + rest
  }

  /** `sorted(issues, key=lambda x: x['lines'], reverse=True)`: the same
      issues, longest first. */
  function SortByLines(issues: seq<Issue>): (r: seq<Issue>)
    ensures Descending(r)
    ensures multiset(r) == multiset(issues)
  {
    if |issues| == 0 then []
    else
      assert issues == [issues[0]] + issues[1..];
      Insert(issues[0], SortByLines(issues[1..]))
  }

  const AllClear: string := "✅ 所有文件符合大小要求！"

  /** The four lines of advice that close a report of issues. */
  const Advice: seq<string> := ["建议：", "1. 拆分大文件为多个模块", "2. 将通用功能提取到独立文件", "3. 参考项目规则文档中的模块化开发规范"]

  /** The block `print_issues` prints for one issue. */
  function IssueLines(issue: Issue): seq<string>
    requires issue.lines > issue.max
  {
    ["文件: " + issue.path,
     "行数: " + NatToString(issue.lines) + " (最大允许: " + NatToString(issue.max) + ")",
     "超过: " + NatToString(issue.lines - issue.max) + " 行",
     ""]
  }

  predicate OverLimit(issues: seq<Issue>) {
    forall j :: 0 <= j < |issues| ==> issues[j].lines > issues[j].max
  }

  function IssueBlocks(issues: seq<Issue>): (lines: seq<string>)
    requires OverLimit(issues)
    ensures |lines| == 4 * |issues|
    ensures forall j :: 0 <= j < |issues| ==> lines[4 * j..4 * j + 4] == IssueLines(issues[j])
  {
    if |issues| == 0 then []
    else
      var rest := IssueBlocks(issues[1..]);
      var lines := IssueLines(issues[0]) + rest;
      assert forall j :: 1 <= j < |issues| ==> lines[4 * j..4 * j + 4] == rest[4 * (j - 1)..4 * (j - 1) + 4];
      lines
  }

  /** `print_issues(issues)`: the lines printed. With no issue, only the
      all-clear line; otherwise the count, a rule, one block per issue
      longest first, each giving the positive excess, and the advice. */
  function PrintIssues(issues: seq<Issue>): (lines: seq<string>)
    requires OverLimit(issues)
    ensures issues == [] <==> lines == [AllClear]
    ensures issues != [] ==> (
      && |lines| == 2 + 4 * |issues| + 4
      && lines[0] == "❌ 发现 " + NatToString(|issues|) + " 个文件超过大小限制:"
      && lines[1] == Dashes(80)
      && lines[|lines| - 4..] == Advice
      && var sorted := SortByLines(issues);
         |sorted| == |issues|
         && forall j :: 0 <= j < |sorted| ==>
              sorted[j].lines > sorted[j].max && lines[2 + 4 * j..6 + 4 * j] == IssueLines(sorted[j]))
  {
    if issues == [] then [AllClear]
    else
      var sorted := SortByLines(issues);
      SortedOverLimit(issues);
      var blocks := IssueBlocks(sorted);
      var head := ["❌ 发现 " + NatToString(|issues|) + " 个文件超过大小限制:", Dashes(80)];
      var advice := Advice;
      BlocksPlaced(head, sorted, advice);
      head + blocks + advice
  }

  /** Each issue's block sits at its place between the two lines before
      and the advice after. */
  lemma BlocksPlaced(head: seq<string>, sorted: seq<Issue>, tail: seq<string>)
    requires |head| == 2 && OverLimit(sorted)
    ensures var lines := head + IssueBlocks(sorted) + tail;
      forall j :: 0 <= j < |sorted| ==> lines[2 + 4 * j..6 + 4 * j] == IssueLines(sorted[j])
  {
    var blocks := IssueBlocks(sorted);
    var chunks := seq(|sorted|, j requires 0 <= j < |sorted| => IssueLines(sorted[j]));
    forall j | 0 <= j < |chunks| ensures blocks[4 * j..4 * j + 4] == chunks[j] {
      assert blocks[4 * j..4 * j + 4] == IssueLines(sorted[j]);
    }
    ChunksPlaced(head, blocks, tail, chunks);
    forall j | 0 <= j < |sorted| ensures (head + blocks + tail)[2 + 4 * j..6 + 4 * j] == IssueLines(sorted[j]) {
      assert chunks[j] == IssueLines(sorted[j]);
    }
  }

  /** Four-line chunks laid end to end stay in place behind a two-line
      head. */
  lemma ChunksPlaced<T>(head: seq<T>, blocks: seq<T>, tail: seq<T>, chunks: seq<seq<T>>)
    requires |head| == 2
    requires |blocks| == 4 * |chunks|
    requires forall j :: 0 <= j < |chunks| ==> blocks[4 * j..4 * j + 4] == chunks[j]
    ensures forall j :: 0 <= j < |chunks| ==> (head + blocks + tail)[2 + 4 * j..6 + 4 * j] == chunks[j]
  {
    forall j | 0 <= j < |chunks| ensures (head + blocks + tail)[2 + 4 * j..6 + 4 * j] == chunks[j] {
      SliceOfMiddle(head, blocks, tail, 4 * j, 4 * j + 4);
    }
  }

  /** Sorting keeps the issues, so each is still over its limit. */
  lemma SortedOverLimit(issues: seq<Issue>)
    requires OverLimit(issues)
    ensures |SortByLines(issues)| == |issues|
    ensures OverLimit(SortByLines(issues))
  {
    var sorted := SortByLines(issues);
    assert |sorted| == |issues| by {
      assert |multiset(sorted)| == |multiset(issues)|;
    }
    forall j | 0 <= j < |sorted| ensures sorted[j].lines > sorted[j].max {
      assert sorted[j] in multiset(issues);
    }
  }

  lemma SliceOfMiddle<T>(a: seq<T>, b: seq<T>, c: seq<T>, i: nat, j: nat)
    requires i <= j <= |b|
    ensures (a + b + c)[|a| + i..|a| + j] == b[i..j]
  {
  }

  function Dashes(n: nat): (r: string)
    ensures |r| == n && forall i :: 0 <= i < n ==> r[i] == '-'
  {
    seq(n, i => '-')
  }

  /** `main()`: the issues found and the exit status, 1 exactly when some
      file is flagged. */
  function CheckRun(tree: seq<Entry>): (r: (seq<Issue>, int))
    ensures r.0 == CheckFiles(tree)
    ensures r.1 == 0 || r.1 == 1
    ensures r.1 == 1 <==> exists v :: v in Walk(".", tree) && Flagged(v)
  {
    var visited := Walk(".", tree);
    var issues := IssuesOf(visited);
    assert issues == [] <==> forall v :: v in visited ==> !Flagged(v);
    (issues, if issues != [] then 1 else 0)
  }
}

=== FILE: flask_server.dfy ===
/** The Flask front-end, bailian_webui_flask.py: the API-call statistics,
    the request counters, the key and configuration endpoints, and the
    generate and edit handlers with their routes. The global `generator`,
    the counters and the statistics are the server's state; the loaded
    configuration, the clock readings and what the client returns are
    inputs. */
module FlaskServer {
  import opened Wrappers
  import opened Text
  import opened Json
  import opened Polling
  import opened UiCommon
  import Generator

  // ---------------------------------------------------------------------
  // `update_api_stats`
  // ---------------------------------------------------------------------

  /** `api_call_stats`. */
  datatype ApiStats = ApiStats(totalCalls: nat, successCalls: nat, failedCalls: nat, totalTime: real, avgTime: real)
  {
    /** Every call is counted once, as a success or as a failure, and the
        average is the total time over the number of calls. */
    predicate Valid() {
      && totalCalls == successCalls + failedCalls
      && (totalCalls == 0 ==> totalTime == 0.0 && avgTime == 0.0)
      && (totalCalls > 0 ==> avgTime * totalCalls as real == totalTime)
    }
  }

  const InitialStats: ApiStats := ApiStats(0, 0, 0, 0.0, 0.0)

  /** `update_api_stats(success, elapsed_time)`. */
  function UpdateApiStats(s: ApiStats, success: bool, elapsed: real): (t: ApiStats)
    ensures t.totalCalls == s.totalCalls + 1
    ensures t.successCalls == s.successCalls + (if success then 1 else 0)
    ensures t.failedCalls == s.failedCalls + (if success then 0 else 1)
    ensures t.totalTime == s.totalTime + elapsed
    ensures t.avgTime * t.totalCalls as real == t.totalTime
    ensures s.Valid() ==> t.Valid()
  {
    var total := s.totalCalls + 1;
    var time := s.totalTime + elapsed;
    ApiStats(total,
      if success then s.successCalls + 1 else s.successCalls,
      if success then s.failedCalls else s.failedCalls + 1,
      time, time / total as real)
  }

  /** A sequence of recorded calls, each a success flag and its elapsed time. */
  function Record(s: ApiStats, calls: seq<(bool, real)>): ApiStats
    decreases |calls|
  {
    if |calls| == 0 then s else Record(UpdateApiStats(s, calls[0].0, calls[0].1), calls[1..])
  }

  function Successes(calls: seq<(bool, real)>): nat
    decreases |calls|
  {
    if |calls| == 0 then 0 else (if calls[0].0 then 1 else 0) + Successes(calls[1..])
  }

  function TotalTime(calls: seq<(bool, real)>): real
    decreases |calls|
  {
    if |calls| == 0 then 0.0 else calls[0].1 + TotalTime(calls[1..])
  }

  /** Starting from the initial statistics, the statistics after any run of
      calls count the calls, the successful ones and the time they took,
      and stay consistent. */
  lemma {:induction false} RecordCounts(s: ApiStats, calls: seq<(bool, real)>)
    requires s.Valid()
    ensures Record(s, calls).Valid()
    ensures Record(s, calls).totalCalls == s.totalCalls + |calls|
    ensures Record(s, calls).successCalls == s.successCalls + Successes(calls)
    ensures Record(s, calls).failedCalls == s.failedCalls + |calls| - Successes(calls)
    ensures Record(s, calls).totalTime == s.totalTime + TotalTime(calls)
    decreases |calls|
  {
    if |calls| > 0 {
      RecordCounts(UpdateApiStats(s, calls[0].0, calls[0].1), calls[1..]);
    }
  }

  // ---------------------------------------------------------------------
  // `init_generator`
  // ---------------------------------------------------------------------

  const KeySetMessage: string := "API Key 设置成功！"
  const ErrorPrefix: string := "错误: "

  /** `init_generator(api_key)`: the new generator, or the old one when the
      constructor raised, with the success flag and message. */
  function InitGenerator(generator: Option<Generator.Generator>, env: Option<string>, apiKey: string)
    : (r: (Option<Generator.Generator>, bool, string))
    ensures r.1 <==> !IsBlank(apiKey) || Generator.Truthy(env)
    ensures !IsBlank(apiKey) ==> r == (Some(Generator.Generator(Strip(apiKey))), true, KeySetMessage)
    ensures IsBlank(apiKey) && r.1 ==> r == (Some(Generator.Generator(env.value)), true, KeySetMessage)
    ensures !r.1 ==> r == (generator, false, ErrorPrefix + Generator.MissingKeyMessage)
  {
    var made := if Strip(apiKey) != "" then Generator.NewGenerator(Some(Strip(apiKey)), env)
                else Generator.NewGenerator(None, env);
    match made
    case Success(g) => (Some(g), true, KeySetMessage)
    case Failure(e) => (generator, false, ErrorPrefix + e)
  }

  // ---------------------------------------------------------------------
  // `generate_image` and `edit_image`
  // ---------------------------------------------------------------------

  /** `os.path.basename(path)` with `/` as the separator. */
  function Basename(path: string): (name: string)
    ensures '/' !in name
    ensures |name| <= |path| && path[|path| - |name|..] == name
  {
    LastPiece(path, '/');
    Last(Split(path, '/'))
  }

  /** A file inside a directory is shown by its own name. */
  lemma BasenameOfJoined(dir: string, name: string)
    requires '/' !in name
    ensures Basename(dir + "/" + name) == name
  {
    SplitLast(dir, '/', name);
    assert dir + "/" + name == dir + ['/'] + name;
  }

  /** `[os.path.basename(f) for f in files if os.path.exists(f)]`. */
  function ShownImages(files: seq<string>, existing: set<string>): (images: seq<string>)
    ensures |images| == |ExistingFiles(files, existing)|
    ensures forall j :: 0 <= j < |images| ==> images[j] == Basename(ExistingFiles(files, existing)[j])
    ensures images == [] <==> forall f :: f in files ==> f !in existing
  {
    var kept := ExistingFiles(files, existing);
    seq(|kept|, j requires 0 <= j < |kept| => Basename(kept[j]))
  }

  /** "成功生成 n 张图片！", the message of a generation showing `n` images. */
  function GeneratedMessage(n: nat): string {
    "成功生成 " + NatToString(n) + " 张图片！"
  }

  /** "成功编辑 n 张图片！", the message of an edit showing `n` images. */
  function EditedMessage(n: nat): string {
    "成功编辑 " + NatToString(n) + " 张图片！"
  }

  /** What a handler gives back: the images (or `None`) and the message,
      with the statistics after it and the client call it made, if any. */
  datatype Handled<Q> = Handled(request: Option<Q>, images: Option<seq<string>>, message: string, stats: ApiStats)

  /** `generate_image(prompt, model_name, size, seed)`: `elapsed` is the
      time the client call took. A seed `int` rejects and a raising client
      are both caught and recorded as a failed call taking no time. */
  function GenerateImage(generator: Option<Generator.Generator>, stats: ApiStats, prompt: string,
                         model: string, size: string, seed: SeedInput, call: Call, elapsed: real,
                         existing: set<string>): (h: Handled<Generator.GenRequest>)
    ensures generator.None? ==> h == Handled(None, None, "错误: 请先设置 API Key", stats)
    ensures generator.Some? && IsBlank(prompt) ==> h == Handled(None, None, "错误: 请输入提示词", stats)
    ensures h.request.Some? <==> generator.Some? && !IsBlank(prompt) && TruthySeed(seed).Success?
    ensures h.request.Some? ==>
      h.request.value == Generator.GenRequest(model, Strip(prompt), size, 1, TruthySeed(seed).value)
    ensures generator.Some? && !IsBlank(prompt) && TruthySeed(seed).Failure? ==>
      h == Handled(None, None, ErrorPrefix + TruthySeed(seed).error, UpdateApiStats(stats, false, 0.0))
    ensures h.request.Some? && call.Raised? ==>
      h == Handled(h.request, None, ErrorPrefix + call.reason, UpdateApiStats(stats, false, 0.0))
    ensures h.request.Some? && call.Returned? ==> (
      && h.stats == UpdateApiStats(stats, call.result.Success(), elapsed)
      && (h.images.Some? <==> call.result.Success())
      && (h.images.Some? ==> (
          && h.images.value == ShownImages(ResultFiles(call.result), existing)
          && h.message == GeneratedMessage(|h.images.value|)))
      && (h.images.None? ==> h.message == ErrorPrefix + call.result.ErrorOr(UnknownError)))
    ensures h.stats == stats || h.stats.totalCalls == stats.totalCalls + 1
  {
    if generator.None? then Handled(None, None, "错误: 请先设置 API Key", stats)
    else if Strip(prompt) == "" then Handled(None, None, "错误: 请输入提示词", stats)
    else match TruthySeed(seed)
      case Failure(e) => Handled(None, None, ErrorPrefix + e, UpdateApiStats(stats, false, 0.0))
      case Success(seedValue) =>
        var q := Generator.GenRequest(model, Strip(prompt), size, 1, seedValue);
        match call
        case Raised(e) => Handled(Some(q), None, ErrorPrefix + e, UpdateApiStats(stats, false, 0.0))
        case Returned(result) =>
          if result.Success() then
            var images := ShownImages(ResultFiles(result), existing);
            Handled(Some(q), Some(images), GeneratedMessage(|images|),
              UpdateApiStats(stats, true, elapsed))
          else
            Handled(Some(q), None, ErrorPrefix + result.ErrorOr(UnknownError), UpdateApiStats(stats, false, elapsed))
  }

  /** How `edit_image` explains a failed edit, by the first marker the
      error text carries. */
  datatype EditErrorKind = EndpointUnavailable | BadRequest | Unauthorized | Forbidden | ServerError | Unexplained

  function EditErrorKindOf(error: string): EditErrorKind {
    if Contains(error, "400 Client Error") then
      (if Contains(Lower(error), "url error") then EndpointUnavailable else BadRequest)
    else if Contains(error, "401 Unauthorized") then Unauthorized
    else if Contains(error, "403 Forbidden") then Forbidden
    else if Contains(error, "500 Server Error") then ServerError
    else Unexplained
  }

  /** The cause an explained error is given. */
  function Explanation(kind: EditErrorKind): string {
    match kind
    case EndpointUnavailable =>
      "API端点或模型不可用。可能原因：1. 该模型尚未开通权限 2. 阿里云账号未开通图像编辑服务。请在阿里云控制台检查服务开通状态。"
    case BadRequest => "请求参数错误。可能原因：API Key无效、模型选择错误、尺寸不匹配或图片格式错误。"
    case Unauthorized => "API Key无效或未授权，请检查您的API Key是否正确。"
    case Forbidden => "没有权限使用该模型或API调用次数超限。"
    case ServerError => "服务器内部错误，请稍后重试。"
    case Unexplained => ""
  }

  const DetailLabel: string := "详细错误: "

  /** What goes between the prefix and the error: the cause and a label
      for the error, or nothing. */
  function Advice(kind: EditErrorKind): string {
    if kind == Unexplained then "" else Explanation(kind) + DetailLabel
  }

  /** The message for a failed edit: the original error always ends it,
      and it gets an explanation exactly when it carries one of the HTTP
      status markers. */
  function DescribeEditError(error: string): (message: string)
    ensures StartsWith(message, ErrorPrefix)
    ensures |message| >= |error| && message[|message| - |error|..] == error
    ensures Contains(message, error)
    ensures message == ErrorPrefix + error <==> EditErrorKindOf(error) == Unexplained
  {
    var advice := Advice(EditErrorKindOf(error));
    AdviceEmpty(EditErrorKindOf(error));
    Framed(ErrorPrefix, advice, error);
    ErrorPrefix + advice + error
  }

  /** A text put between a prefix and an error keeps both at its ends, and
      only the empty text leaves nothing between them. */
  lemma Framed(prefix: string, middle: string, error: string)
    ensures var m := prefix + middle + error;
      && StartsWith(m, prefix)
      && |m| >= |error| && m[|m| - |error|..] == error
      && Contains(m, error)
      && (m == prefix + error <==> middle == "")
  {
    var m := prefix + middle + error;
    ContainsSuffix(prefix + middle, error);
    assert m[..|prefix|] == prefix;
    assert m[|m| - |error|..] == error;
    assert |m| == |prefix| + |middle| + |error|;
    assert middle == "" ==> m == prefix + error;
  }

  /** Only an unexplained error gets no explanation. */
  lemma AdviceEmpty(kind: EditErrorKind)
    ensures Advice(kind) == "" <==> kind == Unexplained
  {
    if kind != Unexplained {
      assert |DetailLabel| > 0;
    }
  }

  /** A 400 error is explained as such whatever other markers it carries. */
  lemma BadRequestFirst(error: string)
    requires Contains(error, "400 Client Error")
    ensures EditErrorKindOf(error) in {EndpointUnavailable, BadRequest}
    ensures EditErrorKindOf(error) == EndpointUnavailable <==> Contains(Lower(error), "url error")
  {
  }

  /** Below a 400, the markers are tried in the order 401, 403, 500, and
      each explained error reads its own cause followed by the original
      text; an error with none of them is only prefixed. */
  lemma EditErrorChain(error: string)
    ensures !Contains(error, "400 Client Error") && Contains(error, "401 Unauthorized") ==>
      DescribeEditError(error) == ErrorPrefix + "API Key无效或未授权，请检查您的API Key是否正确。" + DetailLabel + error
    ensures (!Contains(error, "400 Client Error") && !Contains(error, "401 Unauthorized")
             && Contains(error, "403 Forbidden")) ==>
      DescribeEditError(error) == ErrorPrefix + "没有权限使用该模型或API调用次数超限。" + DetailLabel + error
    ensures (!Contains(error, "400 Client Error") && !Contains(error, "401 Unauthorized")
             && !Contains(error, "403 Forbidden") && Contains(error, "500 Server Error")) ==>
      DescribeEditError(error) == ErrorPrefix + "服务器内部错误，请稍后重试。" + DetailLabel + error
    ensures (!Contains(error, "400 Client Error") && !Contains(error, "401 Unauthorized")
             && !Contains(error, "403 Forbidden") && !Contains(error, "500 Server Error")) ==>
      DescribeEditError(error) == ErrorPrefix + error
  {
    var kind := EditErrorKindOf(error);
    if kind != Unexplained {
      Regrouped(ErrorPrefix, Explanation(kind), DetailLabel, error);
    }
  }

  /** The two texts of a 400 error: the endpoint case when the lower-cased
      error mentions "url error", the bad-request case otherwise. */
  lemma BadRequestTexts(error: string)
    requires Contains(error, "400 Client Error")
    ensures Contains(Lower(error), "url error") ==>
      DescribeEditError(error) == ErrorPrefix
        + "API端点或模型不可用。可能原因：1. 该模型尚未开通权限 2. 阿里云账号未开通图像编辑服务。请在阿里云控制台检查服务开通状态。"
        + DetailLabel + error
    ensures !Contains(Lower(error), "url error") ==>
      DescribeEditError(error) == ErrorPrefix
        + "请求参数错误。可能原因：API Key无效、模型选择错误、尺寸不匹配或图片格式错误。" + DetailLabel + error
  {
    Regrouped(ErrorPrefix, Explanation(EditErrorKindOf(error)), DetailLabel, error);
  }

  /** Concatenation regroups: the advice is one text inside the message. */
  lemma Regrouped(a: string, b: string, c: string, d: string)
    ensures a + (b + c) + d == a + b + c + d
  {
  }

  /** The arguments `edit_image` passes to the client, which also get
      `n = 1` and `edit_function = "description_edit"`. */
  datatype EditCall = EditCall(prompt: string, imagePath: string, model: string, size: string, seed: Option<int>)

  /** `edit_image(prompt, image_path, model_name, size, seed)`, with
      `imageExists` whether `image_path` is on disk. */
  function EditImage(generator: Option<Generator.Generator>, stats: ApiStats, prompt: string, imagePath: string,
                     imageExists: bool, model: string, size: string, seed: SeedInput, call: Call, elapsed: real,
                     existing: set<string>): (h: Handled<EditCall>)
    ensures generator.None? ==> h == Handled(None, None, "错误: 请先设置 API Key", stats)
    ensures generator.Some? && IsBlank(prompt) ==> h == Handled(None, None, "错误: 请输入编辑指令", stats)
    ensures generator.Some? && !IsBlank(prompt) && !imageExists ==>
      h == Handled(None, None, "错误: 图片文件不存在", stats)
    ensures h.request.Some? <==> generator.Some? && !IsBlank(prompt) && imageExists && TruthySeed(seed).Success?
    ensures h.request.Some? ==>
      h.request.value == EditCall(Strip(prompt), imagePath, model, size, TruthySeed(seed).value)
    ensures generator.Some? && !IsBlank(prompt) && imageExists && TruthySeed(seed).Failure? ==>
      h == Handled(None, None, ErrorPrefix + TruthySeed(seed).error, UpdateApiStats(stats, false, 0.0))
    ensures h.request.Some? && call.Raised? ==>
      h == Handled(h.request, None, ErrorPrefix + call.reason, UpdateApiStats(stats, false, 0.0))
    ensures h.request.Some? && call.Returned? ==> (
      && h.stats == UpdateApiStats(stats, call.result.Success(), elapsed)
      && (h.images.Some? <==> call.result.Success())
      && (h.images.Some? ==> (
          && h.images.value == ShownImages(ResultFiles(call.result), existing)
          && h.message == EditedMessage(|h.images.value|)))
      && (h.images.None? ==> h.message == DescribeEditError(call.result.ErrorOr(UnknownError))))
  {
    if generator.None? then Handled(None, None, "错误: 请先设置 API Key", stats)
    else if Strip(prompt) == "" then Handled(None, None, "错误: 请输入编辑指令", stats)
    else if !imageExists then Handled(None, None, "错误: 图片文件不存在", stats)
    else match TruthySeed(seed)
      case Failure(e) => Handled(None, None, ErrorPrefix + e, UpdateApiStats(stats, false, 0.0))
      case Success(seedValue) =>
        var q := EditCall(Strip(prompt), imagePath, model, size, seedValue);
        match call
        case Raised(e) => Handled(Some(q), None, ErrorPrefix + e, UpdateApiStats(stats, false, 0.0))
        case Returned(result) =>
          if result.Success() then
            var images := ShownImages(ResultFiles(result), existing);
            Handled(Some(q), Some(images), EditedMessage(|images|),
              UpdateApiStats(stats, true, elapsed))
          else
            Handled(Some(q), None, DescribeEditError(result.ErrorOr(UnknownError)),
              UpdateApiStats(stats, false, elapsed))
  }

  // ---------------------------------------------------------------------
  // Routes
  // ---------------------------------------------------------------------

  /** `request_count`, `generate_count`, `edit_count`, `error_count` and
      `success_count`. */
  datatype Counters = Counters(requests: nat, generates: nat, edits: nat, errors: nat, successes: nat)
  {
    /** Every finished request was counted once, as an error or as a
        success, and only accepted requests reached the client. */
    predicate Balanced() {
      requests == errors + successes && generates + edits <= requests
    }
  }

  /** The server's state. `env` is the process environment's API key,
      which the server only reads. */
  datatype Server = Server(generator: Option<Generator.Generator>, env: Option<string>,
                           counters: Counters, stats: ApiStats)

  /** A JSON reply `{'success': ..., 'message': ..., 'images': ...}`. */
  datatype Response = Response(success: bool, message: string, images: Option<seq<string>>)

  /** The counters after a request that ended as `success`. */
  function Tally(c: Counters, success: bool): (d: Counters)
    ensures d.requests == c.requests + 1 && d.generates == c.generates && d.edits == c.edits
    ensures c.Balanced() ==> d.Balanced()
  {
    if success then c.(requests := c.requests + 1, successes := c.successes + 1)
    else c.(requests := c.requests + 1, errors := c.errors + 1)
  }

  /** The reply for a handler's images and message: only a non-empty list
      of images counts as a success. */
  function ResponseFor(images: Option<seq<string>>, message: string): (r: Response)
    ensures r.success <==> images.Some? && images.value != []
    ensures r.success ==> r.images == images
    ensures !r.success ==> r.images.None?
    ensures r.message == message
  {
    if images.Some? && images.value != [] then Response(true, message, images) else Response(false, message, None)
  }

  /** `POST /api/generate` once the body's fields have been read: absent
      fields take their defaults (`None` for a missing field), the prompt
      is stripped before the blank check, and every request is tallied
      once. */
  function GenerateFields(sv: Server, prompt: Option<string>, model: Option<string>, size: Option<string>,
                         seed: Option<SeedInput>, call: Call, elapsed: real, existing: set<string>)
    : (r: (Server, Response, Option<Generator.GenRequest>))
    ensures r.0.counters.requests == sv.counters.requests + 1
    ensures sv.counters.Balanced() ==> r.0.counters.Balanced()
    ensures r.0.counters.successes == sv.counters.successes + (if r.1.success then 1 else 0)
    ensures r.0.counters.errors == sv.counters.errors + (if r.1.success then 0 else 1)
    ensures r.0.counters.generates == sv.counters.generates + (if sv.generator.Some? && !IsBlank(prompt.GetOr("")) then 1 else 0)
    ensures r.0.counters.edits == sv.counters.edits
    ensures r.0.generator == sv.generator && r.0.env == sv.env
    ensures sv.generator.None? ==> r.1 == Response(false, "请先设置 API Key", None) && r.0.stats == sv.stats
    ensures sv.generator.Some? && IsBlank(prompt.GetOr("")) ==>
      r.1 == Response(false, "请输入提示词", None) && r.0.stats == sv.stats
    ensures r.2.Some? ==> (
      && r.2.value.model == model.GetOr("wanx-v1") && r.2.value.size == size.GetOr("1024*1024")
      && r.2.value.prompt == Strip(prompt.GetOr("")))
    ensures r.1.success ==> r.1.images.Some? && r.1.images.value != []
    ensures sv.generator.Some? && !IsBlank(prompt.GetOr("")) ==>
      var h := GenerateImage(sv.generator, sv.stats, Strip(prompt.GetOr("")), model.GetOr("wanx-v1"),
                             size.GetOr("1024*1024"), seed.GetOr(SeedText("")), call, elapsed, existing);
      r.1 == ResponseFor(h.images, h.message) && r.0.stats == h.stats && r.2 == h.request
  {
    var c := sv.counters;
    if sv.generator.None? then
      (sv.(counters := Tally(c, false)), Response(false, "请先设置 API Key", None), None)
    else
      var text := Strip(prompt.GetOr(""));
      if text == "" then
        (sv.(counters := Tally(c, false)), Response(false, "请输入提示词", None), None)
      else
        StripIdempotent(prompt.GetOr(""));
        var h := GenerateImage(sv.generator, sv.stats, text, model.GetOr("wanx-v1"), size.GetOr("1024*1024"),
                               seed.GetOr(SeedText("")), call, elapsed, existing);
        var reply := ResponseFor(h.images, h.message);
        (sv.(counters := Tally(c.(generates := c.generates + 1), reply.success), stats := h.stats), reply, h.request)
  }

  /** The JSON body of `POST /api/generate` as `request.json` sees it:
      not JSON at all (Flask refuses it), JSON that is not an object
      (`null`, a list, a number), or an object with its `prompt` value and
      its other fields. */
  datatype GenerateBody =
    | NotJson
    | NotObject
    | Fields(prompt: Option<Json>, model: Option<string>, size: Option<string>, seed: Option<SeedInput>)

  /** `data.get('prompt', '').strip()` gets as far as the text to strip:
      the prompt, `""` when absent, and nothing when reading raises. */
  function BodyPrompt(body: GenerateBody): (p: Option<string>)
    ensures p.Some? <==> body.Fields? && (body.prompt.None? || body.prompt.value.JStr?)
  {
    if !body.Fields? then None
    else match body.prompt
      case None => Some("")
      case Some(JStr(text)) => Some(text)
      case Some(_) => None
  }

  /** `POST /api/generate` as written: `request_count` rises first, the
      generator is checked before the body is read, and a body whose
      fields cannot be read makes the route raise (no reply of its own)
      after the request was counted, with neither an error nor a success
      counted. */
  function GenerateRoute(sv: Server, body: GenerateBody, call: Call, elapsed: real, existing: set<string>)
    : (r: (Server, Option<Response>, Option<Generator.GenRequest>))
    ensures r.0.counters.requests == sv.counters.requests + 1
    ensures r.1.None? <==> sv.generator.Some? && BodyPrompt(body).None?
    ensures r.1.None? ==> r.0 == sv.(counters := sv.counters.(requests := sv.counters.requests + 1)) && r.2.None?
    ensures sv.generator.None? ==> r.1 == Some(Response(false, "请先设置 API Key", None)) && r.0.stats == sv.stats
    ensures r.1.Some? && body.Fields? ==>
      var f := GenerateFields(sv, BodyPrompt(body), body.model, body.size, body.seed, call, elapsed, existing);
      r == (f.0, Some(f.1), f.2)
    ensures r.1.Some? && sv.counters.Balanced() ==> r.0.counters.Balanced()
  {
    if sv.generator.Some? && BodyPrompt(body).None? then
      (sv.(counters := sv.counters.(requests := sv.counters.requests + 1)), None, None)
    else
      var f := GenerateFields(sv, BodyPrompt(body), if body.Fields? then body.model else None,
        if body.Fields? then body.size else None, if body.Fields? then body.seed else None, call, elapsed, existing);
      (f.0, Some(f.1), f.2)
  }

  /** A body that is not a JSON object, sent while a key is set, leaves the
      request counted but neither failed nor successful. */
  lemma MalformedBodyUncounted(sv: Server, call: Call, elapsed: real, existing: set<string>)
    requires sv.generator.Some? && sv.counters.Balanced()
    ensures var r := GenerateRoute(sv, NotObject, call, elapsed, existing);
      r.1.None? && !r.0.counters.Balanced()
      && r.0.counters.requests == r.0.counters.errors + r.0.counters.successes + 1
  {
  }

  /** `POST /api/generate` with a body that cannot be read answered as a
      failure and counted as an error, so that every request is counted
      once as an error or a success. */
  function GenerateRouteCounted(sv: Server, body: GenerateBody, call: Call, elapsed: real, existing: set<string>)
    : (r: (Server, Response, Option<Generator.GenRequest>))
    ensures r.0.counters.requests == sv.counters.requests + 1
    ensures sv.counters.Balanced() ==> r.0.counters.Balanced()
    ensures sv.generator.Some? && BodyPrompt(body).None? ==>
      r.1 == Response(false, BadBodyMessage, None) && r.0.counters.errors == sv.counters.errors + 1 && r.2.None?
    ensures !(sv.generator.Some? && BodyPrompt(body).None?) ==>
      var w := GenerateRoute(sv, body, call, elapsed, existing);
      w.1.Some? && r == (w.0, w.1.value, w.2)
  {
    var w := GenerateRoute(sv, body, call, elapsed, existing);
    if w.1.None? then (sv.(counters := Tally(sv.counters, false)), Response(false, BadBodyMessage, None), None)
    else (w.0, w.1.value, w.2)
  }

  const BadBodyMessage: string := "请求格式错误"

  /** A generation that succeeded but left no file on disk is answered as
      a failure carrying the success message "成功生成 0 张图片！". */
  lemma NoImagesIsFailure(sv: Server, prompt: string, seed: Option<SeedInput>, result: ApiResult,
                          elapsed: real, existing: set<string>)
    requires sv.generator.Some? && !IsBlank(prompt)
    requires TruthySeed(seed.GetOr(SeedText(""))).Success?
    requires result.Success() && forall f :: f in ResultFiles(result) ==> f !in existing
    ensures var r := GenerateFields(sv, Some(prompt), None, None, seed, Returned(result), elapsed, existing);
      r.1 == Response(false, GeneratedMessage(0), None)
      && r.0.counters.errors == sv.counters.errors + 1
      && r.0.stats.successCalls == sv.stats.successCalls + 1
  {
    StripIdempotent(prompt);
    var h := GenerateImage(sv.generator, sv.stats, Strip(prompt), "wanx-v1", "1024*1024",
                           seed.GetOr(SeedText("")), Returned(result), elapsed, existing);
    assert h.images == Some([]) by {
      assert ShownImages(ResultFiles(result), existing) == [];
    }
    var r := GenerateFields(sv, Some(prompt), None, None, seed, Returned(result), elapsed, existing);
    assert r.1 == ResponseFor(h.images, h.message);
  }

  /** The file name an upload is saved under, in `uploads`. */
  function UploadPath(uuid: string, filename: string): string {
    "uploads/" + uuid + "_" + filename
  }

  /** `POST /api/edit`: `upload` is the uploaded file's name when the form
      has an `image` part, `uuid` the hex name prefix. The upload is saved
      before the handler runs, so the handler always finds it. */
  function EditRoute(sv: Server, upload: Option<string>, prompt: Option<string>, model: Option<string>,
                     size: Option<string>, seed: Option<string>, uuid: string, call: Call, elapsed: real,
                     existing: set<string>): (r: (Server, Response, Option<EditCall>))
    ensures r.0.counters.requests == sv.counters.requests + 1
    ensures sv.counters.Balanced() ==> r.0.counters.Balanced()
    ensures r.0.counters.successes == sv.counters.successes + (if r.1.success then 1 else 0)
    ensures r.0.counters.errors == sv.counters.errors + (if r.1.success then 0 else 1)
    ensures r.0.counters.edits == sv.counters.edits +
      (if sv.generator.Some? && upload.Some? && upload.value != "" && !IsBlank(prompt.GetOr("")) then 1 else 0)
    ensures r.0.counters.generates == sv.counters.generates
    ensures r.0.generator == sv.generator && r.0.env == sv.env
    ensures sv.generator.None? ==> r.1 == Response(false, "请先设置 API Key", None)
    ensures sv.generator.Some? && upload.None? ==> r.1 == Response(false, "请上传图片文件", None)
    ensures sv.generator.Some? && upload == Some("") ==> r.1 == Response(false, "请选择图片文件", None)
    ensures sv.generator.Some? && upload.Some? && upload.value != "" && IsBlank(prompt.GetOr("")) ==>
      r.1 == Response(false, "请输入编辑指令", None)
    ensures r.2.Some? ==> (
      && upload.Some?
      && r.2.value.imagePath == UploadPath(uuid, upload.value)
      && r.2.value.model == model.GetOr("wanx2.1-imageedit") && r.2.value.size == size.GetOr("1024*1024"))
    ensures r.1.success ==> r.1.images.Some? && r.1.images.value != []
    ensures sv.generator.Some? && upload.Some? && upload.value != "" && !IsBlank(prompt.GetOr("")) ==>
      var h := EditImage(sv.generator, sv.stats, Strip(prompt.GetOr("")), UploadPath(uuid, upload.value), true,
                         model.GetOr("wanx2.1-imageedit"), size.GetOr("1024*1024"),
                         SeedText(seed.GetOr("")), call, elapsed, existing);
      r.1 == ResponseFor(h.images, h.message) && r.0.stats == h.stats && r.2 == h.request
  {
    var c := sv.counters;
    if sv.generator.None? then
      (sv.(counters := Tally(c, false)), Response(false, "请先设置 API Key", None), None)
    else if upload.None? then
      (sv.(counters := Tally(c, false)), Response(false, "请上传图片文件", None), None)
    else if upload.value == "" then
      (sv.(counters := Tally(c, false)), Response(false, "请选择图片文件", None), None)
    else
      var text := Strip(prompt.GetOr(""));
      if text == "" then
        (sv.(counters := Tally(c, false)), Response(false, "请输入编辑指令", None), None)
      else
        StripIdempotent(prompt.GetOr(""));
        var h := EditImage(sv.generator, sv.stats, text, UploadPath(uuid, upload.value), true,
                           model.GetOr("wanx2.1-imageedit"), size.GetOr("1024*1024"),
                           SeedText(seed.GetOr("")), call, elapsed, existing);
        var reply := ResponseFor(h.images, h.message);
        (sv.(counters := Tally(c.(edits := c.edits + 1), reply.success), stats := h.stats), reply, h.request)
  }

  // ---------------------------------------------------------------------
  // Configuration endpoints
  // ---------------------------------------------------------------------

  /** `GET /api/load_config`: the saved key, or `""`. */
  function LoadedKey(config: map<string, Json>): (key: Json)
    ensures "api_key" in config ==> key == config["api_key"]
    ensures "api_key" !in config ==> key == JStr("")
  {
    if "api_key" in config then config["api_key"] else JStr("")
  }

  /** `POST /api/set_key`: `config` is what `load_config` reads. The reply,
      the new server state, and the configuration written back, if any:
      the stripped key is saved only when the generator was set and
      `save` (default true) is truthy, and nothing else in the
      configuration changes. */
  function SetKey(sv: Server, config: map<string, Json>, apiKey: Option<string>, save: Option<Json>)
    : (r: (Server, Response, Option<map<string, Json>>))
    ensures r.1.success <==> !IsBlank(apiKey.GetOr("")) || Generator.Truthy(sv.env)
    ensures r.1.success ==> r.1.message == KeySetMessage && r.0.generator.Some?
    ensures !r.1.success ==> r.0 == sv && r.1.message == ErrorPrefix + Generator.MissingKeyMessage
    ensures r.1.success && !IsBlank(apiKey.GetOr("")) ==> r.0.generator == Some(Generator.Generator(Strip(apiKey.GetOr(""))))
    ensures r.0.counters == sv.counters && r.0.stats == sv.stats && r.0.env == sv.env
    ensures r.2.Some? <==> r.1.success && Truthy(save.GetOr(JBool(true)))
    ensures r.2.Some? ==> (
      && LoadedKey(r.2.value) == JStr(Strip(apiKey.GetOr("")))
      && r.2.value - {"api_key"} == config - {"api_key"})
  {
    var key := Strip(apiKey.GetOr(""));
    StripIdempotent(apiKey.GetOr(""));
    assert IsBlank(key) <==> IsBlank(apiKey.GetOr(""));
    var init := InitGenerator(sv.generator, sv.env, key);
    var written := if init.1 && Truthy(save.GetOr(JBool(true))) then Some(config["api_key" := JStr(key)]) else None;
    UpdateKeepsRest(config, "api_key", JStr(key));
    (sv.(generator := init.0), Response(init.1, init.2, None), written)
  }

  /** Setting one key of a configuration leaves the other keys alone. */
  lemma UpdateKeepsRest(config: map<string, Json>, key: string, value: Json)
    ensures config[key := value] - {key} == config - {key}
  {
    assert (config[key := value] - {key}).Keys == config.Keys - {key};
  }

  /** Setting a blank key while the environment holds one succeeds and,
      when saved, replaces any saved key with the empty string. */
  lemma BlankKeyClearsSavedKey(sv: Server, config: map<string, Json>)
    requires Generator.Truthy(sv.env)
    ensures SetKey(sv, config, None, None).1.success
    ensures SetKey(sv, config, None, None).0.generator == Some(Generator.Generator(sv.env.value))
    ensures SetKey(sv, config, None, None).2 == Some(config["api_key" := JStr("")])
  {
    assert Strip("") == "";
    assert Truthy(JBool(true));
  }

  /** `POST /api/clear_config`: the key is removed, and the file rewritten,
      only when one is saved; the reply is always a success. */
  function ClearConfig(config: map<string, Json>): (r: (Response, Option<map<string, Json>>))
    ensures r.0 == Response(true, "已清除保存的 API Key", None)
    ensures r.1.Some? <==> "api_key" in config
    ensures r.1.Some? ==> "api_key" !in r.1.value && r.1.value - {"api_key"} == config - {"api_key"}
  {
    (Response(true, "已清除保存的 API Key", None), if "api_key" in config then Some(config - {"api_key"}) else None)
  }

  /** After clearing, the configuration endpoint reports no key, and a
      later saved key is reported again. */
  lemma ClearThenSet(sv: Server, config: map<string, Json>, apiKey: string)
    requires !IsBlank(apiKey)
    ensures LoadedKey(ClearConfig(config).1.GetOr(config))
      == (if "api_key" in config then JStr("") else LoadedKey(config))
    ensures SetKey(sv, ClearConfig(config).1.GetOr(config), Some(apiKey), None).2.Some?
    ensures LoadedKey(SetKey(sv, ClearConfig(config).1.GetOr(config), Some(apiKey), None).2.value)
      == JStr(Strip(apiKey))
  {
    var cleared := ClearConfig(config).1.GetOr(config);
    if "api_key" in config {
      assert "api_key" !in cleared;
    } else {
      assert cleared == config;
    }
    assert Truthy(JBool(true));
  }
}

=== FILE: generator.dfy ===
/** `BailianImageGenerator` of bailian_image_gen.py: how the client is
    constructed and how the request bodies for text-to-image generation and
    image editing are shaped. Sending them is not modelled. */
module Generator {
  import opened Wrappers
  import opened Text
  import opened Json

  /** A constructed client; its only state is the API key. */
  datatype Generator = Generator(apiKey: string)

  const MissingKeyMessage: string := "请提供API Key或设置环境变量 DASHSCOPE_API_KEY"

  /** Python truthiness of an optional string: neither `None` nor `""`. */
  predicate Truthy(s: Option<string>) {
    s.Some? && s.value != ""
  }

  /** `BailianImageGenerator(api_key)`, where `env` is what
      `os.environ.get("DASHSCOPE_API_KEY")` returns. The key in use is
      `api_key or env`; a falsy key raises `ValueError`. */
  function NewGenerator(apiKey: Option<string>, env: Option<string>): (r: Result<Generator, string>)
    ensures r.Success? <==> Truthy(apiKey) || Truthy(env)
    ensures r.Success? ==> r.value.apiKey != ""
    ensures Truthy(apiKey) ==> r == Success(Generator(apiKey.value))
    ensures !Truthy(apiKey) && Truthy(env) ==> r == Success(Generator(env.value))
    ensures r.Failure? ==> r.error == MissingKeyMessage
  {
    var key := if Truthy(apiKey) then apiKey else env;
    if Truthy(key) then Success(Generator(key.value)) else Failure(MissingKeyMessage)
  }

  // ---------------------------------------------------------------------
  // Text-to-image request body (`generate_image`)
  // ---------------------------------------------------------------------

  /** The arguments `generate_image` puts into its request body. */
  datatype GenRequest = GenRequest(model: string, prompt: string, size: string, n: int, seed: Option<int>)

  function GenPayload(q: GenRequest): (p: Json)
    ensures Keys(p) == {"model", "input", "parameters"}
    ensures Keys(Get(p, "input").value) == {"prompt"}
    ensures Keys(Get(p, "parameters").value) == {"size", "n"} + (if q.seed.Some? then {"seed"} else {})
  {
    var params := map["size" := JStr(q.size), "n" := JInt(q.n)];
    var params := if q.seed.Some? then params["seed" := JInt(q.seed.value)] else params;
    JObj(map[
      "model" := JStr(q.model),
      "input" := JObj(map["prompt" := JStr(q.prompt)]),
      "parameters" := JObj(params)])
  }

  /** How the service reads a text-to-image body back: model, prompt, size
      and count are required, the seed is optional. */
  function ReadGenPayload(p: Json): Option<GenRequest> {
    var input := Get(p, "input");
    var params := Get(p, "parameters");
    if GetStr(p, "model").Some? && input.Some? && GetStr(input.value, "prompt").Some?
      && params.Some? && GetStr(params.value, "size").Some? && GetInt(params.value, "n").Some?
    then
      Some(GenRequest(GetStr(p, "model").value, GetStr(input.value, "prompt").value,
        GetStr(params.value, "size").value, GetInt(params.value, "n").value,
        GetInt(params.value, "seed")))
    else None
  }

  /** The body carries every argument, and the seed exactly when one was
      given. */
  lemma GenPayloadRoundTrip(q: GenRequest)
    ensures ReadGenPayload(GenPayload(q)) == Some(q)
  {
  }

  // ---------------------------------------------------------------------
  // Image-edit request body (`edit_image`)
  // ---------------------------------------------------------------------

  const MimeTypes: set<string> := {"image/jpeg", "image/png", "image/gif", "image/webp"}

  /** The extension table of `edit_image`, with `image/png` for anything
      it does not list. */
  function MimeForExtension(ext: string): (m: string)
    ensures m in MimeTypes
    ensures m == "image/jpeg" <==> ext == "jpg" || ext == "jpeg"
    ensures m == "image/gif" <==> ext == "gif"
    ensures m == "image/webp" <==> ext == "webp"
    ensures m == "image/png" <==> ext !in {"jpg", "jpeg", "gif", "webp"}
  {
    if ext == "jpg" || ext == "jpeg" then "image/jpeg"
    else if ext == "gif" then "image/gif"
    else if ext == "webp" then "image/webp"
    else "image/png"
  }

  /** The lower-cased text after the last '.', or "png" for a path without
      one. */
  function Extension(path: string): string {
    if '.' in path then Last(Split(Lower(path), '.')) else "png"
  }

  function MimeType(path: string): (m: string)
    ensures m in MimeTypes
  {
    MimeForExtension(Extension(path))
  }

  /** The MIME type is decided by the text after the last dot, whatever its
      case, and whatever comes before it. */
  lemma MimeTypeOfExtension(base: string, ext: string)
    requires '.' !in ext
    ensures MimeType(base + "." + ext) == MimeForExtension(Lower(ext))
  {
    var path := base + "." + ext;
    assert path[|base|] == '.';
    LowerConcat(base + ".", ext);
    LowerConcat(base, ".");
    LowerKeepsChar(ext, '.');
    assert Lower(path) == Lower(base) + ['.'] + Lower(ext);
    SplitLast(Lower(base), '.', Lower(ext));
  }

  /** A path without a dot is sent as PNG. */
  lemma MimeTypeWithoutDot(path: string)
    requires '.' !in path
    ensures MimeType(path) == "image/png"
  {
  }

  function DataUrl(mime: string, data: string): string {
    "data:" + mime + ";base64," + data
  }

  /** Reading a `data:<mime>;base64,<data>` URL back into its two parts. */
  function ParseDataUrl(url: string): Option<(string, string)> {
    if !StartsWith(url, "data:") then None
    else
      var rest := url[5..];
      if ';' !in rest then None
      else
        var i := FirstIndex(rest, ';');
        var tail := rest[i..];
        if StartsWith(tail, ";base64,") then Some((rest[..i], tail[8..])) else None
  }

  lemma DataUrlRoundTrip(mime: string, data: string)
    requires ';' !in mime
    ensures ParseDataUrl(DataUrl(mime, data)) == Some((mime, data))
  {
    var url := DataUrl(mime, data);
    assert StartsWith(url, "data:");
    var rest := url[5..];
    assert rest == mime + [';'] + ("base64," + data);
    FirstIndexOfJoined(mime, ';', "base64," + data);
    var tail := rest[|mime|..];
    assert tail == ";base64," + data;
    assert StartsWith(tail, ";base64,");
    assert tail[8..] == data;
    assert rest[..|mime|] == mime;
  }

  /** The `edit_function` values that also get an edit strength. */
  const StrengthFunctions: set<string> := {"description_edit", "stylization_all"}
  const EditStrength: real := 0.5

  /** The arguments `edit_image` puts into its request body; `imageData`
      is the base64 text of the image file. The `size` argument of
      `edit_image` is accepted and never sent, so it has no place here. */
  datatype EditRequest = EditRequest(
    model: string, editFunction: string, prompt: string,
    mime: string, imageData: string, n: int, seed: Option<int>)

  /** The request `edit_image` builds for an image read from `path`. */
  function EditRequestFor(model: string, editFunction: string, prompt: string, path: string,
                          imageData: string, n: int, seed: Option<int>): (q: EditRequest)
    ensures q.mime in MimeTypes
  {
    EditRequest(model, editFunction, prompt, MimeType(path), imageData, n, seed)
  }

  /** The `parameters` object of an edit body: the count, the seed when
      given, and the strength for the functions that take one. */
  function EditParameters(q: EditRequest): (params: map<string, Json>)
    ensures params.Keys == {"n"} + (if q.seed.Some? then {"seed"} else {})
      + (if q.editFunction in StrengthFunctions then {"strength"} else {})
    ensures params["n"] == JInt(q.n)
    ensures q.seed.Some? ==> params["seed"] == JInt(q.seed.value)
    ensures q.editFunction in StrengthFunctions ==> params["strength"] == JNum(EditStrength)
  {
    var params := map["n" := JInt(q.n)];
    var params := if q.seed.Some? then params["seed" := JInt(q.seed.value)] else params;
    if q.editFunction in StrengthFunctions then params["strength" := JNum(EditStrength)] else params
  }

  function EditPayload(q: EditRequest): (p: Json)
    ensures Keys(p) == {"model", "input", "parameters"}
    ensures Keys(Get(p, "input").value) == {"function", "prompt", "base_image_url"}
    ensures "n" in Keys(Get(p, "parameters").value)
    ensures "seed" in Keys(Get(p, "parameters").value) <==> q.seed.Some?
    ensures "strength" in Keys(Get(p, "parameters").value) <==> q.editFunction in StrengthFunctions
    ensures q.editFunction in StrengthFunctions ==> GetNum(Get(p, "parameters").value, "strength") == Some(0.5)
  {
    var params := EditParameters(q);
    JObj(map[
      "model" := JStr(q.model),
      "input" := JObj(map[
        "function" := JStr(q.editFunction),
        "prompt" := JStr(q.prompt),
        "base_image_url" := JStr(DataUrl(q.mime, q.imageData))]),
      "parameters" := JObj(params)])
  }

  /** How the service reads an edit body back. */
  function ReadEditPayload(p: Json): Option<EditRequest> {
    var input := Get(p, "input");
    var params := Get(p, "parameters");
    if GetStr(p, "model").Some? && input.Some? && params.Some?
      && GetStr(input.value, "function").Some? && GetStr(input.value, "prompt").Some?
      && GetStr(input.value, "base_image_url").Some? && GetInt(params.value, "n").Some?
      && ParseDataUrl(GetStr(input.value, "base_image_url").value).Some?
    then
      var image := ParseDataUrl(GetStr(input.value, "base_image_url").value).value;
      Some(EditRequest(GetStr(p, "model").value, GetStr(input.value, "function").value,
        GetStr(input.value, "prompt").value, image.0, image.1,
        GetInt(params.value, "n").value, GetInt(params.value, "seed")))
    else None
  }

  /** Every edit request `edit_image` builds can be read back whole: the
      image travels intact inside its data URL. */
  lemma EditPayloadRoundTrip(q: EditRequest)
    requires q.mime in MimeTypes
    ensures ReadEditPayload(EditPayload(q)) == Some(q)
  {
    assert ';' !in q.mime;
    DataUrlRoundTrip(q.mime, q.imageData);
    EditPayloadFields(q);
  }

  lemma EditPayloadFields(q: EditRequest)
    ensures var p := EditPayload(q);
      && GetStr(p, "model") == Some(q.model)
      && Get(p, "input").Some? && Get(p, "parameters").Some?
      && GetStr(Get(p, "input").value, "function") == Some(q.editFunction)
      && GetStr(Get(p, "input").value, "prompt") == Some(q.prompt)
      && GetStr(Get(p, "input").value, "base_image_url") == Some(DataUrl(q.mime, q.imageData))
      && GetInt(Get(p, "parameters").value, "n") == Some(q.n)
      && GetInt(Get(p, "parameters").value, "seed") == q.seed
  {
  }
}

=== FILE: gradio_ui.dfy ===
/** The main Gradio front-end, bailian_webui.py: setting the API key, and
    the text-to-image, image-edit and text-to-video handlers. The global
    `generator`, the process environment and the saved key file are the
    front-end's state; what the client returns is an input. */
module GradioUi {
  import opened Wrappers
  import opened Text
  import opened Generator
  import opened Polling
  import opened UiCommon

  /** The global `generator`, `os.environ["DASHSCOPE_API_KEY"]`, and the
      contents of `api_key.txt`. */
  datatype UiState = UiState(generator: Option<Generator>, env: Option<string>, savedKey: Option<string>)

  /** The status text and the visibility of the key row and of the main
      interface (the two `gr.update(visible=...)` values). */
  datatype InitView = InitView(message: string, keyRowVisible: bool, mainVisible: bool)

  const KeySetMessage: string := "✅ API Key 设置成功并已保存到本地！"
  const KeyFromEnvMessage: string := "✅ 已从环境变量读取 API Key"

  /** `init_generator(api_key)`: a non-blank key is stripped, used, exported
      to the environment and saved; a blank one falls back to the
      environment. Success hides the key row and shows the interface,
      failure does the opposite and changes nothing. */
  function InitGenerator(st: UiState, apiKey: string): (r: (UiState, InitView))
    ensures r.1.keyRowVisible == !r.1.mainVisible
    ensures r.1.mainVisible <==> !IsBlank(apiKey) || Truthy(st.env)
    ensures r.1.mainVisible ==> r.0.generator.Some? && r.0.generator.value.apiKey != ""
    ensures !IsBlank(apiKey) ==>
      && r.0.generator == Some(Generator(Strip(apiKey)))
      && r.0.env == Some(Strip(apiKey))
      && r.0.savedKey == Some(Strip(apiKey))
    ensures IsBlank(apiKey) ==> r.0.savedKey == st.savedKey && r.0.env == st.env
    ensures !IsBlank(apiKey) ==> r.1.message == KeySetMessage
    ensures IsBlank(apiKey) && r.1.mainVisible ==>
      r.0.generator == Some(Generator(st.env.value)) && r.1.message == KeyFromEnvMessage
    ensures !r.1.mainVisible ==> r.0 == st && r.1.message == "❌ " + MissingKeyMessage
  {
    var key := Strip(apiKey);
    if key != "" then
      var g := NewGenerator(Some(key), st.env);
      (UiState(Some(g.value), Some(key), Some(key)), InitView(KeySetMessage, false, true))
    else
      match NewGenerator(None, st.env)
      case Success(g) => (st.(generator := Some(g)), InitView(KeyFromEnvMessage, false, true))
      case Failure(e) => (st, InitView("❌ " + e, true, false))
  }

  /** `MODEL_CHOICES`: display name to model id. */
  const ModelChoices: map<string, string> := map[
    "通义万相-文生图V1" := "wanx-v1",
    "通义万相2.1-Turbo" := "wanx2.1-t2i-turbo",
    "通义万相2.1-Plus" := "wanx2.1-t2i-plus",
    "通义万相2.6-文生图" := "wan2.6-t2i",
    "通义万相2.5-文生图预览" := "wan2.5-t2i-preview",
    "通义万相2.2-文生图Plus" := "wan2.2-t2i-plus",
    "通义万相2.2-文生图Flash" := "wan2.2-t2i-flash",
    "通义万相2.0-Turbo" := "wan2.0-t2i-turbo",
    "通义千问-图像生成" := "qwen-image",
    "通义千问-图像Plus" := "qwen-image-plus",
    "通义千问-图像Max" := "qwen-image-max",
    "通义千问-图像Turbo" := "qwen-image-turbo",
    "通义千问-图像Plus(2026)" := "qwen-image-plus-2026-01-09",
    "通义千问-图像Max(2025)" := "qwen-image-max-2025-12-30",
    "Flux-Schnell" := "flux-schnell",
    "Flux-Dev" := "flux-dev",
    "Flux-Merged" := "flux-merged",
    "通义万相-草图生图" := "wanx-sketch-to-image-lite",
    "通义万相-X绘画" := "wanx-x-painting",
    "通义万相-风格重绘" := "wanx-style-repaint-v1",
    "通义万相-背景生成V2" := "wanx-background-generation-v2",
    "通义万相-海报生成" := "wanx-poster-generation-v1",
    "通义万相-虚拟模特" := "wanx-virtualmodel",
    "图像画面扩展" := "image-out-painting",
    "通义万相2.1-图像编辑" := "wanx2.1-imageedit",
    "通义万相2.1-VACE Plus" := "wanx2.1-vace-plus",
    "通义万相2.5-图生图" := "wan2.5-i2i-preview",
    "艺术字-语义" := "wordart-semantic",
    "艺术字-纹理" := "wordart-texture",
    "虚拟试衣" := "aitryon",
    "虚拟试衣Plus" := "aitryon-plus",
    "虚拟试衣精修" := "aitryon-refiner",
    "虚拟试衣解析" := "aitryon-parsing-v1",
    "Emoji生成" := "emoji-v1",
    "Emoji检测" := "emoji-detect-v1",
    "通义千问-多语言图像" := "qwen-mt-image"]

  /** `VIDEO_MODEL_CHOICES`. */
  const VideoModelChoices: map<string, string> := map[
    "通义万相2.6-T2V" := "wan2.6-t2v",
    "通义万相2.5-T2V预览" := "wan2.5-t2v-preview",
    "通义万相2.2-T2V-Plus" := "wan2.2-t2v-plus",
    "通义万相2.1-T2V-Plus" := "wanx2.1-t2v-plus",
    "通义万相2.1-T2V-Turbo" := "wanx2.1-t2v-turbo"]

  /** `EDIT_MODEL_CHOICES`. */
  const EditModelChoices: map<string, string> := map[
    "通义千问-图像编辑" := "qwen-image-edit",
    "通义千问-图像编辑Plus" := "qwen-image-edit-plus",
    "通义千问-图像编辑Max" := "qwen-image-edit-max",
    "图像编辑Plus(2025-12)" := "qwen-image-edit-plus-2025-12-15",
    "图像编辑Plus(2025-10)" := "qwen-image-edit-plus-2025-10-30",
    "图像编辑Max(2026)" := "qwen-image-edit-max-2026-01-16"]

  /** `table.get(name, default)`. */
  function Lookup(table: map<string, string>, name: string, default: string): (id: string)
    ensures name in table ==> id == table[name]
    ensures name !in table ==> id == default
  {
    if name in table then table[name] else default
  }

  const NoKeyMessage: string := "❌ 请先设置 API Key"
  const NoPromptMessage: string := "❌ 请输入提示词"
  const NoEditPromptMessage: string := "❌ 请输入编辑指令"
  const NoImageMessage: string := "❌ 请上传参考图片"
  const ErrorPrefix: string := "❌ 错误: "

  /** What a handler shows: the gallery (or video) value and the status text,
      and the call it made into the client, if any. */
  datatype View<Q, G> = View(request: Option<Q>, shown: Option<G>, message: string)

  /** The file list of a success message: one `📁 <path>` line per file the
      client reported, whether or not it still exists. */
  function FileList(files: seq<string>): (text: string)
    ensures forall k :: 0 <= k < |files| ==> Contains(text, files[k])
  {
    var lines := seq(|files|, k requires 0 <= k < |files| => "📁 " + files[k]);
    assert forall k :: 0 <= k < |files| ==> Contains(Join(lines, "\n"), files[k]) by {
      forall k | 0 <= k < |files| ensures Contains(Join(lines, "\n"), files[k]) {
        JoinContains(lines, "\n", k);
        ContainsSuffix("📁 ", files[k]);
        ContainsWithin(Join(lines, "\n"), lines[k], files[k]);
      }
    }
    Join(lines, "\n")
  }

  /** Read back at its line breaks, the file list is one `📁 <path>` line
      per reported file, in the reported order. */
  lemma FileListLines(files: seq<string>)
    requires |files| > 0 && forall f :: f in files ==> '\n' !in f
    ensures Split(FileList(files), '\n') == seq(|files|, k requires 0 <= k < |files| => "📁 " + files[k])
  {
    var lines := seq(|files|, k requires 0 <= k < |files| => "📁 " + files[k]);
    forall k | 0 <= k < |lines| ensures '\n' !in lines[k] {
      assert files[k] in files;
      assert lines[k] == "📁 " + files[k];
    }
    SplitJoin(lines, '\n');
  }

  /** Turning a returned result into the gallery and status text: success
      with some existing file shows those files, success with none shows a
      warning and no gallery, failure shows the result's error (or the
      default text). */
  function ImageResultView<Q>(q: Q, result: ApiResult, existing: set<string>,
                              done: string, warning: string, failed: string): (v: View<Q, seq<string>>)
    ensures v.request == Some(q)
    ensures v.shown.Some? <==> result.Success() && ExistingFiles(ResultFiles(result), existing) != []
    ensures v.shown.Some? ==> v.shown.value == ExistingFiles(ResultFiles(result), existing)
    ensures v.shown.Some? ==> v.message == done + "\n\n保存位置:\n" + FileList(ResultFiles(result))
    ensures v.shown.Some? ==> forall f :: f in ResultFiles(result) ==> Contains(v.message, f)
    ensures result.Success() && v.shown.None? ==> v.message == warning
    ensures !result.Success() ==> v.message == failed + result.ErrorOr(UnknownError)
  {
    if result.Success() then
      var images := ExistingFiles(ResultFiles(result), existing);
      if images != [] then
        var list := FileList(ResultFiles(result));
        ContainsSuffix(done + "\n\n保存位置:\n", list);
        forall f | f in ResultFiles(result) ensures Contains(done + "\n\n保存位置:\n" + list, f) {
          var k :| 0 <= k < |ResultFiles(result)| && ResultFiles(result)[k] == f;
          ContainsWithin(done + "\n\n保存位置:\n" + list, list, f);
        }
        View(Some(q), Some(images), done + "\n\n保存位置:\n" + list)
      else View(Some(q), None, warning)
    else View(Some(q), None, failed + result.ErrorOr(UnknownError))
  }

  /** `generate_image(prompt, model_name, size, seed)`. */
  function GenerateImage(st: UiState, prompt: string, modelName: string, size: string,
                         seed: SeedInput, call: Call, existing: set<string>): (v: View<GenRequest, seq<string>>)
    ensures st.generator.None? ==> v == View(None, None, NoKeyMessage)
    ensures st.generator.Some? && IsBlank(prompt) ==> v == View(None, None, NoPromptMessage)
    ensures v.request.Some? <==> st.generator.Some? && !IsBlank(prompt)
    ensures v.request.Some? ==> v.request.value == GenRequest(
      Lookup(ModelChoices, modelName, "wanx-v1"), Strip(prompt), size, 1, LenientSeed(seed))
    ensures v.request.Some? && call.Raised? ==> v.shown.None? && v.message == ErrorPrefix + call.reason
    ensures v.request.Some? && call.Returned? ==>
      v == ImageResultView(v.request.value, call.result, existing,
        "✅ 生成成功！", "⚠️ 图片已生成但未能读取文件", "❌ 生成失败: ")
  {
    if st.generator.None? then View(None, None, NoKeyMessage)
    else if Strip(prompt) == "" then View(None, None, NoPromptMessage)
    else
      var q := GenRequest(Lookup(ModelChoices, modelName, "wanx-v1"), Strip(prompt), size, 1, LenientSeed(seed));
      match call
      case Raised(e) => View(Some(q), None, ErrorPrefix + e)
      case Returned(result) =>
        ImageResultView(q, result, existing, "✅ 生成成功！", "⚠️ 图片已生成但未能读取文件", "❌ 生成失败: ")
  }

  /** The arguments `edit_image` passes to the client (the client's own
      defaults fill in `n = 1` and `edit_function = "description_edit"`). */
  datatype EditCall = EditCall(prompt: string, imagePath: string, model: string, size: string, seed: Option<int>)

  /** `edit_image(prompt, image, model_name, size, seed)`. */
  function EditImage(st: UiState, prompt: string, image: Option<string>, modelName: string, size: string,
                     seed: SeedInput, call: Call, existing: set<string>): (v: View<EditCall, seq<string>>)
    ensures st.generator.None? ==> v == View(None, None, NoKeyMessage)
    ensures st.generator.Some? && IsBlank(prompt) ==> v == View(None, None, NoEditPromptMessage)
    ensures st.generator.Some? && !IsBlank(prompt) && image.None? ==> v == View(None, None, NoImageMessage)
    ensures v.request.Some? <==> st.generator.Some? && !IsBlank(prompt) && image.Some?
    ensures v.request.Some? ==> v.request.value == EditCall(
      Strip(prompt), image.value, Lookup(EditModelChoices, modelName, "qwen-image-edit"), size, LenientSeed(seed))
    ensures v.request.Some? && call.Raised? ==> v.shown.None? && v.message == ErrorPrefix + call.reason
    ensures v.request.Some? && call.Returned? ==>
      v == ImageResultView(v.request.value, call.result, existing,
        "✅ 编辑成功！", "⚠️ 图片已编辑但未能读取文件", "❌ 编辑失败: ")
  {
    if st.generator.None? then View(None, None, NoKeyMessage)
    else if Strip(prompt) == "" then View(None, None, NoEditPromptMessage)
    else if image.None? then View(None, None, NoImageMessage)
    else
      var q := EditCall(Strip(prompt), image.value,
        Lookup(EditModelChoices, modelName, "qwen-image-edit"), size, LenientSeed(seed));
      match call
      case Raised(e) => View(Some(q), None, ErrorPrefix + e)
      case Returned(result) =>
        ImageResultView(q, result, existing, "✅ 编辑成功！", "⚠️ 图片已编辑但未能读取文件", "❌ 编辑失败: ")
  }

  /** The arguments `generate_video` passes to the client. */
  datatype VideoCall = VideoCall(prompt: string, model: string, size: string, duration: int, audioUrl: Option<string>)

  /** The message of the IndexError `result["files"][0]` raises on an
      empty list. */
  const IndexErrorMessage: string := "list index out of range"

  /** `generate_video(prompt, model_name, size, duration, audio_url)`: a
      blank audio URL is sent as `None` (a non-blank one unchanged), and
      only the first reported file is shown. */
  function GenerateVideo(st: UiState, prompt: string, modelName: string, size: string, duration: int,
                         audioUrl: string, call: Call, existing: set<string>): (v: View<VideoCall, string>)
    ensures st.generator.None? ==> v == View(None, None, NoKeyMessage)
    ensures st.generator.Some? && IsBlank(prompt) ==> v == View(None, None, NoPromptMessage)
    ensures v.request.Some? <==> st.generator.Some? && !IsBlank(prompt)
    ensures v.request.Some? ==> (
      && v.request.value.model == Lookup(VideoModelChoices, modelName, "wan2.6-t2v")
      && v.request.value.prompt == Strip(prompt)
      && v.request.value.size == size && v.request.value.duration == duration
      && (v.request.value.audioUrl.None? <==> IsBlank(audioUrl))
      && (v.request.value.audioUrl.Some? ==> v.request.value.audioUrl.value == audioUrl))
    ensures v.shown.Some? ==> (
      && call.Returned? && call.result.Success()
      && |ResultFiles(call.result)| > 0 && v.shown.value == ResultFiles(call.result)[0]
      && v.shown.value in existing)
    ensures v.request.Some? && call.Returned? && call.result.Success() && ResultFiles(call.result) == [] ==>
      v.shown.None? && v.message == ErrorPrefix + IndexErrorMessage
    ensures v.request.Some? && call.Returned? && call.result.Success() && ResultFiles(call.result) != [] ==> (
      && (v.shown.Some? <==> ResultFiles(call.result)[0] in existing)
      && (v.shown.Some? ==> v.message == "✅ 视频生成成功！\n\n保存位置: " + ResultFiles(call.result)[0])
      && (v.shown.None? ==> v.message == "⚠️ 视频已生成但未能读取文件"))
    ensures v.request.Some? && call.Raised? ==> v.shown.None? && v.message == ErrorPrefix + call.reason
    ensures v.request.Some? && call.Returned? && !call.result.Success() ==>
      v.message == "❌ 生成失败: " + call.result.ErrorOr(UnknownError)
  {
    if st.generator.None? then View(None, None, NoKeyMessage)
    else if Strip(prompt) == "" then View(None, None, NoPromptMessage)
    else
      var q := VideoCall(Strip(prompt), Lookup(VideoModelChoices, modelName, "wan2.6-t2v"), size, duration,
        if Strip(audioUrl) != "" then Some(audioUrl) else None);
      match call
      case Raised(e) => View(Some(q), None, ErrorPrefix + e)
      case Returned(result) =>
        if !result.Success() then View(Some(q), None, "❌ 生成失败: " + result.ErrorOr(UnknownError))
        else if ResultFiles(result) == [] then View(Some(q), None, ErrorPrefix + IndexErrorMessage)
        else
          var path := ResultFiles(result)[0];
          if path in existing then View(Some(q), Some(path), "✅ 视频生成成功！\n\n保存位置: " + path)
          else View(Some(q), None, "⚠️ 视频已生成但未能读取文件")
  }

  /** The video handler shows a video exactly when the image handlers
      would show a gallery for the first reported file alone, and then
      that file. */
  lemma VideoLikeFirstImage(st: UiState, prompt: string, modelName: string, size: string, duration: int,
                            audioUrl: string, result: ApiResult, existing: set<string>)
    requires st.generator.Some? && !IsBlank(prompt) && result.Success() && ResultFiles(result) != []
    ensures var v := GenerateVideo(st, prompt, modelName, size, duration, audioUrl, Returned(result), existing);
      var w := ImageResultView(v.request.value, Downloaded([ResultFiles(result)[0]]), existing, "", "", "");
      && (v.shown.Some? <==> w.shown.Some?)
      && (v.shown.Some? ==> w.shown.value == [v.shown.value])
  {
    var first := ResultFiles(result)[0];
    var v := GenerateVideo(st, prompt, modelName, size, duration, audioUrl, Returned(result), existing);
    assert v.request.Some?;
    ExistingOne(first, existing);
  }

  /** One reported file is kept exactly when it exists. */
  lemma ExistingOne(f: string, existing: set<string>)
    ensures ExistingFiles([f], existing) == if f in existing then [f] else []
  {
    assert [f][..0] == [];
  }

  /** An edit task that succeeded but whose downloads all failed still
      counts as a success for the client, and the front-end shows the
      "edited but unreadable" warning rather than an error. */
  lemma EditWithoutDownloadsWarns(st: UiState, prompt: string, image: string, modelName: string,
                                  size: string, seed: SeedInput, existing: set<string>)
    requires st.generator.Some? && !IsBlank(prompt)
    ensures EditImage(st, prompt, Some(image), modelName, size, seed, Returned(Downloaded([])), existing).message
      == "⚠️ 图片已编辑但未能读取文件"
  {
  }

  /** A text-to-image task that succeeded but saved nothing is reported by
      the client as a failure without an error text, so the front-end
      shows the default error. */
  lemma GenerationWithoutFilesFails(st: UiState, prompt: string, modelName: string, size: string,
                                    seed: SeedInput, output: TaskOutput, existing: set<string>)
    requires st.generator.Some? && !IsBlank(prompt)
    requires forall k :: 0 <= k < |Items(output)| ==> !Items(output)[k].fetch.Fetched?
    ensures GenerateImage(st, prompt, modelName, size, seed, Returned(SaveImages(output)), existing).message
      == "❌ 生成失败: " + UnknownError
  {
    var r := SaveImages(output);
    assert !r.Success();
    assert r.ErrorOr(UnknownError) == UnknownError;
  }
}

=== FILE: json.dfy ===
/** JSON values, as the request bodies and the configuration file hold them. */
module Json {
  import opened Wrappers

  datatype Json =
    | JNull
    | JStr(str: string)
    | JInt(integer: int)
    | JNum(num: real)
    | JBool(boolean: bool)
    | JObj(fields: map<string, Json>)

  /** `obj.get(key)` on an object; `None` when the key is missing or the
      value is not an object. */
  function Get(j: Json, key: string): Option<Json> {
    if j.JObj? && key in j.fields then Some(j.fields[key]) else None
  }

  function GetStr(j: Json, key: string): Option<string> {
    var v := Get(j, key);
    if v.Some? && v.value.JStr? then Some(v.value.str) else None
  }

  function GetInt(j: Json, key: string): Option<int> {
    var v := Get(j, key);
    if v.Some? && v.value.JInt? then Some(v.value.integer) else None
  }

  function GetNum(j: Json, key: string): Option<real> {
    var v := Get(j, key);
    if v.Some? && v.value.JNum? then Some(v.value.num) else None
  }

  /** The keys of an object (none for any other value). */
  function Keys(j: Json): set<string> {
    if j.JObj? then j.fields.Keys else {}
  }

  /** Python truthiness of a JSON value once loaded. */
  predicate Truthy(j: Json) {
    match j
    case JNull => false
    case JStr(s) => s != ""
    case JInt(i) => i != 0
    case JNum(r) => r != 0.0
    case JBool(b) => b
    case JObj(m) => |m| > 0
  }
}

=== FILE: legacy_ui.dfy ===
/** The three English-language Gradio front-ends, bailian_webui_simple.py,
    bailian_webui_uvicorn.py and bailian_webui_fixed.py, whose handlers are
    the same code: a five-model menu keyed by model id, a key that is not
    persisted, and a seed read outside the `try`, so a seed `int` rejects
    escapes the handler. */
module LegacyUi {
  import opened Wrappers
  import opened Text
  import opened Generator
  import opened Polling
  import opened UiCommon
  import GradioUi

  /** `MODEL_CHOICES`: each offered model id maps to itself. */
  const ModelChoices: map<string, string> := map[
    "wanx-v1" := "wanx-v1",
    "wanx2.1-t2i-turbo" := "wanx2.1-t2i-turbo",
    "wanx2.1-t2i-plus" := "wanx2.1-t2i-plus",
    "qwen-image" := "qwen-image",
    "flux-schnell" := "flux-schnell"]

  /** The model a menu value selects: offered ids are passed through,
      anything else becomes `wanx-v1`. */
  function SelectModel(name: string): (model: string)
    ensures model in ModelChoices.Values
    ensures name in ModelChoices ==> model == name
    ensures name !in ModelChoices ==> model == "wanx-v1"
  {
    assert ModelChoices["wanx-v1"] == "wanx-v1";
    if name in ModelChoices then ModelChoices[name] else "wanx-v1"
  }

  /** `init_generator(api_key)`: the new generator (or none when setting it
      failed) and the status text with the visibility of the key row and
      the main interface. The environment is only read. */
  function InitGenerator(generator: Option<Generator>, env: Option<string>, apiKey: string)
    : (r: (Option<Generator>, GradioUi.InitView))
    ensures r.1.keyRowVisible == !r.1.mainVisible
    ensures r.1.mainVisible <==> !IsBlank(apiKey) || Truthy(env)
    ensures !IsBlank(apiKey) ==> r.0 == Some(Generator(Strip(apiKey))) && r.1.message == "API Key set successfully!"
    ensures IsBlank(apiKey) && r.1.mainVisible ==>
      r.0.Some? && r.0.value.apiKey == env.value && r.1.message == "API Key loaded from environment!"
    ensures !r.1.mainVisible ==> r.0 == generator && r.1.message == "Error: " + MissingKeyMessage
  {
    if Strip(apiKey) != "" then
      (Some(NewGenerator(Some(Strip(apiKey)), env).value),
       GradioUi.InitView("API Key set successfully!", false, true))
    else
      match NewGenerator(None, env)
      case Success(g) => (Some(g), GradioUi.InitView("API Key loaded from environment!", false, true))
      case Failure(e) => (generator, GradioUi.InitView("Error: " + e, true, false))
  }

  /** How `generate_image` ends: it returns a gallery value and a status
      text (with the call it made into the client, if any), or the
      exception from reading the seed propagates to Gradio. */
  datatype Outcome = Shown(request: Option<GenRequest>, gallery: Option<seq<string>>, message: string)
                   | Raises(reason: string)

  /** `generate_image(prompt, model_name, size, seed)`. */
  function GenerateImage(generator: Option<Generator>, prompt: string, modelName: string, size: string,
                         seed: SeedInput, call: Call, existing: set<string>): (o: Outcome)
    ensures generator.None? ==> o == Shown(None, None, "Error: Please set API Key first")
    ensures generator.Some? && IsBlank(prompt) ==> o == Shown(None, None, "Error: Please enter prompt")
    ensures o.Raises? <==> generator.Some? && !IsBlank(prompt) && TruthySeed(seed).Failure?
    ensures o.Raises? ==> o.reason == TruthySeed(seed).error
    ensures o.Shown? && o.request.Some? ==>
      o.request.value == GenRequest(SelectModel(modelName), Strip(prompt), size, 1, TruthySeed(seed).value)
    ensures (o.Shown? && o.request.Some?) <==>
      generator.Some? && !IsBlank(prompt) && TruthySeed(seed).Success?
    ensures o.Shown? && o.gallery.Some? ==> (
      && call.Returned? && call.result.Success()
      && o.gallery.value == ExistingFiles(ResultFiles(call.result), existing)
      && o.gallery.value != []
      && forall f :: f in ResultFiles(call.result) ==> Contains(o.message, f))
    ensures o.Shown? && o.request.Some? && call.Returned? && call.result.Success() ==> (
      && (o.gallery.None? <==> ExistingFiles(ResultFiles(call.result), existing) == [])
      && (o.gallery.None? ==> o.message == "Warning: Images generated but files not found")
      && (o.gallery.Some? ==> o.message == "Success!\nSaved to:\n" + Join(ResultFiles(call.result), "\n")))
    ensures o.Shown? && o.request.Some? && call.Returned? && !call.result.Success() ==>
      o == Shown(o.request, None, "Error: " + call.result.ErrorOr("Unknown error"))
    ensures o.Shown? && o.request.Some? && call.Raised? ==> o == Shown(o.request, None, "Error: " + call.reason)
  {
    if generator.None? then Shown(None, None, "Error: Please set API Key first")
    else if Strip(prompt) == "" then Shown(None, None, "Error: Please enter prompt")
    else match TruthySeed(seed)
      case Failure(e) => Raises(e)
      case Success(seedValue) =>
        var q := GenRequest(SelectModel(modelName), Strip(prompt), size, 1, seedValue);
        match call
        case Raised(e) => Shown(Some(q), None, "Error: " + e)
        case Returned(result) =>
          if !result.Success() then Shown(Some(q), None, "Error: " + result.ErrorOr("Unknown error"))
          else
            var images := ExistingFiles(ResultFiles(result), existing);
            if images == [] then Shown(Some(q), None, "Warning: Images generated but files not found")
            else
              var list := Join(ResultFiles(result), "\n");
              ListedFiles(ResultFiles(result));
              forall f | f in ResultFiles(result) ensures Contains("Success!\nSaved to:\n" + list, f) {
                ContainsSuffix("Success!\nSaved to:\n", list);
                ContainsWithin("Success!\nSaved to:\n" + list, list, f);
              }
              Shown(Some(q), Some(images), "Success!\nSaved to:\n" + list)
  }

  /** Every file of a newline-joined list appears in it. */
  lemma ListedFiles(files: seq<string>)
    ensures forall f :: f in files ==> Contains(Join(files, "\n"), f)
  {
    forall f | f in files ensures Contains(Join(files, "\n"), f) {
      var k :| 0 <= k < |files| && files[k] == f;
      JoinContains(files, "\n", k);
    }
  }

  /** For the same client outcome, the English front-ends show exactly the
      gallery the main Gradio front-end shows; only the status texts and
      the seed reading differ. */
  lemma SameGalleryAsGradio(st: GradioUi.UiState, prompt: string, gradioName: string, legacyName: string,
                            size: string, seed: SeedInput, call: Call, existing: set<string>)
    requires st.generator.Some? && !IsBlank(prompt) && TruthySeed(seed).Success?
    ensures var o := GenerateImage(st.generator, prompt, legacyName, size, seed, call, existing);
      o.Shown? && o.gallery == GradioUi.GenerateImage(st, prompt, gradioName, size, seed, call, existing).shown
  {
  }
}

=== FILE: polling.dfy ===
/** The asynchronous half of bailian_image_gen.py: polling a submitted task
    until it reaches a terminal status (`_wait_for_result`,
    `_wait_for_edit_result`), turning its results into local files
    (`_save_images`, `_download_images`), and the two entry points
    `generate_image` and `edit_image` that submit and then poll.

    The network and the disk are inputs: each status check is an
    `Observation`, each download carries its own outcome, and the clock
    reading used in a file name is part of a successful download. */
module Polling {
  import opened Wrappers
  import opened Text
  import opened Seqs
  import opened Json
  import opened Generator

  // ---------------------------------------------------------------------
  // What the service answers
  // ---------------------------------------------------------------------

  /** What fetching one result URL gives: the bytes arrived (and were
      written at the given timestamp), or the request raised. */
  datatype Fetch = Fetched(timestamp: string) | FetchFailed(reason: string)

  /** One element of `output["results"]`, with what downloading its URL
      would give. */
  datatype ResultItem = ResultItem(url: Option<string>, fetch: Fetch)

  /** The `output` object of a task-status reply. */
  datatype TaskOutput = TaskOutput(
    status: Option<string>,
    message: Option<string>,
    results: Option<seq<ResultItem>>)

  /** One status check: the query raised (network error, bad status code,
      malformed JSON), the reply had no `output`, or it had one. */
  datatype Observation = QueryFailed(reason: string) | NoOutput | Reply(output: TaskOutput)

  /** The reply to check number `i`. The sequence need not cover every
      check: checks past its end see a reply without an `output`, which
      the loops treat as "not finished yet". */
  function At(obs: seq<Observation>, i: nat): Observation {
    if i < |obs| then obs[i] else NoOutput
  }

  const Succeeded: string := "SUCCEEDED"
  const TaskFailed: string := "FAILED"

  predicate HasStatus(o: Observation, status: string) {
    o.Reply? && o.output.status == Some(status)
  }

  /** The statuses that end a polling loop. */
  predicate IsTerminal(o: Observation) {
    HasStatus(o, Succeeded) || HasStatus(o, TaskFailed)
  }

  // ---------------------------------------------------------------------
  // What the client returns
  // ---------------------------------------------------------------------

  /** One element of the `results` list built by `_save_images`. */
  datatype SaveEntry = SavedFile(url: string, file: string) | SaveError(url: string, error: string)

  predicate IsSavedFile(e: SaveEntry) {
    e.SavedFile?
  }

  /** The result dictionaries of the client:
      `Saved` is what `_save_images` returns (`success` is "some file was
      saved"), `Downloaded` is the `{"success": True, "files": ...}` of an
      edit, and `Failed` is `{"success": False, "error": ...}`. */
  datatype ApiResult =
    | Saved(files: seq<string>, entries: seq<SaveEntry>)
    | Downloaded(files: seq<string>)
    | Failed(error: string)
  {
    /** `result["success"]`. */
    predicate Success() {
      (Saved? && |files| > 0) || Downloaded?
    }

    /** `result.get("error", default)`. */
    function ErrorOr(default: string): string {
      if Failed? then error else default
    }
  }

  const UnknownError: string := "未知错误"
  const TaskFailedPrefix: string := "任务失败: "
  const WaitTimeout: string := "等待超时，请稍后手动查询任务结果"
  const EditTimeout: string := "等待任务完成超时"
  const NoEditedImage: string := "未获取到编辑后的图片"
  const OutputDir: string := "generated_images"

  /** The default number of status checks of both loops. */
  const MaxRetries: nat := 60

  function FailedTask(output: TaskOutput): ApiResult {
    Failed(TaskFailedPrefix + output.message.GetOr(UnknownError))
  }

  // ---------------------------------------------------------------------
  // `_save_images`
  // ---------------------------------------------------------------------

  predicate HasUrl(item: ResultItem) {
    item.url.Some?
  }

  function Items(output: TaskOutput): seq<ResultItem> {
    if output.results.Some? then output.results.value else []
  }

  /** The file `_save_images` writes for the item at position `index`. */
  function ImageFileName(timestamp: string, index: nat): string {
    OutputDir + "/image_" + timestamp + "_" + NatToString(index + 1) + ".png"
  }

  function SaveEntryFor(item: ResultItem, index: nat): SaveEntry
    requires HasUrl(item)
  {
    match item.fetch
    case Fetched(ts) => SavedFile(item.url.value, ImageFileName(ts, index))
    case FetchFailed(reason) => SaveError(item.url.value, reason)
  }

  /** The saved file names of `entries`, in order. */
  function FilesOf(entries: seq<SaveEntry>): (files: seq<string>)
    ensures |files| <= |entries|
    ensures files == [] <==> forall j :: 0 <= j < |entries| ==> !entries[j].SavedFile?
  {
    var ks := Positions(entries, IsSavedFile);
    PositionsEmpty(entries, IsSavedFile);
    seq(|ks|, j requires 0 <= j < |ks| => entries[ks[j]].file)
  }

  /** The `results` list of `_save_images`: one entry per result item
      that has a URL, in the items' order, holding the saved file when the
      download worked and the error otherwise; items without a URL are
      skipped. */
  function SaveEntries(items: seq<ResultItem>): (entries: seq<SaveEntry>)
    ensures var ks := Positions(items, HasUrl);
      && |entries| == |ks|
      && forall j :: 0 <= j < |ks| ==>
          && entries[j].url == items[ks[j]].url.value
          && (entries[j].SavedFile? <==> items[ks[j]].fetch.Fetched?)
  {
    var ks := Positions(items, HasUrl);
    seq(|ks|, j requires 0 <= j < |ks| => SaveEntryFor(items[ks[j]], ks[j]))
  }

  /** Some entry is a saved file exactly when some item with a URL was
      downloaded. */
  lemma SomeFileSaved(items: seq<ResultItem>)
    ensures (exists j :: 0 <= j < |SaveEntries(items)| && SaveEntries(items)[j].SavedFile?) <==>
            (exists k :: 0 <= k < |items| && HasUrl(items[k]) && items[k].fetch.Fetched?)
  {
    var ks := Positions(items, HasUrl);
    var entries := SaveEntries(items);
    if j :| 0 <= j < |entries| && entries[j].SavedFile? {
      assert HasUrl(items[ks[j]]) && items[ks[j]].fetch.Fetched?;
    }
    if k :| 0 <= k < |items| && HasUrl(items[k]) && items[k].fetch.Fetched? {
      var j :| 0 <= j < |ks| && ks[j] == k;
      assert entries[j].SavedFile?;
    }
  }

  /** `_save_images(output)`: the entries above, the saved files among
      them, and success exactly when at least one file was saved. */
  function SaveImages(output: TaskOutput): (r: ApiResult)
    ensures r.Saved? && r.entries == SaveEntries(Items(output))
    ensures r.Success() <==>
      exists k :: 0 <= k < |Items(output)| && HasUrl(Items(output)[k]) && Items(output)[k].fetch.Fetched?
    ensures output.results.None? ==> r == Saved([], [])
  {
    var entries := SaveEntries(Items(output));
    SomeFileSaved(Items(output));
    Saved(FilesOf(entries), entries)
  }

  // ---------------------------------------------------------------------
  // `_download_images`
  // ---------------------------------------------------------------------

  /** A URL to download and what downloading it gives. */
  datatype Download = Download(url: string, fetch: Fetch)

  predicate IsFetched(d: Download) {
    d.fetch.Fetched?
  }

  /** The file `_download_images` writes for the URL at position `index`. */
  function EditedFileName(timestamp: string, index: nat): string {
    OutputDir + "/edited_" + timestamp + "_" + NatToString(index + 1) + ".png"
  }

  /** `_download_images(urls)`: the files of the successful downloads, in
      URL order, each named after its URL's position; failed downloads are
      skipped. */
  function DownloadImages(downloads: seq<Download>): (files: seq<string>)
    ensures var ks := Positions(downloads, IsFetched);
      && |files| == |ks|
      && forall j :: 0 <= j < |ks| ==>
          files[j] == EditedFileName(downloads[ks[j]].fetch.timestamp, ks[j])
    ensures |files| <= |downloads|
    ensures files == [] <==> forall k :: 0 <= k < |downloads| ==> !IsFetched(downloads[k])
    ensures |files| == |downloads| <==> forall k :: 0 <= k < |downloads| ==> IsFetched(downloads[k])
  {
    var ks := Positions(downloads, IsFetched);
    PositionsEmpty(downloads, IsFetched);
    seq(|ks|, j requires 0 <= j < |ks| => EditedFileName(downloads[ks[j]].fetch.timestamp, ks[j]))
  }

  /** The URLs an edit result lists, with their download outcomes. */
  function DownloadsOf(items: seq<ResultItem>): (ds: seq<Download>)
    ensures var ks := Positions(items, HasUrl);
      && |ds| == |ks|
      && forall j :: 0 <= j < |ks| ==> ds[j] == Download(items[ks[j]].url.value, items[ks[j]].fetch)
    ensures ds == [] <==> forall k :: 0 <= k < |items| ==> !HasUrl(items[k])
  {
    var ks := Positions(items, HasUrl);
    PositionsEmpty(items, HasUrl);
    seq(|ks|, j requires 0 <= j < |ks| => Download(items[ks[j]].url.value, items[ks[j]].fetch))
  }

  /** The SUCCEEDED branch of `_wait_for_edit_result`: failure when no
      result item has a URL, otherwise success with whatever files could
      be downloaded, possibly none. */
  function EditSucceeded(output: TaskOutput): (r: ApiResult)
    ensures r.Success() <==> exists k :: 0 <= k < |Items(output)| && HasUrl(Items(output)[k])
    ensures r.Failed? ==> r.error == NoEditedImage
    ensures r.Downloaded? ==> |r.files| <= |Positions(Items(output), HasUrl)|
    ensures r.Downloaded? && (forall k :: 0 <= k < |Items(output)| ==> !Items(output)[k].fetch.Fetched?)
      ==> r.files == []
  {
    var ds := DownloadsOf(Items(output));
    NothingFetchedNoFiles(Items(output));
    if output.results.Some? && ds != [] then Downloaded(DownloadImages(ds)) else Failed(NoEditedImage)
  }

  /** When no download succeeds, no file is written. */
  lemma NothingFetchedNoFiles(items: seq<ResultItem>)
    ensures (forall k :: 0 <= k < |items| ==> !items[k].fetch.Fetched?) ==> DownloadImages(DownloadsOf(items)) == []
  {
    var ds := DownloadsOf(items);
    if forall k :: 0 <= k < |items| ==> !items[k].fetch.Fetched? {
      forall j | 0 <= j < |ds| ensures !IsFetched(ds[j]) {
        var ks := Positions(items, HasUrl);
        assert ds[j].fetch == items[ks[j]].fetch;
      }
    }
  }

  // ---------------------------------------------------------------------
  // The polling loops
  // ---------------------------------------------------------------------

  /** What one check means to `_wait_for_result`: a result for a terminal
      status, nothing (keep polling) for anything else. */
  function GenStep(o: Observation): (r: Option<ApiResult>)
    ensures r.Some? <==> IsTerminal(o)
  {
    if HasStatus(o, Succeeded) then Some(SaveImages(o.output))
    else if HasStatus(o, TaskFailed) then Some(FailedTask(o.output))
    else None
  }

  /** What one check means to `_wait_for_edit_result`. */
  function EditStep(o: Observation): (r: Option<ApiResult>)
    ensures r.Some? <==> IsTerminal(o)
  {
    if HasStatus(o, Succeeded) then Some(EditSucceeded(o.output))
    else if HasStatus(o, TaskFailed) then Some(FailedTask(o.output))
    else None
  }

  /** The result of the checks from number `i` on: the first result
      `step` gives among checks `i` to `maxRetries - 1`, or `timeout`. */
  function PollFrom(obs: seq<Observation>, maxRetries: nat, step: Observation -> Option<ApiResult>,
                    timeout: string, i: nat): ApiResult
    decreases maxRetries - i
  {
    if i >= maxRetries then Failed(timeout)
    else match step(At(obs, i))
      case Some(result) => result
      case None => PollFrom(obs, maxRetries, step, timeout, i + 1)
  }

  /** What a polling loop of `maxRetries` checks returns, as a recursion
      over the checks. */
  function PollResult(obs: seq<Observation>, maxRetries: nat, step: Observation -> Option<ApiResult>,
                      timeout: string): ApiResult {
    PollFrom(obs, maxRetries, step, timeout, 0)
  }

  /** The recursion returns the first check's result: when check `k` is the
      first with a result it is that result, and when no check within
      the budget has one it is the timeout. */
  lemma {:induction false} PollFromFirst(obs: seq<Observation>, maxRetries: nat,
                                         step: Observation -> Option<ApiResult>, timeout: string, i: nat)
    requires i <= maxRetries
    ensures (forall k :: i <= k < maxRetries ==> step(At(obs, k)).None?) ==>
      PollFrom(obs, maxRetries, step, timeout, i) == Failed(timeout)
    ensures forall k ::
      (i <= k < maxRetries && step(At(obs, k)).Some? && forall m :: i <= m < k ==> step(At(obs, m)).None?) ==>
      PollFrom(obs, maxRetries, step, timeout, i) == step(At(obs, k)).value
    decreases maxRetries - i
  {
    if i < maxRetries {
      PollFromFirst(obs, maxRetries, step, timeout, i + 1);
    }
  }

  /** The loop both `_wait_for_...` methods share: at most `maxRetries`
      checks, stopping at the first one `step` turns into a result;
      `timeout` when none does. `checks` is how many status queries were
      made. */
  method Poll(obs: seq<Observation>, maxRetries: nat, step: Observation -> Option<ApiResult>, timeout: string)
    returns (r: ApiResult, checks: nat)
    ensures checks <= maxRetries
    ensures forall k :: 0 <= k < checks - 1 ==> step(At(obs, k)).None?
    ensures checks > 0 && step(At(obs, checks - 1)).Some? ==> r == step(At(obs, checks - 1)).value
    ensures checks == 0 || step(At(obs, checks - 1)).None? ==>
      checks == maxRetries && r == Failed(timeout)
    ensures r == PollResult(obs, maxRetries, step, timeout)
  {
    var i: nat := 0;
    while i < maxRetries
      invariant i <= maxRetries
      invariant forall k :: 0 <= k < i ==> step(At(obs, k)).None?
      invariant PollFrom(obs, maxRetries, step, timeout, i) == PollResult(obs, maxRetries, step, timeout)
    {
      var outcome := step(At(obs, i));
      if outcome.Some? {
        return outcome.value, i + 1;
      }
      i := i + 1;
    }
    return Failed(timeout), maxRetries;
  }

  lemma FailedTaskIsNotTimeout(output: TaskOutput, timeout: string)
    requires timeout == WaitTimeout || timeout == EditTimeout
    ensures FailedTask(output) != Failed(timeout)
  {
    assert FailedTask(output).error[0] == '任';
  }

  /** `_wait_for_result(task_id, max_retries)`. */
  method WaitForResult(obs: seq<Observation>, maxRetries: nat) returns (r: ApiResult, checks: nat)
    ensures r == PollResult(obs, maxRetries, GenStep, WaitTimeout)
    ensures checks <= maxRetries
    ensures forall k :: 0 <= k < checks - 1 ==> !IsTerminal(At(obs, k))
    ensures r == Failed(WaitTimeout) <==> forall k :: 0 <= k < maxRetries ==> !IsTerminal(At(obs, k))
    ensures r != Failed(WaitTimeout) ==> checks > 0 && IsTerminal(At(obs, checks - 1))
    ensures checks > 0 && HasStatus(At(obs, checks - 1), Succeeded) ==> r == SaveImages(At(obs, checks - 1).output)
    ensures checks > 0 && HasStatus(At(obs, checks - 1), TaskFailed) ==>
      r == Failed(TaskFailedPrefix + At(obs, checks - 1).output.message.GetOr(UnknownError))
    ensures r.Success() ==> r.Saved? && checks > 0 && HasStatus(At(obs, checks - 1), Succeeded)
  {
    r, checks := Poll(obs, maxRetries, GenStep, WaitTimeout);
    if checks > 0 && IsTerminal(At(obs, checks - 1)) {
      FailedTaskIsNotTimeout(At(obs, checks - 1).output, WaitTimeout);
    }
  }

  /** `_wait_for_edit_result(task_id, max_retries)`. */
  method WaitForEditResult(obs: seq<Observation>, maxRetries: nat) returns (r: ApiResult, checks: nat)
    ensures r == PollResult(obs, maxRetries, EditStep, EditTimeout)
    ensures checks <= maxRetries
    ensures forall k :: 0 <= k < checks - 1 ==> !IsTerminal(At(obs, k))
    ensures r == Failed(EditTimeout) <==> forall k :: 0 <= k < maxRetries ==> !IsTerminal(At(obs, k))
    ensures r != Failed(EditTimeout) ==> checks > 0 && IsTerminal(At(obs, checks - 1))
    ensures checks > 0 && HasStatus(At(obs, checks - 1), Succeeded) ==> r == EditSucceeded(At(obs, checks - 1).output)
    ensures checks > 0 && HasStatus(At(obs, checks - 1), TaskFailed) ==>
      r == Failed(TaskFailedPrefix + At(obs, checks - 1).output.message.GetOr(UnknownError))
    ensures r.Success() ==> r.Downloaded? && checks > 0 && HasStatus(At(obs, checks - 1), Succeeded)
  {
    r, checks := Poll(obs, maxRetries, EditStep, EditTimeout);
    if checks > 0 && IsTerminal(At(obs, checks - 1)) {
      FailedTaskIsNotTimeout(At(obs, checks - 1).output, EditTimeout);
      if HasStatus(At(obs, checks - 1), Succeeded) {
        assert NoEditedImage != EditTimeout by {
          assert NoEditedImage[0] != EditTimeout[0];
        }
      }
    }
  }

  // ---------------------------------------------------------------------
  // `generate_image` and `edit_image`
  // ---------------------------------------------------------------------

  /** How submitting a text-to-image task ends: the reply names a task, the
      reply has no task id (its text is `body`), `requests` raised, or
      something else raised. */
  datatype Submission =
    | Accepted(taskId: string)
    | NoTaskId(body: string)
    | RequestFailed(reason: string)
    | Crashed(reason: string)

  const SubmitFailedPrefix: string := "提交任务失败: "
  const RequestErrorPrefix: string := "请求异常: "
  const ExceptionPrefix: string := "异常: "

  /** `generator.generate_image(prompt, model, size, n, seed)`: the body it
      sends, and the result of submitting and polling up to 60 times. */
  method GenerateImage(g: Generator, q: GenRequest, submission: Submission, obs: seq<Observation>)
    returns (payload: Json, r: ApiResult)
    ensures ReadGenPayload(payload) == Some(q)
    ensures submission.Accepted? ==> r == PollResult(obs, MaxRetries, GenStep, WaitTimeout)
    ensures submission.NoTaskId? ==> r == Failed(SubmitFailedPrefix + submission.body)
    ensures submission.RequestFailed? ==> r == Failed(RequestErrorPrefix + submission.reason)
    ensures submission.Crashed? ==> r == Failed(ExceptionPrefix + submission.reason)
    ensures r.Success() ==>
      (submission.Accepted? && r.Saved? && exists k :: 0 <= k < MaxRetries && HasStatus(At(obs, k), Succeeded))
  {
    payload := GenPayload(q);
    GenPayloadRoundTrip(q);
    match submission {
      case Accepted(_) =>
        var checks;
        r, checks := WaitForResult(obs, MaxRetries);
      case NoTaskId(body) => r := Failed(SubmitFailedPrefix + body);
      case RequestFailed(reason) => r := Failed(RequestErrorPrefix + reason);
      case Crashed(reason) => r := Failed(ExceptionPrefix + reason);
    }
  }

  /** Reading the image file: it could not be opened, or its base64 text. */
  datatype ImageFile = Unreadable(reason: string) | Encoded(base64: string)

  /** What the service said about an error reply that `raise_for_status`
      turned into an HTTPError: its JSON, or else its text. */
  datatype HttpDetail = JsonBody(json: string) | TextBody(text: string)

  /** How submitting an edit task ends. */
  datatype EditSubmission =
    | EditAccepted(taskId: string)
    | ApiError(code: string, message: Option<string>)
    | UnknownReply(body: string)
    | HttpFailure(reason: string, detail: HttpDetail)
    | EditRequestFailed(reason: string)
    | EditCrashed(reason: string)

  const ReadFailedPrefix: string := "读取图片失败: "
  const UnknownReplyPrefix: string := "未知的响应格式: "

  function DetailText(d: HttpDetail): string {
    match d
    case JsonBody(json) => " - 详细错误: " + json
    case TextBody(text) => " - 响应内容: " + text[..if |text| < 200 then |text| else 200]
  }

  /** `generator.edit_image(prompt, image_path, model, size, n, seed,
      edit_function)`: the body it sends (none when the image cannot be
      read), and the result of submitting and polling up to 60 times. */
  method EditImage(g: Generator, prompt: string, imagePath: string, image: ImageFile, model: string,
                   n: int, seed: Option<int>, editFunction: string,
                   submission: EditSubmission, obs: seq<Observation>)
    returns (payload: Option<Json>, r: ApiResult)
    ensures image.Unreadable? ==> payload == None && r == Failed(ReadFailedPrefix + image.reason)
    ensures image.Encoded? ==>
      (payload.Some? && ReadEditPayload(payload.value) ==
        Some(EditRequest(model, editFunction, prompt, MimeType(imagePath), image.base64, n, seed)))
    ensures image.Encoded? && submission.ApiError? ==>
      r == Failed("API错误: " + submission.code + " - " + submission.message.GetOr(UnknownError))
    ensures image.Encoded? && submission.EditAccepted? ==> r == PollResult(obs, MaxRetries, EditStep, EditTimeout)
    ensures image.Encoded? && submission.HttpFailure? ==>
      r == Failed("HTTP错误: " + submission.reason + DetailText(submission.detail))
    ensures image.Encoded? && submission.UnknownReply? ==> r == Failed(UnknownReplyPrefix + submission.body)
    ensures image.Encoded? && submission.EditRequestFailed? ==> r == Failed(RequestErrorPrefix + submission.reason)
    ensures image.Encoded? && submission.EditCrashed? ==> r == Failed(ExceptionPrefix + submission.reason)
    ensures r.Success() ==>
      (image.Encoded? && submission.EditAccepted? && r.Downloaded?
        && exists k :: 0 <= k < MaxRetries && HasStatus(At(obs, k), Succeeded))
  {
    if image.Unreadable? {
      return None, Failed(ReadFailedPrefix + image.reason);
    }
    var q := EditRequestFor(model, editFunction, prompt, imagePath, image.base64, n, seed);
    EditPayloadRoundTrip(q);
    payload := Some(EditPayload(q));
    r := EditOutcome(submission, obs);
  }

  /** What becomes of a built edit body once it is submitted. */
  method EditOutcome(submission: EditSubmission, obs: seq<Observation>) returns (r: ApiResult)
    ensures submission.ApiError? ==>
      r == Failed("API错误: " + submission.code + " - " + submission.message.GetOr(UnknownError))
    ensures submission.EditAccepted? ==> r == PollResult(obs, MaxRetries, EditStep, EditTimeout)
    ensures submission.HttpFailure? ==>
      r == Failed("HTTP错误: " + submission.reason + DetailText(submission.detail))
    ensures submission.UnknownReply? ==> r == Failed(UnknownReplyPrefix + submission.body)
    ensures submission.EditRequestFailed? ==> r == Failed(RequestErrorPrefix + submission.reason)
    ensures submission.EditCrashed? ==> r == Failed(ExceptionPrefix + submission.reason)
    ensures r.Success() ==>
      (submission.EditAccepted? && r.Downloaded?
        && exists k :: 0 <= k < MaxRetries && HasStatus(At(obs, k), Succeeded))
  {
    match submission {
      case EditAccepted(_) =>
        var checks;
        r, checks := WaitForEditResult(obs, MaxRetries);
      case ApiError(code, message) => r := Failed("API错误: " + code + " - " + message.GetOr(UnknownError));
      case UnknownReply(body) => r := Failed(UnknownReplyPrefix + body);
      case HttpFailure(reason, detail) => r := Failed("HTTP错误: " + reason + DetailText(detail));
      case EditRequestFailed(reason) => r := Failed(RequestErrorPrefix + reason);
      case EditCrashed(reason) => r := Failed(ExceptionPrefix + reason);
    }
  }
}

=== FILE: seqs.dfy ===
/** Selecting the positions of a sequence whose elements pass a test: the
    shape of every `for ... if ...: append` loop in the source. */
module Seqs {
  import opened Wrappers

  /** The positions of `xs` whose element satisfies `p`, in increasing
      order: each such position exactly once and no other. */
  function Positions<T>(xs: seq<T>, p: T -> bool): (ks: seq<nat>)
    ensures forall j :: 0 <= j < |ks| ==> ks[j] < |xs| && p(xs[ks[j]])
    ensures forall j, j' :: 0 <= j < j' < |ks| ==> ks[j] < ks[j']
    ensures forall k :: 0 <= k < |xs| && p(xs[k]) ==> k in ks
    ensures |ks| <= |xs|
    ensures |ks| == |xs| <==> forall k :: 0 <= k < |xs| ==> p(xs[k])
  {
    if |xs| == 0 then []
    else
      var n := |xs| - 1;
      var rest := Positions(xs[..n], p);
      assert forall k :: 0 <= k < n ==> xs[..n][k] == xs[k];
      if p(xs[n]) then rest + [n] else rest
  }

  /** A position list is empty exactly when nothing matches. */
  lemma PositionsEmpty<T>(xs: seq<T>, p: T -> bool)
    ensures Positions(xs, p) == [] <==> forall k :: 0 <= k < |xs| ==> !p(xs[k])
  {
    var ks := Positions(xs, p);
    if ks != [] {
      assert p(xs[ks[0]]);
    }
  }

  /** The elements of `xs` that satisfy `p`, in order. */
  function Filter<T>(xs: seq<T>, p: T -> bool): seq<T> {
    if |xs| == 0 then []
    else
      var n := |xs| - 1;
      Filter(xs[..n], p) + (if p(xs[n]) then [xs[n]] else [])
  }

  /** What a filter keeps: only elements of `xs` that pass, every element
      that passes, and nothing at all exactly when none passes. */
  lemma {:induction false} FilterFacts<T>(xs: seq<T>, p: T -> bool)
    ensures |Filter(xs, p)| <= |xs|
    ensures forall j :: 0 <= j < |Filter(xs, p)| ==> p(Filter(xs, p)[j]) && Filter(xs, p)[j] in xs
    ensures forall x :: x in xs && p(x) ==> x in Filter(xs, p)
    ensures Filter(xs, p) == [] <==> forall x :: x in xs ==> !p(x)
  {
    if |xs| > 0 {
      var n := |xs| - 1;
      var pre := xs[..n];
      FilterFacts(pre, p);
      assert xs == pre + [xs[n]];
      var f, g := Filter(xs, p), Filter(pre, p);
      assert f == g + (if p(xs[n]) then [xs[n]] else []);
      forall x | x in xs && p(x) ensures x in f {
        if x in pre {
          assert x in g;
        } else {
          assert x == xs[n];
        }
      }
      forall j | 0 <= j < |f| ensures p(f[j]) && f[j] in xs {
        if j < |g| {
          assert f[j] == g[j];
        }
      }
    }
  }

  /** The positions pick out exactly the filtered elements, in order. */
  lemma {:induction false} PositionsFilter<T>(xs: seq<T>, p: T -> bool)
    ensures |Positions(xs, p)| == |Filter(xs, p)|
    ensures forall j :: 0 <= j < |Filter(xs, p)| ==> Filter(xs, p)[j] == xs[Positions(xs, p)[j]]
  {
    if |xs| > 0 {
      var n := |xs| - 1;
      var pre := xs[..n];
      PositionsFilter(pre, p);
      var ks, rest := Positions(xs, p), Positions(pre, p);
      var f, g := Filter(xs, p), Filter(pre, p);
      assert forall k :: 0 <= k < n ==> pre[k] == xs[k];
      forall j | 0 <= j < |g| ensures f[j] == xs[ks[j]] {
        assert f[j] == g[j] && ks[j] == rest[j];
      }
    }
  }

  /** `table.get(key)` for a dictionary written as its list of entries:
      the value of the first entry with that key, or nothing when no entry
      has it. */
  function Find<K(==), V(==)>(table: seq<(K, V)>, key: K): (r: Option<V>)
    ensures r.None? <==> forall i :: 0 <= i < |table| ==> table[i].0 != key
    ensures r.Some? ==> exists i :: (
      && 0 <= i < |table| && table[i].0 == key && table[i].1 == r.value
      && forall j :: 0 <= j < i ==> table[j].0 != key)
  {
    if |table| == 0 then None
    else if table[0].0 == key then Some(table[0].1)
    else
      var r := Find(table[1..], key);
      if r.Some? then
        var i :| 0 <= i < |table[1..]| && table[1..][i].0 == key && table[1..][i].1 == r.value
          && forall j :: 0 <= j < i ==> table[1..][j].0 != key;
        assert table[i + 1].0 == key && table[i + 1].1 == r.value;
        r
      else r
  }
}

=== FILE: text.dfy ===
/** The handful of Python string operations the source leans on:
    `str.strip`, `str.lower`, `in`, `startswith`, `str.split`, `str.join`,
    `str(n)` for integers and `int(s)` for strings. */
module Text {
  import opened Wrappers

  /** Python's `str.isspace` for a single character: the characters
      `str.strip()` removes when called without arguments. */
  predicate IsSpace(c: char) {
    || c == ' '
    || ('\t' <= c <= '\r')
    || ('\U{1C}' <= c <= '\U{1F}')
    || c == '\U{85}' || c == '\U{A0}' || c == '\U{1680}'
    || ('\U{2000}' <= c <= '\U{200A}')
    || c == '\U{2028}' || c == '\U{2029}' || c == '\U{202F}'
    || c == '\U{205F}' || c == '\U{3000}'
  }

  /** True of the strings Python's `not s.strip()` accepts. */
  predicate IsBlank(s: string) {
    forall i :: 0 <= i < |s| ==> IsSpace(s[i])
  }

  function StripStart(s: string): (r: string)
    ensures |r| <= |s| && r == s[|s| - |r|..]
    ensures forall i :: 0 <= i < |s| - |r| ==> IsSpace(s[i])
    ensures r == [] || !IsSpace(r[0])
  {
    if |s| > 0 && IsSpace(s[0]) then StripStart(s[1..]) else s
  }

  function StripEnd(s: string): (r: string)
    ensures |r| <= |s| && r == s[..|r|]
    ensures forall i :: |r| <= i < |s| ==> IsSpace(s[i])
    ensures r == [] || !IsSpace(r[|r| - 1])
  {
    if |s| > 0 && IsSpace(s[|s| - 1]) then StripEnd(s[..|s| - 1]) else s
  }

  /** Python's `s.strip()`. */
  function Strip(s: string): (r: string)
    ensures r == [] <==> IsBlank(s)
    ensures r != [] ==> !IsSpace(r[0]) && !IsSpace(r[|r| - 1])
    ensures |s| > 0 && !IsSpace(s[0]) && !IsSpace(s[|s| - 1]) ==> r == s
  {
    StripEnd(StripStart(s))
  }

  lemma StripIdempotent(s: string)
    ensures Strip(Strip(s)) == Strip(s)
  {
  }

  function LowerChar(c: char): char {
    if 'A' <= c <= 'Z' then (c as int + 32) as char else c
  }

  /** Python's `s.lower()` on the ASCII letters; every other character is
      kept as it is. */
  function Lower(s: string): (r: string)
    ensures |r| == |s|
    ensures forall i :: 0 <= i < |s| ==> r[i] == LowerChar(s[i])
  {
    seq(|s|, i requires 0 <= i < |s| => LowerChar(s[i]))
  }

  lemma LowerConcat(a: string, b: string)
    ensures Lower(a + b) == Lower(a) + Lower(b)
  {
  }

  /** Lower-casing neither creates nor removes a non-letter such as '.'. */
  lemma LowerKeepsChar(s: string, c: char)
    requires !('A' <= c <= 'Z') && !('a' <= c <= 'z')
    ensures c in Lower(s) <==> c in s
  {
    if c in s {
      var i :| 0 <= i < |s| && s[i] == c;
      assert Lower(s)[i] == c;
    }
    if c in Lower(s) {
      var i :| 0 <= i < |s| && Lower(s)[i] == c;
      assert s[i] == c;
    }
  }

  predicate StartsWith(s: string, prefix: string) {
    |prefix| <= |s| && s[..|prefix|] == prefix
  }

  /** Python's `sub in s` for strings. */
  predicate Contains(s: string, sub: string)
    decreases |s|
  {
    StartsWith(s, sub) || (|s| > 0 && Contains(s[1..], sub))
  }

  lemma {:induction false} ContainsAt(s: string, sub: string, i: nat)
    requires i + |sub| <= |s| && s[i..i + |sub|] == sub
    ensures Contains(s, sub)
    decreases i
  {
    if i > 0 {
      assert s[1..][i - 1..i - 1 + |sub|] == s[i..i + |sub|];
      ContainsAt(s[1..], sub, i - 1);
    }
  }

  lemma ContainsSuffix(a: string, b: string)
    ensures Contains(a + b, b)
  {
    assert (a + b)[|a|..|a| + |b|] == b;
    ContainsAt(a + b, b, |a|);
  }

  lemma ContainsPrefix(a: string, b: string)
    ensures Contains(a + b, a)
  {
    assert (a + b)[0..|a|] == a;
    ContainsAt(a + b, a, 0);
  }

  lemma ContainsMiddle(a: string, b: string, c: string)
    ensures Contains(a + b + c, b)
  {
    assert (a + b + c)[|a|..|a| + |b|] == b;
    ContainsAt(a + b + c, b, |a|);
  }

  /** Python's `sep.join(parts)`. */
  function Join(parts: seq<string>, sep: string): (r: string)
    ensures |parts| == 0 ==> r == []
  {
    if |parts| == 0 then ""
    else if |parts| == 1 then parts[0]
    else parts[0] + sep + Join(parts[1..], sep)
  }

  lemma JoinAppend(parts: seq<string>, last: string, sep: string)
    requires |parts| > 0
    ensures Join(parts + [last], sep) == Join(parts, sep) + sep + last
  {
    if |parts| == 1 {
      assert parts + [last] == [parts[0], last];
    } else {
      assert (parts + [last])[1..] == parts[1..] + [last];
      JoinAppend(parts[1..], last, sep);
    }
  }

  function FirstIndex(s: string, c: char): (i: nat)
    requires c in s
    ensures i < |s| && s[i] == c && c !in s[..i]
  {
    if s[0] == c then 0
    else
      var j := FirstIndex(s[1..], c);
      assert s[..j + 1] == [s[0]] + s[1..][..j];
      j + 1
  }

  /** Python's `s.split(c)` for a one-character separator. */
  function Split(s: string, c: char): (parts: seq<string>)
    ensures |parts| >= 1
    decreases |s|
  {
    if c !in s then [s]
    else
      var i := FirstIndex(s, c);
      [s[..i]] + Split(s[i + 1..], c)
  }

  function Last<T>(xs: seq<T>): T
    requires |xs| > 0
  {
    xs[|xs| - 1]
  }

  lemma FirstIndexOfJoined(a: string, c: char, b: string)
    requires c !in a
    ensures FirstIndex(a + [c] + b, c) == |a|
  {
    var s := a + [c] + b;
    var i := FirstIndex(s, c);
    assert s[..|a|] == a;
    assert s[|a|] == c;
    assert c in s[..|a| + 1];
  }

  /** Splitting at the first separator: the piece before it, then the
      split of the rest. */
  lemma SplitCons(a: string, c: char, b: string)
    requires c !in a
    ensures Split(a + [c] + b, c) == [a] + Split(b, c)
  {
    var s := a + [c] + b;
    FirstIndexOfJoined(a, c, b);
    assert s[..|a|] == a;
    assert s[|a| + 1..] == b;
  }

  /** Joining pieces free of the separator and splitting again gives the
      pieces back. */
  lemma {:induction false} SplitJoin(parts: seq<string>, c: char)
    requires |parts| >= 1
    requires forall k :: 0 <= k < |parts| ==> c !in parts[k]
    ensures Split(Join(parts, [c]), c) == parts
  {
    if |parts| > 1 {
      var rest := Join(parts[1..], [c]);
      assert Join(parts, [c]) == parts[0] + [c] + rest;
      SplitCons(parts[0], c, rest);
      SplitJoin(parts[1..], c);
      assert parts == [parts[0]] + parts[1..];
    }
  }

  /** Cutting a string at its first `c`. */
  lemma CutAtFirst(x: string, c: char) returns (x1: string, x2: string)
    requires c in x
    ensures x == x1 + [c] + x2 && c !in x1
  {
    var i := FirstIndex(x, c);
    x1, x2 := x[..i], x[i + 1..];
    assert x == x1 + [x[i]] + x2;
  }

  /** The last piece of `s.split(c)` is whatever follows the last `c`. */
  lemma {:induction false} SplitLast(x: string, c: char, b: string)
    requires c !in b
    ensures Last(Split(x + [c] + b, c)) == b
    decreases |x|
  {
    if c in x {
      var x1, x2 := CutAtFirst(x, c);
      var rest := x2 + [c] + b;
      assert x + [c] + b == x1 + [c] + rest;
      SplitCons(x1, c, rest);
      SplitLast(x2, c, b);
    } else {
      SplitCons(x, c, b);
    }
  }

  /** The position of the last `c` in `s`. */
  function LastIndex(s: string, c: char): (i: nat)
    requires c in s
    ensures i < |s| && s[i] == c && c !in s[i + 1..]
  {
    if s[|s| - 1] == c then |s| - 1
    else
      assert c in s[..|s| - 1] by {
        var j :| 0 <= j < |s| && s[j] == c;
        assert s[..|s| - 1][j] == c;
      }
      var i := LastIndex(s[..|s| - 1], c);
      assert s[i + 1..] == s[..|s| - 1][i + 1..] + [s[|s| - 1]];
      i
  }

  /** The last piece of a split holds no separator and ends the string. */
  lemma LastPiece(s: string, c: char)
    ensures c !in Last(Split(s, c))
    ensures |Last(Split(s, c))| <= |s| && s[|s| - |Last(Split(s, c))|..] == Last(Split(s, c))
  {
    if c in s {
      var j := LastIndex(s, c);
      assert s == s[..j] + [c] + s[j + 1..];
      SplitLast(s[..j], c, s[j + 1..]);
    }
  }


  predicate IsDigit(c: char) {
    '0' <= c <= '9'
  }

  predicate AllDigits(s: string) {
    forall i :: 0 <= i < |s| ==> IsDigit(s[i])
  }

  function DigitChar(d: nat): (c: char)
    requires d < 10
    ensures IsDigit(c)
  {
    ('0' as int + d) as char
  }

  function DigitValue(c: char): (d: nat)
    requires IsDigit(c)
    ensures d < 10 && DigitChar(d) == c
  {
    c as int - '0' as int
  }

  /** The value of a string of decimal digits (the empty string reads 0). */
  function DigitsValue(s: string): nat
    requires AllDigits(s)
  {
    if |s| == 0 then 0 else DigitsValue(s[..|s| - 1]) * 10 + DigitValue(s[|s| - 1])
  }

  /** Python's `str(n)` for a natural number. */
  function NatToString(n: nat): (r: string)
    ensures |r| >= 1 && AllDigits(r)
  {
    if n < 10 then [DigitChar(n)] else NatToString(n / 10) + [DigitChar(n % 10)]
  }

  /** Python's `str(i)` for an integer. */
  function IntToString(i: int): string {
    if i < 0 then "-" + NatToString(-i) else NatToString(i)
  }

  lemma {:induction false} NatToStringValue(n: nat)
    ensures DigitsValue(NatToString(n)) == n
  {
    if n >= 10 {
      var s := NatToString(n);
      assert s[..|s| - 1] == NatToString(n / 10);
      NatToStringValue(n / 10);
    }
  }

  /** Different numbers print differently. */
  lemma NatToStringInjective(a: nat, b: nat)
    requires NatToString(a) == NatToString(b)
    ensures a == b
  {
    NatToStringValue(a);
    NatToStringValue(b);
  }

  /** A body Python's `int()` accepts after the sign: ASCII digits,
      optionally grouped by single underscores between digits. */
  predicate IsDigitGroup(s: string) {
    && |s| > 0
    && IsDigit(s[0])
    && IsDigit(s[|s| - 1])
    && (forall i :: 0 <= i < |s| ==> IsDigit(s[i]) || s[i] == '_')
    && (forall i :: 0 <= i < |s| - 1 ==> s[i] == '_' ==> s[i + 1] != '_')
  }

  function RemoveUnderscores(s: string): (r: string)
    ensures (forall i :: 0 <= i < |s| ==> IsDigit(s[i]) || s[i] == '_') ==> AllDigits(r)
    ensures AllDigits(s) ==> r == s
  {
    if |s| == 0 then ""
    else if s[0] == '_' then RemoveUnderscores(s[1..])
    else [s[0]] + RemoveUnderscores(s[1..])
  }

  /** Python's `int(s)` for a string: `None` stands for the `ValueError`
      it raises. */
  function ParseInt(s: string): (r: Option<int>)
    ensures IsBlank(s) ==> r == None
  {
    ParseSigned(Strip(s))
  }

  /** `int()` on an already stripped string: an optional sign, then a
      digit group. */
  function ParseSigned(t: string): (r: Option<int>)
    ensures r.Some? ==> |t| > 0 && IsDigit(t[|t| - 1])
  {
    if |t| == 0 then None
    else
      var body := if t[0] == '-' || t[0] == '+' then t[1..] else t;
      if !IsDigitGroup(body) then None
      else
        var magnitude: int := DigitsValue(RemoveUnderscores(body));
        Some(if t[0] == '-' then -magnitude else magnitude)
  }

  lemma DigitsAreGroup(d: string)
    requires |d| > 0 && AllDigits(d)
    ensures IsDigitGroup(d) && RemoveUnderscores(d) == d
  {
  }

  lemma StripUnpadded(s: string)
    requires |s| > 0 && (IsDigit(s[0]) || s[0] == '-') && IsDigit(s[|s| - 1])
    ensures Strip(s) == s
  {
    assert !IsSpace(s[0]) && !IsSpace(s[|s| - 1]);
    assert StripStart(s) == s;
    assert StripEnd(s) == s;
  }

  /** `int(str(i)) == i`. */
  lemma IntToStringRoundTrip(i: int)
    ensures ParseInt(IntToString(i)) == Some(i)
  {
    var digits := if i < 0 then -i else i;
    var d := NatToString(digits);
    NatToStringValue(digits);
    DigitsAreGroup(d);
    if i < 0 {
      var s := "-" + d;
      assert s[1..] == d;
      StripUnpadded(s);
      assert ParseSigned(s) == Some(i);
    } else {
      StripUnpadded(d);
      assert ParseSigned(d) == Some(i);
    }
  }

  /** Every piece appears in the joined text. */
  lemma {:induction false} JoinContains(parts: seq<string>, sep: string, k: nat)
    requires k < |parts|
    ensures Contains(Join(parts, sep), parts[k])
    decreases |parts|
  {
    if |parts| == 1 {
      ContainsSuffix("", parts[0]);
    } else if k == 0 {
      ContainsPrefix(parts[0], sep + Join(parts[1..], sep));
      assert Join(parts, sep) == parts[0] + (sep + Join(parts[1..], sep));
    } else {
      JoinContains(parts[1..], sep, k - 1);
      ContainsShift(parts[0] + sep, Join(parts[1..], sep), parts[k]);
      assert Join(parts, sep) == (parts[0] + sep) + Join(parts[1..], sep);
    }
  }

  lemma {:induction false} ContainsShift(a: string, b: string, sub: string)
    requires Contains(b, sub)
    ensures Contains(a + b, sub)
    decreases |a|
  {
    if |a| > 0 {
      ContainsShift(a[1..], b, sub);
      assert (a + b)[1..] == a[1..] + b;
    } else {
      assert a + b == b;
    }
  }

  /** Containment is transitive. */
  lemma ContainsWithin(s: string, mid: string, sub: string)
    requires Contains(s, mid) && Contains(mid, sub)
    ensures Contains(s, sub)
  {
    var i := ContainsIndex(s, mid);
    var j := ContainsIndex(mid, sub);
    forall k | 0 <= k < |sub|
      ensures s[i + j + k] == sub[k]
    {
      assert sub[k] == mid[j + k];
      assert mid[j + k] == s[i..i + |mid|][j + k];
    }
    assert s[i + j..i + j + |sub|] == sub;
    ContainsAt(s, sub, i + j);
  }

  /** Where a contained string starts. */
  lemma {:induction false} ContainsIndex(s: string, sub: string) returns (i: nat)
    requires Contains(s, sub)
    ensures i + |sub| <= |s| && s[i..i + |sub|] == sub
    decreases |s|
  {
    if StartsWith(s, sub) {
      i := 0;
    } else {
      var j := ContainsIndex(s[1..], sub);
      assert s[1..][j..j + |sub|] == s[j + 1..j + 1 + |sub|];
      i := j + 1;
    }
  }

  /** A join opens with its first part. */
  lemma JoinStarts(parts: seq<string>, sep: string)
    requires |parts| > 0
    ensures |parts[0]| <= |Join(parts, sep)| && Join(parts, sep)[..|parts[0]|] == parts[0]
  {
  }

  /** A join closes with its last part. */
  lemma JoinEnds(parts: seq<string>, sep: string)
    requires |parts| > 0
    ensures var r := Join(parts, sep); |Last(parts)| <= |r| && r[|r| - |Last(parts)|..] == Last(parts)
  {
    if |parts| > 1 {
      JoinAppend(parts[..|parts| - 1], Last(parts), sep);
      assert parts[..|parts| - 1] + [Last(parts)] == parts;
    }
  }

  /** Joining two non-empty lists is joining each and putting the
      separator between. */
  lemma {:induction false} JoinConcat(a: seq<string>, b: seq<string>, sep: string)
    requires |a| > 0 && |b| > 0
    ensures Join(a + b, sep) == Join(a, sep) + sep + Join(b, sep)
    decreases |a|
  {
    if |a| == 1 {
      assert (a + b)[1..] == b;
    } else {
      assert (a + b)[1..] == a[1..] + b;
      JoinConcat(a[1..], b, sep);
    }
  }
}

=== FILE: ui_common.dfy ===
/** What the web front-ends share: how a seed field is turned into the
    optional integer handed to the client, which result files are still on
    disk, and how a call into the client can end. */
module UiCommon {
  import opened Wrappers
  import opened Text
  import opened Seqs
  import opened Polling

  /** A seed as the front-ends receive it: absent (`None`), a number
      (Gradio's `Number` with precision 0, or a JSON number), or text (a
      JSON string or a form field). */
  datatype SeedInput = NoSeed | SeedNumber(n: int) | SeedText(text: string)

  /** Python truthiness of the seed. */
  predicate SeedTruthy(seed: SeedInput) {
    match seed
    case NoSeed => false
    case SeedNumber(n) => n != 0
    case SeedText(t) => t != ""
  }

  /** Python's `str(seed)`. */
  function SeedString(seed: SeedInput): string {
    match seed
    case NoSeed => "None"
    case SeedNumber(n) => IntToString(n)
    case SeedText(t) => t
  }

  /** The message of the `ValueError` raised by `int(s)`. */
  function IntValueError(s: string): string {
    "invalid literal for int() with base 10: '" + s + "'"
  }

  /** `int(seed) if seed and str(seed).strip() else None`, the Flask server
      and the simple, uvicorn and fixed front-ends: `None`, `0`, `""` and
      blank text mean "no seed", and text `int` rejects raises. */
  function TruthySeed(seed: SeedInput): (r: Result<Option<int>, string>)
    ensures seed == NoSeed || seed == SeedNumber(0) ==> r == Success(None)
    ensures seed.SeedText? && IsBlank(seed.text) ==> r == Success(None)
    ensures seed.SeedNumber? && seed.n != 0 ==> r == Success(Some(seed.n))
    ensures seed.SeedText? && !IsBlank(seed.text) ==>
      r == (if ParseInt(seed.text).Some? then Success(ParseInt(seed.text)) else Failure(IntValueError(seed.text)))
  {
    if !SeedTruthy(seed) || Strip(SeedString(seed)) == "" then Success(None)
    else match seed
      case SeedNumber(n) => Success(Some(n))
      case SeedText(t) => if ParseInt(t).Some? then Success(ParseInt(t)) else Failure(IntValueError(t))
  }

  /** `if seed is not None and seed != "": try: int(seed) except: pass`,
      the main Gradio front-end: text `int` rejects is dropped silently,
      and 0 stays a seed. */
  function LenientSeed(seed: SeedInput): (r: Option<int>)
    ensures seed.SeedNumber? ==> r == Some(seed.n)
    ensures seed.SeedText? ==> r == ParseInt(seed.text)
    ensures seed == NoSeed ==> r == None
  {
    match seed
    case NoSeed => None
    case SeedNumber(n) => Some(n)
    case SeedText(t) => if t == "" then None else ParseInt(t)
  }

  /** The two seed readings agree except on the number 0, which only the
      main Gradio front-end passes on, and on text `int` rejects, which
      only it forgives. */
  lemma SeedReadingsAgree(seed: SeedInput)
    ensures seed != SeedNumber(0) && TruthySeed(seed).Success? ==> TruthySeed(seed).value == LenientSeed(seed)
    ensures TruthySeed(SeedNumber(0)) == Success(None) && LenientSeed(SeedNumber(0)) == Some(0)
    ensures TruthySeed(seed).Failure? ==> seed.SeedText? && LenientSeed(seed) == None
  {
    if seed.SeedNumber? && seed.n != 0 {
      assert SeedString(seed) != [];
      assert Strip(SeedString(seed)) != [] by {
        var s := SeedString(seed);
        if seed.n < 0 {
          assert s[0] == '-' && !IsSpace(s[0]);
        } else {
          assert IsDigit(s[0]) && !IsSpace(s[0]);
        }
      }
    }
  }

  /** How calling into the client ends: it returned a result dictionary, or
      it raised. */
  datatype Call = Returned(result: ApiResult) | Raised(reason: string)

  /** `result["files"]` (empty for a failure dictionary, which has none). */
  function ResultFiles(r: ApiResult): seq<string> {
    if r.Failed? then [] else r.files
  }

  /** `os.path.exists` for the paths in `existing`. */
  function OnDisk(existing: set<string>): string -> bool {
    f => f in existing
  }

  /** `[f for f in files if os.path.exists(f)]`, with `existing` the paths
      present on disk: the existing files, in their order, a file listed
      twice kept twice. */
  function ExistingFiles(files: seq<string>, existing: set<string>): (kept: seq<string>)
    ensures kept == Filter(files, OnDisk(existing))
    ensures |kept| <= |files|
    ensures forall j :: 0 <= j < |kept| ==> kept[j] in existing && kept[j] in files
    ensures forall f :: f in files && f in existing ==> f in kept
    ensures kept == [] <==> forall f :: f in files ==> f !in existing
  {
    FilterFacts(files, OnDisk(existing));
    Filter(files, OnDisk(existing))
  }
}

=== FILE: wrappers.dfy ===
/** Option and Result values standing in for Python's `None` and for the
    error dictionaries and exceptions of the source. */
module Wrappers {

  datatype Option<+T> = None | Some(value: T) {

    /** The value, or `default` when there is none (Python's `x or default`
        for a value whose only falsy form is `None`). */
    function GetOr(default: T): T {
      match this
      case Some(v) => v
      case None => default
    }
  }

  datatype Result<+R, +E> = Success(value: R) | Failure(error: E)
}
